=== FILE: README.md ===
# Selefra module resolution, modelled in Dafny

This project models the module-declaration resolver of the Selefra CLI. That is the code that
turns the `modules:` documents of a workspace into one flat list of module declarations. It also
models two small neighbours: the SQL table-name extractor of `selefra apply`, and the cache and
version decisions taken before a registry module is used.

The resolver (config/config.go) works in these steps:

- Walk the workspace and keep every `.yaml` file (`GetAllConfig`). File each file's recognised
  top-level sections by section name (`readConfigFile`, `readAllConfig`).
- Expand every declaration whose `uses` names a directory into one declaration per `.yaml`
  document in that directory (`deepPathModules`).
- Build the document reference graph (`makeCyclePathMap`) and reject circular references
  (`checkCycle`).
- Rewrite registry references (`selefra/...`, `app.selefra.io/...`) to the local module cache.
  Link every declaration to the documents its uses name, and mark those documents used
  (`makeUsesModule`).
- Flatten every unused ("root") document depth first (`deepFmtModules`). Each child declaration
  is renamed `parent.child`, and every use naming a used document is pruned.

Alongside it: the key whitelist check `checkNode`/`hasKeys`, and the schema name `GetSchemaKey`.

The model's choices:

- Parsed YAML documents are values: `Docs = map<string, seq<Module>>`, with
  `Module(name, uses, children)`.
- A directory listing is the datatype `Fs`. The module cache lookup is a function parameter.
- Every place where Go iterates a map takes an explicit `order` sequence that enumerates the keys.
- A Go panic (an index out of range) is an `Err(IndexOutOfRange(..))` result.
- Where the code has a defect, the model holds both the code as written and the corrected code.
  A lemma shows the difference (see Findings). The pipeline (`Resolver.GetModules`) uses the
  corrected versions.

Modules, one per file: `Base` (Option, Result, errors), `Strings` (the Go string and path
functions used), `Documents`, `ConfigFiles`, `NodeCheck`, `SchemaKey`, `DirExpand`,
`CycleCheck`, `Link`, `Flatten`, `Resolver`, `SqlTables`, `Home`.

## Model

| member | source | states |
|---|---|---|
| ConfigFiles.GetAllConfig | config/config.go:210-236 | The corrected walk, where every subdirectory's files reach the one map. It fails exactly when an unreadable directory or unreadable `.yaml` file lies in the tree. Otherwise the map gains exactly the paths of all `.yaml` files below the directory, and earlier entries for other paths are kept. Each of those paths maps to the content of the last `.yaml` file in walk order with that joined path (`YamlText`). |
| ConfigFiles.WalkFiles | config/config.go:218-234 | The corrected loop over one listing: the same error condition, the same added key set, and the same stored content, entry by entry. |
| ConfigFiles.GetAllConfigAsWritten | config/config.go:210-236 | The walk as written fails under exactly the same conditions. On success the earlier entries are kept and only `.yaml` paths of the tree are added, but not necessarily all of them. |
| ConfigFiles.WalkFilesAsWritten | config/config.go:218-234 | The loop as written over one listing: the same error condition and the same bounds on the added keys. A subdirectory's result is kept only when the map passed in was non-empty. |
| ConfigFiles.AsWrittenTexts | config/config.go:225-231 | Every path the walk as written adds maps to the content of the last `.yaml` file with that joined path. What is lost is lost whole, never replaced by another file's content. |
| ConfigFiles.WalkAsWrittenTexts | config/config.go:218-234 | The same for the loop as written over one listing. |
| ConfigFiles.AsWrittenAgreesWhenSeeded | config/config.go:210-222 | Once the map holds an entry it is shared by every call below, and the walk as written equals the corrected walk. |
| ConfigFiles.WalkAgreesWhenSeeded | config/config.go:217-222 | The same for one listing. |
| ConfigFiles.OnlySubdirsCollectNothing | config/config.go:210-222 | Starting from an empty map, a listing of subdirectories only yields an empty map whatever they hold, because each one fills a fresh map that the caller drops. |
| ConfigFiles.AsWrittenLosesFirstSubdir | config/config.go:210-222 | Counterexample: a directory listing `a/` (holding `x.yaml`) before `b.yaml` yields only `b.yaml` as written. The corrected walk yields both. |
| ConfigFiles.PanicsIffOddTail | config/config.go:312-324 | Reading `Content[i+1]` for a recognised key panics exactly when the mapping has an odd number of entries and its last entry is a recognised section name. |
| ConfigFiles.FilterSections | config/config.go:313-337 | Only recognised section names become keys. The filter fails, with IndexOutOfRange, exactly when a recognised name sits in the last, valueless key position. |
| ConfigFiles.FilterSectionsDocs | config/config.go:313-337 | Each section's document set gains this file exactly when the file has that section at a key position. |
| ConfigFiles.FilterSectionsValue | config/config.go:313-337 | For every recognised section the file has, the entry filed under this path is `Section(name, value)`, where the value follows the last key position holding that name. A later occurrence overwrites an earlier one. |
| ConfigFiles.FilterSectionValue | config/config.go:313-337 | The same for one section name, by induction over the key positions. |
| ConfigFiles.FilterKeepsOtherFiles | config/config.go:332-335 | Filing one file's sections never removes or changes what was filed for other files, nor this file's entry for a section it does not have. |
| ConfigFiles.FileSectionDocs | config/config.go:332-335 | Filing a section adds exactly this file's path to that section's document set, creating the inner map when it is missing. |
| ConfigFiles.ReadConfigFile | config/config.go:304-340 | An unreadable file gives ReadFailed and files nothing. A readable file panics exactly on a dangling recognised last key. Otherwise every recognised section is filed under this path as `Section(name, value)`, where the value follows the section's last key position. |
| ConfigFiles.ReadAllConfig | config/config.go:271-302 | Walking the tree files each section of each readable `.yaml` file under that section, and nothing else. Read errors are swallowed, so only a panic is reported. |
| ConfigFiles.ReadAllIn | config/config.go:283-296 | The same for one directory listing, entry by entry, with subdirectories included. |
| ConfigFiles.FileSectionIff | config/config.go:312-335 | Unless the file panics, it files a section exactly when it has that section at a key position. |
| ConfigFiles.SectionTextsCoverDocs | config/config.go:271-302 | When nothing panics, the paths in the reference of filed section texts are exactly the documents that carry the section. |
| ConfigFiles.SectionTextsInCoverDocs | config/config.go:283-296 | The same for one directory listing. |
| ConfigFiles.ReadAllKeeps | config/config.go:271-302 | Reading a tree changes no entry except the paths of the files that file that section. |
| ConfigFiles.ReadAllInKeeps | config/config.go:283-296 | The same for one directory listing. |
| ConfigFiles.ReadAllText | config/config.go:271-302 | A path that files a section holds that file's `Section(name, value)`: the value after the section's last key position, in the last `.yaml` file in walk order with that path. |
| ConfigFiles.ReadAllInText | config/config.go:283-296 | The same for one directory listing. |
| ConfigFiles.ReadAllSectionValues | config/config.go:271-340 | On success, every document that carries a section is filed under that section with its own section text. |
| NodeCheck.HasKeys | config/config.go:911-918 | The linear search returns true iff the key occurs in the list. |
| NodeCheck.FileKeys | config/config.go:925-935 | The key loop fails exactly when some key position (even index, never the last element) holds a key that is not allowed. The error is IllegalKey carrying the value, line and column of the first such position. Otherwise every slot holds the value after its last key position, or its old value when no key position names it. |
| NodeCheck.FindMissing | config/config.go:936-941 | Returns nothing iff every slot is filled. Otherwise it returns the first key, in iteration order, whose slot is still empty. |
| NodeCheck.CheckNode | config/config.go:920-943 | Ok iff every key position holds an allowed key and every required (nil) slot is supplied. On Ok, the key set is kept and every slot is filled. A supplied slot holds the value after its last key position, and the others are unchanged. IllegalKey carries the value, line and column of the first bad key position, and the path. MissingKey names a required key that no key position supplies, with the path and YAML path. |
| SchemaKey.Sanitize | config/config.go:249-251 | The reference sanitiser leaves no '.', '/' or '@' and never lengthens the string. |
| SchemaKey.ReplacePassesSanitize | config/config.go:249-251 | The three `strings.Replace` passes equal one pass of the reference sanitiser. |
| SchemaKey.GetSchemaKey | config/config.go:243-254 | With no declaration the key is `public`. A nil source dereferences nil. A source without '/' panics. Otherwise the key is the sanitised `name@version`, then `_`, then the provider name, so it contains no '.', '/' or '@' before the provider part. |
| Strings.ExtIsYamlIffSuffix | config/config.go:225 | `path.Ext(p) == ".yaml"`, used by the walks, accepts the same names as `HasSuffix(p, ".yaml")`, used by the expansion. |
| DirExpand.DirectoryDocsSpec | config/config.go:579-589 | The collected paths are exactly the `.yaml` entries of the listing other than the declaring document, joined to the directory, in listing order. |
| DirExpand.ExpandDeclOutcomes | config/config.go:565-608 | The contract of `ExpandDecl`, one iteration of the inner loop, for a declaration in which no node but the `uses` key is the string `uses` (see "## Left out"). One declaration fails exactly on a missing `uses`, a nonexistent path, an os.Stat failure other than not-exist (NilDereference, since `file.IsDir()` is called on the nil result), an unreadable directory or a file without the `.yaml` suffix, and reports the first of these in that order. It is replaced exactly when `uses` is a directory listing an eligible document. The copies are then exactly the declaration with `uses` set to each such path, name and child links kept, in listing order. |
| DirExpand.ExpandDocAsWritten | config/config.go:564-602 | The loop as written has a fixed bound, removes at `i` and then advances `i`. The list never shrinks below the bound. |
| DirExpand.AsWrittenSkipsNextDecl | config/config.go:564-601 | Counterexample: in a document with two directory declarations, the second shifts into the visited slot and keeps its directory reference, although it expands. |
| DirExpand.ExpandFromOk | config/config.go:564-609 | The contract of `ExpandFrom`, the corrected loop: it finishes without error iff no declaration fails. |
| DirExpand.ExpandFromValue | config/config.go:564-609 | For `ExpandFrom`: without an error, the result is the kept declarations in order, then all copies in order. |
| DirExpand.ExpandFromError | config/config.go:564-609 | For `ExpandFrom`: on an error, it is the error of the first failing declaration. |
| DirExpand.ExpandDocSpec | config/config.go:564-609 | The contract of `ExpandDoc`, the corrected loop over one document: Ok iff every declaration expands without error. Then the result is the unchanged declarations followed by all copies. An error is that of some declaration. |
| DirExpand.IntendedExpandsBoth | config/config.go:564-602 | The corrected loop expands both declarations of the counterexample. |
| DirExpand.KeptDoNotExpand | config/config.go:590-602 | Every declaration a full expansion leaves in place would be left in place again. |
| DirExpand.BaseKeepsYaml | config/config.go:580-604 | The base name of a path with the `.yaml` suffix has that suffix, so a copy's `uses` passes the file check. |
| DirExpand.CopiesStay | config/config.go:590-604 | When every listed `.yaml` path is a regular file, every copy would be left in place if examined again. |
| DirExpand.ExpansionComplete | config/config.go:564-609 | Expansion is complete: when every listed `.yaml` path is a regular file, expanding an expanded document again succeeds and changes nothing. |
| DirExpand.UnchangedIsKept | config/config.go:590-601 | A declaration left unchanged stays in the expanded list. |
| DirExpand.CopiesAreAdded | config/config.go:590-601 | Every copy of an expanded declaration is in the expanded list. |
| DirExpand.EveryDeclAccountedFor | config/config.go:590-601 | Each declaration is either kept or replaced by all of its copies. |
| DirExpand.DeepPathFrom | config/config.go:563-611 | Expanding documents in iteration order keeps the key set and leaves unvisited documents untouched. |
| DirExpand.DeepPathFromOk | config/config.go:563-611 | The walk ends without error iff no remaining document fails to expand. |
| DirExpand.DeepPathFromValue | config/config.go:563-611 | With no error, each visited document is its own expansion. |
| DirExpand.DeepPathModules | config/config.go:562-612 | Over all documents: the key set is kept, there is no error iff every document expands cleanly, and each document is replaced by its expansion. |
| DirExpand.DeepPathChildless | config/config.go:591-600 | The copies carry the declaration's child links, so documents without links stay without them. |
| CycleCheck.MakeCyclePathMap | config/config.go:713-736 | Every document gets an entry, even one without edges. There is an edge A→U iff U is a document key and some declaration of A uses U. Every edge target is a key. |
| CycleCheck.CheckCycleAsWritten | config/config.go:738-750 | A false result restores the chain exactly (push/pop balance). A true result extends the chain with a walk of edges ending at the start. |
| CycleCheck.CheckFromAsWritten | config/config.go:738-750 | Seeded with the start path, true means the chain is a cycle through the start: it starts and ends there and consecutive entries are edges. False leaves the chain as `[start]`. |
| CycleCheck.AsWrittenDivergesOutsideCycle | config/config.go:738-750 | Counterexample: from `a` in a→b→c→b, the search never returns, whatever the depth bound. |
| CycleCheck.Dfs | config/config.go:738-750 | The corrected search keeps a set of finished nodes. When exhausted, all listed successors are finished or on the chain, and none is the start. It terminates. |
| CycleCheck.DfsFoundIsWalk | config/config.go:739-746 | A Found chain starts with the start path, ends with it and follows edges. |
| CycleCheck.CheckFrom | config/config.go:456-458 | Found is a cycle through the start. |
| CycleCheck.CheckFromIffCycle | config/config.go:456-462 | The corrected search reports Found iff a cycle through the start exists. |
| CycleCheck.CheckAll | config/config.go:455-462 | An error is CircularReference with a cycle from some document. Ok iff no start finds one. |
| CycleCheck.CheckAllFrom | config/config.go:455-461 | The loop over the start documents from position `k` of the iteration order: an error is CircularReference carrying the chain found from some later start, and Ok iff the search from every later start is exhausted. |
| CycleCheck.CheckAllIffAcyclic | config/config.go:455-462 | With every document enumerated, the check passes iff the reference graph has no cycle. |
| CycleCheck.CorrectedFindsLoopAside | config/config.go:738-750 | On the counterexample, the corrected search from `a` terminates without a cycle and the one from `b` finds b→c→b. |
| Link.RewriteUse | config/config.go:633-650 | `selefra...` with fewer than two '/'-parts panics. A lookup error propagates. Otherwise the first `selefra` is replaced by the cache path. `app.selefra.io...` with fewer than three parts panics. Otherwise the first two parts, `app.selefra.io/<org>`, are replaced by the cache path of `<name>` under `<org>`, and `/<name>...` is kept. The cache path reads as "" when the lookup fails, since that error is only logged. Any other use is unchanged. |
| Link.RewriteAll | config/config.go:632-651 | Rewriting a declaration's uses succeeds iff every use rewrites, and the results correspond element by element. |
| Link.PrefixUses | config/config.go:655-661 | Every use of every declaration of the linked document is joined onto the user's directory, with count and order kept. |
| Link.LinkOne | config/config.go:653-663 | Linking a document marks it used and appends it to the declaration's children. The used set stays exactly the set of linked children. |
| Link.LinkUses | config/config.go:652-665 | The loop over rewritten uses keeps that invariant and only grows the used set. |
| Link.LinkDecl | config/config.go:631-665 | Fails exactly when a use of the declaration cannot be rewritten. |
| Link.LinkDoc | config/config.go:631-665 | Linking the declarations of one document from position `i` on keeps the state well formed, keeps the shape of the document map, and only adds to the used set. |
| Link.LinkAll | config/config.go:630-667 | Linking all documents keeps the shape of the map and the used-iff-linked invariant. |
| Link.LinkUsesReads | config/config.go:652-665 | For any document paths, unless an absolute document uses itself: the loop reads the declaration's own uses. Its children gain exactly the uses that name documents, in order, and exactly those documents join the used set. |
| Link.LinkDeclMarksNamed | config/config.go:631-665 | For any document paths, unless an absolute document uses itself: linking a declaration fails iff a use cannot be rewritten. Otherwise the declaration becomes its reference linking, and the used set grows by exactly the documents its rewritten uses name. |
| Link.LinkOneRejoinsUses | config/config.go:655-661 | Linking an absolute document joins its directory onto every use of each of its declarations, including uses through which it already linked other documents. |
| Link.LinkDeclRelative | config/config.go:631-665 | Only for relative document paths: linking a declaration changes nothing else in the map, and the declaration becomes the reference: uses rewritten, and the rewritten uses that are document keys appended to its children in order. |
| Link.LinkAllRelativeOk | config/config.go:630-667 | Only for relative document paths: the linking loop succeeds iff every declaration of the visited documents links under the reference. |
| Link.LinkAllRelativeValue | config/config.go:630-667 | Only for relative document paths: after success, every declaration visited is its reference linking and the other documents are untouched. |
| Link.LinkAllRelative | config/config.go:630-667 | Only for relative document paths: the whole linking loop is the reference applied to every declaration. |
| Link.UsedIffReferenced | config/config.go:630-667 | Only for relative document paths: linking succeeds iff every use rewrites. Then each declaration's uses are its rewritten uses, and a document is marked used iff some rewritten use names it. |
| Flatten.KeepUnusedMembers | config/config.go:693-698 | Keeps exactly the uses not marked used. |
| Flatten.KeepUnusedInOrder | config/config.go:693-698 | The kept uses are a subsequence of the original, so relative order is kept. |
| Flatten.KeepUnusedAppend | config/config.go:693-698 | Pruning distributes over concatenation. |
| Flatten.PruneUses | config/config.go:693-698 | The in-place `i--` deletion loop computes exactly the reference pruning. |
| Flatten.FlattenModule | config/config.go:691-711 | The declaration's own entry comes last, with its uses pruned and no children. It succeeds iff its children flatten. |
| Flatten.FlattenChildrenAppend | config/config.go:700-707 | For `FlattenChildren`, the loop over a declaration's children: children are flattened in child order: the results for `a + b` are those for `a` followed by those for `b`. |
| Flatten.NamesModule | config/config.go:699-709 | Every entry is named after the declaration. All but its own entry are named `parent.` followed by a child declaration's name. |
| Flatten.NamesDecls | config/config.go:701-705 | For `FlattenDecls`, which flattens one child document's declarations under the renamed prefix: each entry is named the prefix followed by the name of one of the document's declarations: exactly that name, or that name followed by a dot and a renamed child. |
| Flatten.PrunedModule | config/config.go:693-709 | No entry of the flattening keeps a use naming a used document. |
| Flatten.CoversModule | config/config.go:699-709 | Every declaration of every child document appears, renamed `parent.child` and pruned. |
| Flatten.ErrorsModule | config/config.go:673-676 | Flattening fails only when a child link leads back to an ancestor document. This is the encode error of a self-referencing document. |
| Flatten.EmitRoots | config/config.go:668-684 | The reference for the emit loop over a list of roots: Ok iff every root's declarations flatten. The value is the first root's flattening followed by the rest. |
| Flatten.EmitAll | config/config.go:668-684 | The emit loop, which skips used documents, equals the reference applied to the unused documents of the iteration order, in that order. |
| Flatten.EmitCoversRoots | config/config.go:668-684 | Every declaration of every unused document appears, pruned. |
| Flatten.EmitNamedAfterRoots | config/config.go:668-684 | Every entry is named exactly after a declaration of an unused document, or after it followed by a dot and a renamed child. |
| Flatten.EmitPruned | config/config.go:668-684 | No entry of the output keeps a use naming a used document. |
| Flatten.LinkedState | config/config.go:614-667 | After linking succeeds, the documents keep their keys and a document is marked used iff some declaration links it as a child. |
| Flatten.EmitFlattened | config/config.go:668-689 | The emit loop over the linked documents produces a flattening, or fails on a child cycle. |
| Flatten.MakeUsesModule | config/config.go:614-689 | Ok implies linking succeeded and the output is exactly the reference flattening of the documents no declaration links as a child, in emit order. So it is pruned, contains every root declaration, and names every entry after a root declaration or a child renamed under one. If linking succeeds, the only possible error is a cycle in the encoded documents. |
| Resolver.GetModules | config/config.go:437-463 | The expanded documents have no children. The pipeline reports CircularReference, with a real cycle, whenever the expanded reference graph is cyclic. Ok implies the graph is acyclic and the output is exactly the flattening of the linked expanded documents. A directory-expansion error does not stop it. |
| SqlTables.RunLen | cmd/apply/apply.go:183-188 | The leading run is all word characters and is followed by a delimiter or the end. |
| SqlTables.WordsIffWordAt | cmd/apply/apply.go:183-196 | `w` is one of the words iff it is a non-empty maximal `[A-Za-z0-9_]` run, preceded by the start or a delimiter and followed by a delimiter. |
| SqlTables.WordsConcat | cmd/apply/apply.go:182-198 | A text that ends at a boundary contributes its words independently of what follows. |
| SqlTables.Whitelisted | cmd/apply/apply.go:190-193 | Keeps exactly the words that are whitelist keys, as a subsequence. |
| SqlTables.Match | cmd/apply/apply.go:178-199 | The in-word/last-index scan returns exactly the whitelisted words in occurrence order. |
| SqlTables.MatchMembers | cmd/apply/apply.go:190-193 | A result is always a whitelist key that occurs as a delimited word. |
| SqlTables.GetSqlTables | cmd/apply/apply.go:201-205 | The tables are the whitelisted words of the text after deleting every `\n`, in order. |
| SqlTables.DuplicatesKept | cmd/apply/apply.go:182-192 | A repeated word is reported each time. |
| SqlTables.TrailingWordDropped | cmd/apply/apply.go:182-198 | A word that runs to the end of the text is never reported. |
| SqlTables.NewlineJoinsWords | cmd/apply/apply.go:201-204 | A word split by a line break is reported joined. |
| SqlTables.MarkTables | cmd/apply/apply.go:169-176 | Keys become the old keys plus every table name in the tree, nested ones included. Every tree name maps to true, and every other key keeps its value, so nothing is removed or set false. |
| Home.CreateSource | pkg/utils/home.go:159-164 | The first result is always `selefra/path@version`. The second is `selefra/path@latest` iff `latest == "latest"`, and "" otherwise. |
| Home.CreateSourceSamePackage | pkg/utils/home.go:159-164 | Both sources name the package `selefra/path`, and the second is non-empty iff `latest` was asked for. |
| Home.SourceKey | pkg/utils/home.go:181-183 | The key names the same package as the source (the part before its first `@`, a prefix of the source without `@`) and ends in `@version`. |
| Home.GetPathBySource | pkg/utils/home.go:166-184 | A configuration error or a missing key gives "". When the key, package part plus `@version`, is present, the result is its stored value. |
| Home.SourceVersionIgnored | pkg/utils/home.go:181-183 | Any version already in the source is discarded. Only the version argument matters. |
| Home.PublicUpdate | pkg/utils/home.go:268-295 | The download is skipped iff the recorded `modules/name` version (missing reads "") equals the latest and the cache exists. Otherwise the result is: remove the cache, download the release at that version, record that version. A supplement error propagates. |
| Home.ModulesUpdate | pkg/utils/home.go:228-298 | An error locating, reading or decoding the configuration file is returned first, with nothing done. Otherwise an org package always downloads, after removing an existing cache, and leaves the memo alone. A public package fetches the latest version only when the memo is empty. A fetch error is returned with the memo unchanged. Otherwise the memoized value is used. |
| Home.OrgIgnoresVersions | pkg/utils/home.go:243-256 | For an org package the outcome does not depend on recorded versions, the memo or the registry. |
| Home.DownloadThenSkip | pkg/utils/home.go:268-285 | After a public download the new record is written, and a repeat call that sees it and the filled cache does nothing. |
| Home.GetHomeModulesPath | pkg/utils/home.go:56-77 | Ok iff the home directory is found, the update succeeds and the modules directory exists. The value is `home/download/modules`. Errors propagate in source order. |
| Home.SharedMemoReusesFirstVersion | pkg/utils/home.go:226-264 | Counterexample: updating module `a` and then `b` in one run installs `b` at `a`'s latest version. |
| Home.ModulesUpdateKeyed | pkg/utils/home.go:226-264 | The corrected memo is kept per module name, with otherwise the same decisions. |
| Home.KeyedUsesOwnLatest | pkg/utils/home.go:258-281 | A memo holding each module's own latest version stays that way, and any download is at the registry's latest version for that module. |
| Home.KeyedExampleInstallsOwnVersion | pkg/utils/home.go:258-281 | With the corrected memo, the counterexample installs `b` at its own latest version. |

## Left out

- YAML decoding and encoding (`assembleNode`, `fmtNodePath`, `deepCopyYamlContent`, the yaml.v3 marshal round trips): documents are given already parsed, and their marshal errors are not modelled.
- `getAllModules` and `checkModuleFile` (config/config.go:465-553) read referenced module files from disk into the document map. The document map is an input here.
- Filesystem, network and registry access (`os.ReadDir`, `os.Stat`, `os.ReadFile`, `Home`, `DownloadModule`, the metadata and supplement fetches). They are parameters (`Fs`, `Entry`, `Env`, the `Home` lookup of `Link`), and effects are returned as an action plan.
- Home.ModulesUpdate: errors from removing the cache, downloading, re-encoding and rewriting the configuration are not modelled. The model plans these actions but does not perform them. The error of the final `os.WriteFile`, which the source ignores, is not modelled either.
- Link.UsedIffReferenced: stated only for relative document paths, as are Link.LinkDeclRelative, Link.LinkAllRelativeOk, Link.LinkAllRelativeValue and Link.LinkAllRelative. Documents read from the module cache (config/config.go:498-507) have absolute keys. Linking one of them joins its directory onto its declarations' uses again (Link.LinkOneRejoinsUses). Its final uses then no longer name the documents it linked (Link.RejoinedUseDiffers), so the final uses do not determine the used set. For any paths, each single link is still proved to be the reference linking, and to grow the used set by exactly the named documents (Link.LinkDeclMarksNamed), except for an absolute document that uses itself.
- Link.RewriteUse: the module cache lookup is a pure function parameter. Its composition with `ModulesUpdate` through `GetHomeModulesPath` is not modelled, and the logging of the `app.selefra.io` lookup error is not modelled.
- DirExpand.ExpandDeclOutcomes: deepPathModules finds `uses` by comparing every node of the declaration's mapping with the string `uses`, keys and values alike (config/config.go:566-570). In each copy it overwrites the node after every node equal to `uses` (config/config.go:595-598). The model reads the `uses` field instead, so a declaration in which another node is the string `uses`, such as one named `uses`, is not modelled. In the source, `{uses: ./d, name: uses}` indexes past the end of the mapping. `{name: uses, uses: ./d}` expands, but each copy has its `uses` key overwritten with the copy's path, so the copy has no `uses`. The model expands both normally.
- DirExpand.ScalarUses: a YAML scalar `uses` is represented as a one-element list, and any other list reads as the empty scalar value. The model does not distinguish a scalar from a one-element sequence, and does not model the decode error yaml.v3 raises when `makeCyclePathMap` meets a scalar `uses`.
- Strings.PathJoin: `filepath.Join` and `filepath.Dir` are modelled without the lexical cleaning of `..`, `.` and repeated slashes.
- Flatten.ErrorsModule: the JSON encoder's failure on a document that links back to its ancestor is modelled as an immediate EncodeCycle error. The encoder's own depth threshold is not modelled.
- CycleCheck.CheckCycleAsWritten: the unbounded recursion of the code as written is cut off by a fuel bound. `None` stands for the stack overflow.
- Go map iteration order at config/config.go:443, 563, 618, 630, 668 and 922: each loop takes an explicit order sequence and no particular order is assumed.
- Swallowed errors: the `deepPathModules` error overwritten at config/config.go:450-451, and the read errors lost by the shadowed `err` in `readAllConfig`. Both are modelled as observed.
- The formatting of error texts (`fmt.Sprintf`, `strings.Join(..., " -> ")`) and the final YAML output of `makeUsesModule`: errors are datatypes carrying their data, and the output is the declaration list.
- SqlTables.Match: Go ranges over UTF-8 runes and slices by byte offset. The model works on characters, which yields the same words, since every non-ASCII character is a delimiter in both.
- `RunRules`, `UploadIssueFunc`, `fmtTemplate`, Cobra wiring and the other commands: concurrency, databases, templates and RPC, with no resolver logic.

## Findings

| source | as written | input that shows it | evidently intended | confidence | as-written member | corrected member |
|---|---|---|---|---|---|---|
| config/config.go:564-601 | `for i := range` fixes the bound. An expanded declaration is cut out at `i`, which shifts its successor into slot `i`, and the loop then moves on to `i + 1`. | A document declaring `A` with uses `d` and `B` with uses `e`, where both are directories holding one `.yaml` file. `B` is never examined and keeps its directory reference. | Every declaration is examined and every directory reference is expanded. | high; not executed | DirExpand.ExpandDocAsWritten, DirExpand.AsWrittenSkipsNextDecl | DirExpand.ExpandDocSpec, DirExpand.IntendedExpandsBoth |
| config/config.go:210-222 | An empty map is replaced by a fresh one (`fileMap = make(FileMap)`), and the recursive call's result is dropped (`_, err :=`). | A directory `w` listing the subdirectory `a` (holding `x.yaml`) before `b.yaml`, walked from an empty map, yields only `w/b.yaml`. Every subdirectory listed before the first `.yaml` file of the top directory is lost. | Every `.yaml` file of the tree is collected. | high; not executed | ConfigFiles.GetAllConfigAsWritten, ConfigFiles.AsWrittenLosesFirstSubdir | ConfigFiles.GetAllConfig, ConfigFiles.AsWrittenAgreesWhenSeeded |
| config/config.go:738-750 | The depth-first search keeps no visited set and stops only on reaching the start path. | The graph a→b, b→c, c→b searched from `a` recurses forever (a stack overflow). Whether GetModulesStr crashes or reports b→c→b depends on map order. | Circular references are reported whatever the iteration order, and the search terminates. | high; not executed | CycleCheck.CheckFromAsWritten, CycleCheck.AsWrittenDivergesOutsideCycle | CycleCheck.CheckAll, CycleCheck.CheckAllIffAcyclic, CycleCheck.CorrectedFindsLoopAside |
| pkg/utils/home.go:226-264 | One process-wide `LatestVersion` memo is shared by all module names. | Updating module `a` (latest 1.0) and then module `b` (latest 2.0) in one run downloads `b` at 1.0 and records 1.0 for it. | The latest version is memoized per module. | medium; not executed | Home.ModulesUpdate, Home.SharedMemoReusesFirstVersion | Home.ModulesUpdateKeyed, Home.KeyedUsesOwnLatest |

=== FILE: base.dfy ===
/** Shared failure-carrying datatypes and the error kinds the configuration core reports. */
module Base {

  /** Go's "value or nil". */
  datatype Option<+T> = None | Some(value: T)

  /** The error values the modelled Go functions return (or the runtime panics they hit). */
  datatype Error =
    | MissingUses                               // "Module configuration error, missing uses"
    | ModuleFileMissing(path: string)           // "Module file does not exist:<path>"
    | OpenDirFailed(path: string)               // "open dir failed:..."
    | ModuleFileNotYaml(path: string)           // "Module file does not yaml:<path>"
    | CircularReference(chain: seq<string>)     // "Modules have circular references:a -> b -> a"
    | IllegalKey(key: string, path: string, line: nat, column: nat)
    | MissingKey(path: string, yamlPath: string, key: string)
    | ReadFailed(path: string)                  // os.ReadDir / os.ReadFile failed
    | IndexOutOfRange(input: string)            // a Go slice index past the end (runtime panic)
    | NilDereference                            // a Go nil pointer dereference (runtime panic)
    | FetchFailed(name: string)                 // a collaborator (registry, download) failed
    | EncodeCycle(path: string)                 // encoding/json: "encountered a cycle"

  /** A value or an error, usable with `:-`. */
  datatype Result<+T> = Ok(value: T) | Err(error: Error) {
    predicate IsFailure() { Err? }
    function PropagateFailure<U>(): Result<U>
      requires Err?
    {
      Err(error)
    }
    function Extract(): T
      requires Ok?
    {
      value
    }
  }

  /** `a` is `b` with some elements left out, the rest in their original order. */
  predicate IsSubsequence<T(==)>(a: seq<T>, b: seq<T>)
    decreases |b|
  {
    |a| == 0 || (|b| > 0 && if a[0] == b[0] then IsSubsequence(a[1..], b[1..]) else IsSubsequence(a, b[1..]))
  }

  /** No element occurs twice. */
  predicate Distinct<T(==)>(s: seq<T>) {
    forall i, j :: 0 <= i < j < |s| ==> s[i] != s[j]
  }
}

=== FILE: config_files.dfy ===
/** The workspace walks of config/config.go: `GetAllConfig` (every `.yaml` file's text, keyed by path)
    and `readAllConfig`/`readConfigFile` (each recognised top-level section of every `.yaml` file,
    grouped by section name and then by path). The filesystem is a listing tree; the YAML parser is
    represented by the list of top-level node values it would produce for each file. */
module ConfigFiles {
  import opened Base
  import opened Strings

  /** One directory entry as os.ReadDir lists it. For a file, `content` is its text and `top` the
      values of the children of its top-level YAML node (keys and values alternating for a mapping).
      `readable` is false when os.ReadFile / os.ReadDir fails on it. */
  datatype Entry =
    | File(name: string, readable: bool, content: string, top: seq<string>)
    | Dir(name: string, readable: bool, entries: seq<Entry>)

  const SELEFRA := "selefra"
  const MODULES := "modules"
  const PROVIDERS := "providers"
  const VARIABLES := "variables"
  const RULES := "rules"

  /** The `typeMap` whitelist of top-level sections. */
  const SectionKeys: set<string> := {SELEFRA, MODULES, PROVIDERS, RULES, VARIABLES}

  predicate IsYamlName(name: string) {
    Ext(name) == ".yaml"
  }

  // ---------------------------------------------------------------- GetAllConfig

  type FileMap = map<string, string>

  /** Reference: the paths of all `.yaml` files in the tree below `dirname`. */
  ghost function YamlPaths(dirname: string, entries: seq<Entry>): set<string>
    decreases entries
  {
    if |entries| == 0 then {}
    else
      var e := entries[0];
      var p := PathJoin(dirname, e.name);
      (match e
       case Dir(_, _, sub) => YamlPaths(p, sub)
       case File(name, _, _, _) => if IsYamlName(name) then {p} else {})
      + YamlPaths(dirname, entries[1..])
  }

  /** Reference: the text of the last `.yaml` file in walk order whose joined path is `k`, if any. */
  ghost function YamlText(dirname: string, entries: seq<Entry>, k: string): (t: Option<string>)
    ensures t.Some? <==> k in YamlPaths(dirname, entries)
    decreases entries
  {
    if |entries| == 0 then None
    else
      var later := YamlText(dirname, entries[1..], k);
      if later.Some? then later
      else
        var p := PathJoin(dirname, entries[0].name);
        match entries[0]
        case Dir(_, _, sub) => YamlText(p, sub, k)
        case File(name, _, content, _) => if IsYamlName(name) && p == k then Some(content) else None
  }

  /** Reference: the tree holds an unreadable directory or an unreadable `.yaml` file. */
  ghost predicate Blocked(readable: bool, entries: seq<Entry>)
    decreases entries, 1
  {
    !readable || BlockedEntries(entries)
  }

  ghost predicate BlockedEntries(entries: seq<Entry>)
    decreases entries, 0
  {
    |entries| > 0 &&
    ((match entries[0]
      case Dir(_, readable, sub) => Blocked(readable, sub)
      case File(name, readable, _, _) => IsYamlName(name) && !readable)
     || BlockedEntries(entries[1..]))
  }

  /** GetAllConfig(dirname, fileMap): walks the tree, adding every `.yaml` file's text under its
      joined path; the first unreadable directory or `.yaml` file aborts the walk. */
  function GetAllConfig(dirname: string, readable: bool, entries: seq<Entry>, acc: FileMap): (r: Result<FileMap>)
    ensures r.Err? <==> Blocked(readable, entries)
    ensures r.Ok? ==> r.value.Keys == acc.Keys + YamlPaths(dirname, entries)
    ensures r.Ok? ==> forall k :: k in acc && k !in YamlPaths(dirname, entries) ==> r.value[k] == acc[k]
    ensures r.Ok? ==> forall k :: k in YamlPaths(dirname, entries) ==> Some(r.value[k]) == YamlText(dirname, entries, k)
    decreases entries, 1
  {
    if !readable then Err(ReadFailed(dirname)) else WalkFiles(dirname, entries, acc)
  }

  function WalkFiles(dirname: string, entries: seq<Entry>, acc: FileMap): (r: Result<FileMap>)
    ensures r.Err? <==> BlockedEntries(entries)
    ensures r.Ok? ==> r.value.Keys == acc.Keys + YamlPaths(dirname, entries)
    ensures r.Ok? ==> forall k :: k in acc && k !in YamlPaths(dirname, entries) ==> r.value[k] == acc[k]
    ensures r.Ok? ==> forall k :: k in YamlPaths(dirname, entries) ==> Some(r.value[k]) == YamlText(dirname, entries, k)
    decreases entries, 0
  {
    if |entries| == 0 then Ok(acc)
    else
      var e := entries[0];
      var p := PathJoin(dirname, e.name);
      match e
      case Dir(_, readable, sub) =>
        (match GetAllConfig(p, readable, sub, acc)
         case Err(err) => Err(err)
         case Ok(acc1) => WalkFiles(dirname, entries[1..], acc1))
      case File(name, readable, content, _) =>
        if !IsYamlName(name) then WalkFiles(dirname, entries[1..], acc)
        else if !readable then Err(ReadFailed(p))
        else WalkFiles(dirname, entries[1..], acc[p := content])
  }

  /** GetAllConfig as written. A caller whose map is still empty passes it down, the callee
      replaces it with a fresh map (`fileMap = make(FileMap)`), and the caller drops the callee's
      result (`_, err :=`), so what the callee collected is lost. A non-empty map is shared, so
      the callee's additions reach the caller. Errors always propagate. */
  function GetAllConfigAsWritten(dirname: string, readable: bool, entries: seq<Entry>, acc: FileMap): (r: Result<FileMap>)
    ensures r.Err? <==> Blocked(readable, entries)
    ensures r.Ok? ==> acc.Keys <= r.value.Keys <= acc.Keys + YamlPaths(dirname, entries)
    ensures r.Ok? ==> forall k :: k in acc && k !in YamlPaths(dirname, entries) ==> r.value[k] == acc[k]
    decreases entries, 1
  {
    if !readable then Err(ReadFailed(dirname)) else WalkFilesAsWritten(dirname, entries, acc)
  }

  function WalkFilesAsWritten(dirname: string, entries: seq<Entry>, acc: FileMap): (r: Result<FileMap>)
    ensures r.Err? <==> BlockedEntries(entries)
    ensures r.Ok? ==> acc.Keys <= r.value.Keys <= acc.Keys + YamlPaths(dirname, entries)
    ensures r.Ok? ==> forall k :: k in acc && k !in YamlPaths(dirname, entries) ==> r.value[k] == acc[k]
    decreases entries, 0
  {
    if |entries| == 0 then Ok(acc)
    else
      var e := entries[0];
      var p := PathJoin(dirname, e.name);
      match e
      case Dir(_, readable, sub) =>
        (match GetAllConfigAsWritten(p, readable, sub, acc)
         case Err(err) => Err(err)
         case Ok(acc1) => WalkFilesAsWritten(dirname, entries[1..], if |acc| > 0 then acc1 else acc))
      case File(name, readable, content, _) =>
        if !IsYamlName(name) then WalkFilesAsWritten(dirname, entries[1..], acc)
        else if !readable then Err(ReadFailed(p))
        else WalkFilesAsWritten(dirname, entries[1..], acc[p := content])
  }

  /** Once the map holds an entry it is shared by every call below, and the walk as written
      collects exactly what the intended walk collects. */
  lemma {:induction false} AsWrittenAgreesWhenSeeded(dirname: string, readable: bool, entries: seq<Entry>, acc: FileMap)
    requires |acc| > 0
    ensures GetAllConfigAsWritten(dirname, readable, entries, acc) == GetAllConfig(dirname, readable, entries, acc)
    decreases entries, 1
  {
    if readable {
      WalkAgreesWhenSeeded(dirname, entries, acc);
    }
  }

  lemma {:induction false} WalkAgreesWhenSeeded(dirname: string, entries: seq<Entry>, acc: FileMap)
    requires |acc| > 0
    ensures WalkFilesAsWritten(dirname, entries, acc) == WalkFiles(dirname, entries, acc)
    decreases entries, 0
  {
    if |entries| > 0 {
      var e := entries[0];
      var p := PathJoin(dirname, e.name);
      match e
      case Dir(_, readable, sub) =>
        AsWrittenAgreesWhenSeeded(p, readable, sub, acc);
        var r := GetAllConfig(p, readable, sub, acc);
        if r.Ok? {
          assert acc.Keys <= r.value.Keys;
          assert |r.value| > 0 by {
            var k :| k in acc;
            assert k in r.value;
          }
          WalkAgreesWhenSeeded(dirname, entries[1..], r.value);
        }
      case File(name, readable, content, _) =>
        if IsYamlName(name) && readable {
          assert p in acc[p := content];
          WalkAgreesWhenSeeded(dirname, entries[1..], acc[p := content]);
        } else if !IsYamlName(name) {
          WalkAgreesWhenSeeded(dirname, entries[1..], acc);
        }
    }
  }

  /** Whatever the walk as written adds to the map is the text of the last `.yaml` file with that
      joined path; what it loses is lost whole, never replaced by another file's text. */
  lemma {:induction false} AsWrittenTexts(dirname: string, readable: bool, entries: seq<Entry>, acc: FileMap)
    ensures var r := GetAllConfigAsWritten(dirname, readable, entries, acc);
      r.Ok? ==> forall k :: k in r.value.Keys - acc.Keys ==> Some(r.value[k]) == YamlText(dirname, entries, k)
    decreases entries, 1
  {
    if |acc| > 0 {
      AsWrittenAgreesWhenSeeded(dirname, readable, entries, acc);
    } else if readable {
      WalkAsWrittenTexts(dirname, entries, acc);
    }
  }

  lemma {:induction false} WalkAsWrittenTexts(dirname: string, entries: seq<Entry>, acc: FileMap)
    ensures var r := WalkFilesAsWritten(dirname, entries, acc);
      r.Ok? ==> forall k :: k in r.value.Keys - acc.Keys ==> Some(r.value[k]) == YamlText(dirname, entries, k)
    decreases entries, 0
  {
    if |acc| > 0 {
      WalkAgreesWhenSeeded(dirname, entries, acc);
    } else if |entries| > 0 {
      var e := entries[0];
      var p := PathJoin(dirname, e.name);
      var rest := entries[1..];
      var r := WalkFilesAsWritten(dirname, entries, acc);
      match e
      case Dir(_, readable, sub) =>
        if r.Ok? {
          assert GetAllConfigAsWritten(p, readable, sub, acc).Ok?;
          assert r == WalkFilesAsWritten(dirname, rest, acc);
          WalkAsWrittenTexts(dirname, rest, acc);
          forall k | k in r.value.Keys - acc.Keys
            ensures Some(r.value[k]) == YamlText(dirname, entries, k)
          {
            assert k in YamlPaths(dirname, rest);
          }
        }
      case File(name, readable, content, _) =>
        if !IsYamlName(name) {
          WalkAsWrittenTexts(dirname, rest, acc);
        } else if readable && r.Ok? {
          var acc2 := acc[p := content];
          assert p in acc2;
          assert r == WalkFilesAsWritten(dirname, rest, acc2);
          WalkAgreesWhenSeeded(dirname, rest, acc2);
          forall k | k in r.value.Keys - acc.Keys
            ensures Some(r.value[k]) == YamlText(dirname, entries, k)
          {
            if k !in YamlPaths(dirname, rest) {
              assert k == p;
            }
          }
        }
    }
  }

  /** Starting from an empty map, a listing of subdirectories only collects nothing: every
      subdirectory is walked into a fresh map that is then dropped. */
  lemma {:induction false} OnlySubdirsCollectNothing(dirname: string, entries: seq<Entry>)
    requires forall i :: 0 <= i < |entries| ==> entries[i].Dir?
    ensures WalkFilesAsWritten(dirname, entries, map[]).Ok? ==> WalkFilesAsWritten(dirname, entries, map[]).value == map[]
    decreases entries
  {
    if |entries| > 0 {
      assert entries[0].Dir?;
      OnlySubdirsCollectNothing(dirname, entries[1..]);
    }
  }

  /** The workspace `w` listing the directory `a` (holding `x.yaml`) before `b.yaml`, in the name
      order os.ReadDir returns. */
  function ExampleWorkspace(): seq<Entry> {
    [Dir("a", true, [File("x.yaml", true, "X", [])]), File("b.yaml", true, "B", [])]
  }

  /** Counterexample: the walk as written keeps only `w/b.yaml`; the intended walk also keeps
      `w/a/x.yaml`. */
  lemma AsWrittenLosesFirstSubdir()
    ensures GetAllConfigAsWritten("w", true, ExampleWorkspace(), map[]) == Ok(map["w/b.yaml" := "B"])
    ensures GetAllConfig("w", true, ExampleWorkspace(), map[]) == Ok(map["w/a/x.yaml" := "X", "w/b.yaml" := "B"])
  {
    ExampleAsWritten();
    ExampleIntended();
  }

  /** The facts about the example's names both walks rely on. */
  lemma ExampleNames()
    ensures PathJoin("w", "a") == "w/a"
    ensures PathJoin("w/a", "x.yaml") == "w/a/x.yaml"
    ensures PathJoin("w", "b.yaml") == "w/b.yaml"
    ensures IsYamlName("x.yaml") && IsYamlName("b.yaml")
  {
    ExtIsYamlIffSuffix("x.yaml");
    ExtIsYamlIffSuffix("b.yaml");
  }

  lemma ExampleAsWritten()
    ensures GetAllConfigAsWritten("w", true, ExampleWorkspace(), map[]) == Ok(map["w/b.yaml" := "B"])
  {
    var es := ExampleWorkspace();
    ExampleNames();
    var sub := [File("x.yaml", true, "X", [])];
    assert es[1..] == [File("b.yaml", true, "B", [])];
    assert sub[1..] == [];
    assert GetAllConfigAsWritten("w/a", true, sub, map[]) == Ok(map["w/a/x.yaml" := "X"]);
  }

  lemma ExampleIntended()
    ensures GetAllConfig("w", true, ExampleWorkspace(), map[]) == Ok(map["w/a/x.yaml" := "X", "w/b.yaml" := "B"])
  {
    var es := ExampleWorkspace();
    ExampleNames();
    var sub := [File("x.yaml", true, "X", [])];
    assert es[1..] == [File("b.yaml", true, "B", [])];
    assert sub[1..] == [];
    assert GetAllConfig("w/a", true, sub, map[]) == Ok(map["w/a/x.yaml" := "X"]);
  }

  // ---------------------------------------------------------------- readConfigFile

  /** The one-entry mapping `key: value` that readConfigFile marshals and stores. */
  datatype Section = Section(key: string, value: string)

  type ConfigMap = map<string, map<string, Section>>

  /** The documents recorded under `key`. */
  function DocsOf(cm: ConfigMap, key: string): set<string> {
    if key in cm then cm[key].Keys else {}
  }

  /** Reference: some key position (even, at or after the even position `i`) holds `key`. */
  predicate HasSectionFrom(top: seq<string>, key: string, i: nat)
    decreases |top| - i
  {
    i < |top| && (top[i] == key || HasSectionFrom(top, key, i + 2))
  }

  /** Reference: the last key position (even, at or after the even position `i`) holding `key`,
      or -1 when there is none. */
  function LastSectionFrom(top: seq<string>, key: string, i: nat): (j: int)
    ensures j >= 0 <==> HasSectionFrom(top, key, i)
    ensures j >= 0 ==> i <= j < |top| && (j - i) % 2 == 0 && top[j] == key && !HasSectionFrom(top, key, j + 2)
    decreases |top| - i
  {
    if i >= |top| then -1
    else
      var later := LastSectionFrom(top, key, i + 2);
      if later >= 0 then later else if top[i] == key then i else -1
  }

  /** Reference: the section a readable `.yaml` file with key list `top` files under `key`: the
      name with the value after its last key position. */
  function FileSection(key: string, top: seq<string>): Option<Section> {
    var j := LastSectionFrom(top, key, 0);
    if key in SectionKeys && 0 <= j && j + 1 < |top| then Some(Section(key, top[j + 1])) else None
  }

  /** Outside the panicking shape, a file files a section exactly when it has that section. */
  lemma FileSectionIff(key: string, top: seq<string>)
    requires !(|top| % 2 == 1 && top[|top| - 1] in SectionKeys)
    ensures FileSection(key, top).Some? <==> key in SectionKeys && HasSectionFrom(top, key, 0)
  {
  }

  /** Reference: the key positions from `i` on end with a recognised section name in the last
      position, where readConfigFile reads the value past the end of the list. */
  predicate PanicsFrom(top: seq<string>, i: nat)
    decreases |top| - i
  {
    i < |top| && (if i + 1 == |top| then top[i] in SectionKeys else PanicsFrom(top, i + 2))
  }

  lemma {:induction false} PanicsIffOddTail(top: seq<string>, i: nat)
    requires i % 2 == 0
    ensures PanicsFrom(top, i) <==> i < |top| && |top| % 2 == 1 && top[|top| - 1] in SectionKeys
    decreases |top| - i
  {
    if i + 1 < |top| {
      PanicsIffOddTail(top, i + 2);
    }
  }

  /** The key-filter loop of readConfigFile from the key position `i` on (the odd positions hold
      values and are skipped): a recognised section name stores `name: next value` under that
      section for this file. */
  function FilterSections(path: string, top: seq<string>, i: nat, cm: ConfigMap): (r: Result<ConfigMap>)
    ensures r.Err? <==> PanicsFrom(top, i)
    ensures r.Err? ==> r.error == IndexOutOfRange(path)
    ensures r.Ok? ==> r.value.Keys <= cm.Keys + SectionKeys
    decreases |top| - i
  {
    if i >= |top| then Ok(cm)
    else if top[i] !in SectionKeys then FilterSections(path, top, i + 2, cm)
    else if i + 1 >= |top| then Err(IndexOutOfRange(path))
    else
      var key := top[i];
      var inner := if key in cm then cm[key] else map[];
      FilterSections(path, top, i + 2, cm[key := inner[path := Section(key, top[i + 1])]])
  }

  /** Each section's document set gains this file exactly when the file has that section at a
      key position from `i` on. */
  lemma {:induction false} FilterSectionsDocs(path: string, top: seq<string>, i: nat, cm: ConfigMap)
    ensures var r := FilterSections(path, top, i, cm);
      r.Ok? ==> forall key ::
        DocsOf(r.value, key) == DocsOf(cm, key) + (if key in SectionKeys && HasSectionFrom(top, key, i) then {path} else {})
    decreases |top| - i
  {
    if i < |top| {
      if top[i] !in SectionKeys {
        FilterSectionsDocs(path, top, i + 2, cm);
      } else if i + 1 < |top| {
        var key := top[i];
        var inner := if key in cm then cm[key] else map[];
        var cm1 := cm[key := inner[path := Section(key, top[i + 1])]];
        FileSectionDocs(cm, key, path, top[i + 1]);
        FilterSectionsDocs(path, top, i + 2, cm1);
      }
    }
  }

  /** The section filed for this file is the name with the value after its last key position:
      a later occurrence of the same section overwrites an earlier one. */
  lemma FilterSectionsValue(path: string, top: seq<string>, i: nat, cm: ConfigMap)
    ensures var r := FilterSections(path, top, i, cm);
      r.Ok? ==> forall key :: key in SectionKeys && HasSectionFrom(top, key, i) ==>
        var j := LastSectionFrom(top, key, i);
        j + 1 < |top| && key in r.value && path in r.value[key] && r.value[key][path] == Section(key, top[j + 1])
  {
    forall key | FilterSections(path, top, i, cm).Ok? && key in SectionKeys && HasSectionFrom(top, key, i) {
      FilterSectionValue(path, top, i, cm, key);
    }
  }

  lemma {:induction false} FilterSectionValue(path: string, top: seq<string>, i: nat, cm: ConfigMap, key: string)
    requires FilterSections(path, top, i, cm).Ok?
    requires key in SectionKeys && HasSectionFrom(top, key, i)
    ensures var r := FilterSections(path, top, i, cm).value;
      var j := LastSectionFrom(top, key, i);
      j + 1 < |top| && key in r && path in r[key] && r[key][path] == Section(key, top[j + 1])
    decreases |top| - i
  {
    if top[i] !in SectionKeys {
      assert FilterSections(path, top, i, cm) == FilterSections(path, top, i + 2, cm);
      FilterSectionValue(path, top, i + 2, cm, key);
    } else {
      assert i + 1 < |top|;
      var k := top[i];
      var inner := if k in cm then cm[k] else map[];
      var cm1 := cm[k := inner[path := Section(k, top[i + 1])]];
      assert FilterSections(path, top, i, cm) == FilterSections(path, top, i + 2, cm1);
      if HasSectionFrom(top, key, i + 2) {
        FilterSectionValue(path, top, i + 2, cm1, key);
      } else {
        assert key == k && LastSectionFrom(top, key, i) == i;
        FilterKeepsOtherFiles(path, top, i + 2, cm1, k, path);
      }
    }
  }

  /** Filing one file's sections touches nothing but this file's entries for the sections it has. */
  lemma {:induction false} FilterKeepsOtherFiles(path: string, top: seq<string>, i: nat, cm: ConfigMap, key: string, q: string)
    requires FilterSections(path, top, i, cm).Ok?
    requires key in cm && q in cm[key]
    requires q != path || key !in SectionKeys || !HasSectionFrom(top, key, i)
    ensures var r := FilterSections(path, top, i, cm).value;
            key in r && q in r[key] && r[key][q] == cm[key][q]
    decreases |top| - i
  {
    if i < |top| {
      if top[i] !in SectionKeys {
        assert FilterSections(path, top, i, cm) == FilterSections(path, top, i + 2, cm);
        FilterKeepsOtherFiles(path, top, i + 2, cm, key, q);
      } else {
        assert i + 1 < |top|;
        var k := top[i];
        var inner := if k in cm then cm[k] else map[];
        var cm1 := cm[k := inner[path := Section(k, top[i + 1])]];
        assert FilterSections(path, top, i, cm) == FilterSections(path, top, i + 2, cm1);
        assert key in cm1 && q in cm1[key] && cm1[key][q] == cm[key][q] by {
          if key == k {
            assert q != path;
            assert cm1[key] == cm[key][path := Section(k, top[i + 1])];
          }
        }
        FilterKeepsOtherFiles(path, top, i + 2, cm1, key, q);
      }
    }
  }

  /** Filing one section under `path` adds exactly `path` to that section's documents. */
  lemma FileSectionDocs(cm: ConfigMap, key: string, path: string, value: string)
    ensures var inner := if key in cm then cm[key] else map[];
            forall k :: DocsOf(cm[key := inner[path := Section(key, value)]], k) ==
                        DocsOf(cm, k) + (if k == key then {path} else {})
  {
  }

  /** readConfigFile: a file that cannot be read leaves the map as it was and reports the error;
      otherwise the file's recognised sections are filed under its path. */
  function ReadConfigFile(path: string, readable: bool, top: seq<string>, cm: ConfigMap): (r: Result<ConfigMap>)
    ensures !readable ==> r == Err(ReadFailed(path))
    ensures readable ==> (r.Err? <==> |top| % 2 == 1 && top[|top| - 1] in SectionKeys)
    ensures readable && r.Err? ==> r.error == IndexOutOfRange(path)
    ensures r.Ok? ==> r.value.Keys <= cm.Keys + SectionKeys
    ensures r.Ok? ==> forall key :: (DocsOf(r.value, key) ==
      DocsOf(cm, key) + (if key in SectionKeys && HasSectionFrom(top, key, 0) then {path} else {}))
    ensures r.Ok? ==> forall key :: key in SectionKeys && HasSectionFrom(top, key, 0) ==>
      var j := LastSectionFrom(top, key, 0);
      j + 1 < |top| && key in r.value && path in r.value[key] && r.value[key][path] == Section(key, top[j + 1])
  {
    PanicsIffOddTail(top, 0);
    FilterSectionsDocs(path, top, 0, cm);
    FilterSectionsValue(path, top, 0, cm);
    if !readable then Err(ReadFailed(path)) else FilterSections(path, top, 0, cm)
  }

  // ---------------------------------------------------------------- readAllConfig

  /** Reference: the readable `.yaml` files below `dirname` (in readable directories) that carry
      the section `key`. */
  ghost function SectionDocs(key: string, dirname: string, readable: bool, entries: seq<Entry>): set<string>
    decreases entries, 1
  {
    if !readable then {} else SectionDocsIn(key, dirname, entries)
  }

  ghost function SectionDocsIn(key: string, dirname: string, entries: seq<Entry>): set<string>
    decreases entries, 0
  {
    if |entries| == 0 then {}
    else
      var e := entries[0];
      var p := PathJoin(dirname, e.name);
      (match e
       case Dir(_, readable, sub) => SectionDocs(key, p, readable, sub)
       case File(name, readable, _, top) =>
         if IsYamlName(name) && readable && key in SectionKeys && HasSectionFrom(top, key, 0) then {p} else {})
      + SectionDocsIn(key, dirname, entries[1..])
  }

  /** Reference: some readable `.yaml` file in a readable directory ends with a recognised section
      name at an even position (the index past the end in readConfigFile). */
  ghost predicate Panics(readable: bool, entries: seq<Entry>)
    decreases entries, 1
  {
    readable && PanicsIn(entries)
  }

  ghost predicate PanicsIn(entries: seq<Entry>)
    decreases entries, 0
  {
    |entries| > 0 &&
    ((match entries[0]
      case Dir(_, readable, sub) => Panics(readable, sub)
      case File(name, readable, _, top) =>
        IsYamlName(name) && readable && |top| % 2 == 1 && top[|top| - 1] in SectionKeys)
     || PanicsIn(entries[1..]))
  }

  /** readAllConfig: walks the tree and files every recognised section of every `.yaml` file.
      Unreadable directories and files are skipped: the inner `err :=` shadows the returned error,
      so only a runtime panic can stop the walk. */
  function ReadAllConfig(dirname: string, readable: bool, entries: seq<Entry>, cm: ConfigMap): (r: Result<ConfigMap>)
    ensures r.Err? <==> Panics(readable, entries)
    ensures r.Ok? ==> r.value.Keys <= cm.Keys + SectionKeys
    ensures r.Ok? ==> forall key :: DocsOf(r.value, key) == DocsOf(cm, key) + SectionDocs(key, dirname, readable, entries)
    decreases entries, 1
  {
    if !readable then Ok(cm) else ReadAllIn(dirname, entries, cm)
  }

  function ReadAllIn(dirname: string, entries: seq<Entry>, cm: ConfigMap): (r: Result<ConfigMap>)
    ensures r.Err? <==> PanicsIn(entries)
    ensures r.Ok? ==> r.value.Keys <= cm.Keys + SectionKeys
    ensures r.Ok? ==> forall key :: DocsOf(r.value, key) == DocsOf(cm, key) + SectionDocsIn(key, dirname, entries)
    decreases entries, 0
  {
    if |entries| == 0 then Ok(cm)
    else
      var e := entries[0];
      var p := PathJoin(dirname, e.name);
      match e
      case Dir(_, readable, sub) =>
        (match ReadAllConfig(p, readable, sub, cm)
         case Err(err) => Err(err)
         case Ok(cm1) => ReadAllIn(dirname, entries[1..], cm1))
      case File(name, readable, _, top) =>
        if !IsYamlName(name) then ReadAllIn(dirname, entries[1..], cm)
        else
          match ReadConfigFile(p, readable, top, cm)
          case Err(err) => if readable then Err(err) else ReadAllIn(dirname, entries[1..], cm)
          case Ok(cm1) => ReadAllIn(dirname, entries[1..], cm1)
  }

  /** Reference: the section `key` each readable `.yaml` file in a readable directory files, by
      joined path; a later file in walk order wins over an earlier one with the same path. */
  ghost function SectionTexts(key: string, dirname: string, readable: bool, entries: seq<Entry>): map<string, Section>
    decreases entries, 1
  {
    if !readable then map[] else SectionTextsIn(key, dirname, entries)
  }

  ghost function SectionTextsIn(key: string, dirname: string, entries: seq<Entry>): map<string, Section>
    decreases entries, 0
  {
    if |entries| == 0 then map[]
    else
      var e := entries[0];
      var p := PathJoin(dirname, e.name);
      (match e
       case Dir(_, readable, sub) => SectionTexts(key, p, readable, sub)
       case File(name, readable, _, top) =>
         if IsYamlName(name) && readable && FileSection(key, top).Some? then map[p := FileSection(key, top).value] else map[])
      + SectionTextsIn(key, dirname, entries[1..])
  }

  /** When nothing panics, the files that file a section are exactly those that carry it. */
  lemma {:induction false} SectionTextsCoverDocs(key: string, dirname: string, readable: bool, entries: seq<Entry>)
    requires !Panics(readable, entries)
    ensures SectionTexts(key, dirname, readable, entries).Keys == SectionDocs(key, dirname, readable, entries)
    decreases entries, 1
  {
    if readable {
      SectionTextsInCoverDocs(key, dirname, entries);
    }
  }

  lemma {:induction false} SectionTextsInCoverDocs(key: string, dirname: string, entries: seq<Entry>)
    requires !PanicsIn(entries)
    ensures SectionTextsIn(key, dirname, entries).Keys == SectionDocsIn(key, dirname, entries)
    decreases entries, 0
  {
    if |entries| > 0 {
      var p := PathJoin(dirname, entries[0].name);
      SectionTextsInCoverDocs(key, dirname, entries[1..]);
      match entries[0]
      case Dir(_, readable, sub) =>
        SectionTextsCoverDocs(key, p, readable, sub);
      case File(name, readable, _, top) =>
        if IsYamlName(name) && readable {
          FileSectionIff(key, top);
        }
    }
  }

  /** Reading a tree changes no entry except those of the files that file that section. */
  lemma {:induction false} ReadAllKeeps(dirname: string, readable: bool, entries: seq<Entry>, cm: ConfigMap, key: string, q: string)
    requires ReadAllConfig(dirname, readable, entries, cm).Ok?
    requires key in cm && q in cm[key] && q !in SectionTexts(key, dirname, readable, entries)
    ensures var r := ReadAllConfig(dirname, readable, entries, cm).value;
            key in r && q in r[key] && r[key][q] == cm[key][q]
    decreases entries, 1
  {
    if readable {
      ReadAllInKeeps(dirname, entries, cm, key, q);
    }
  }

  lemma {:induction false} ReadAllInKeeps(dirname: string, entries: seq<Entry>, cm: ConfigMap, key: string, q: string)
    requires ReadAllIn(dirname, entries, cm).Ok?
    requires key in cm && q in cm[key] && q !in SectionTextsIn(key, dirname, entries)
    ensures var r := ReadAllIn(dirname, entries, cm).value;
            key in r && q in r[key] && r[key][q] == cm[key][q]
    decreases entries, 0
  {
    if |entries| > 0 {
      var e := entries[0];
      var p := PathJoin(dirname, e.name);
      var rest := entries[1..];
      match e
      case Dir(_, readable, sub) =>
        ReadAllKeeps(p, readable, sub, cm, key, q);
        var cm1 := ReadAllConfig(p, readable, sub, cm).value;
        assert ReadAllIn(dirname, entries, cm) == ReadAllIn(dirname, rest, cm1);
        ReadAllInKeeps(dirname, rest, cm1, key, q);
      case File(name, readable, _, top) =>
        if !IsYamlName(name) || !readable {
          assert ReadAllIn(dirname, entries, cm) == ReadAllIn(dirname, rest, cm);
          ReadAllInKeeps(dirname, rest, cm, key, q);
        } else {
          var cm1 := FilterSections(p, top, 0, cm).value;
          assert ReadAllIn(dirname, entries, cm) == ReadAllIn(dirname, rest, cm1);
          FilterSectionsValue(p, top, 0, cm);
          FilterKeepsOtherFiles(p, top, 0, cm, key, q);
          ReadAllInKeeps(dirname, rest, cm1, key, q);
        }
    }
  }

  /** A file that files a section stores its own section text under its path: the `key: value`
      of the last key position of `key` in the last `.yaml` file with that path. */
  lemma {:induction false} ReadAllText(dirname: string, readable: bool, entries: seq<Entry>, cm: ConfigMap, key: string, q: string)
    requires ReadAllConfig(dirname, readable, entries, cm).Ok?
    requires q in SectionTexts(key, dirname, readable, entries)
    ensures var r := ReadAllConfig(dirname, readable, entries, cm).value;
            key in r && q in r[key] && r[key][q] == SectionTexts(key, dirname, readable, entries)[q]
    decreases entries, 1
  {
    ReadAllInText(dirname, entries, cm, key, q);
  }

  lemma {:induction false} ReadAllInText(dirname: string, entries: seq<Entry>, cm: ConfigMap, key: string, q: string)
    requires ReadAllIn(dirname, entries, cm).Ok?
    requires q in SectionTextsIn(key, dirname, entries)
    ensures var r := ReadAllIn(dirname, entries, cm).value;
            key in r && q in r[key] && r[key][q] == SectionTextsIn(key, dirname, entries)[q]
    decreases entries, 0
  {
    var e := entries[0];
    var p := PathJoin(dirname, e.name);
    var rest := entries[1..];
    match e
    case Dir(_, readable, sub) =>
      var cm1 := ReadAllConfig(p, readable, sub, cm).value;
      assert ReadAllIn(dirname, entries, cm) == ReadAllIn(dirname, rest, cm1);
      assert SectionTextsIn(key, dirname, entries) == SectionTexts(key, p, readable, sub) + SectionTextsIn(key, dirname, rest);
      if q in SectionTextsIn(key, dirname, rest) {
        ReadAllInText(dirname, rest, cm1, key, q);
      } else {
        ReadAllText(p, readable, sub, cm, key, q);
        ReadAllInKeeps(dirname, rest, cm1, key, q);
      }
    case File(name, readable, _, top) =>
      if !IsYamlName(name) || !readable {
        assert ReadAllIn(dirname, entries, cm) == ReadAllIn(dirname, rest, cm);
        ReadAllInText(dirname, rest, cm, key, q);
      } else {
        var cm1 := FilterSections(p, top, 0, cm).value;
        assert ReadAllIn(dirname, entries, cm) == ReadAllIn(dirname, rest, cm1);
        if q in SectionTextsIn(key, dirname, rest) {
          ReadAllInText(dirname, rest, cm1, key, q);
        } else {
          assert q == p && FileSection(key, top).Some?;
          assert key in SectionKeys && HasSectionFrom(top, key, 0);
          FilterSectionValue(p, top, 0, cm, key);
          ReadAllInKeeps(dirname, rest, cm1, key, q);
        }
      }
  }

  /** readAllConfig files, for every file that carries a section, that file's section text. */
  lemma ReadAllSectionValues(dirname: string, readable: bool, entries: seq<Entry>, cm: ConfigMap)
    ensures var r := ReadAllConfig(dirname, readable, entries, cm);
      r.Ok? ==> forall key, q :: q in SectionDocs(key, dirname, readable, entries) ==>
        q in SectionTexts(key, dirname, readable, entries) && key in r.value && q in r.value[key] &&
        r.value[key][q] == SectionTexts(key, dirname, readable, entries)[q]
  {
    if ReadAllConfig(dirname, readable, entries, cm).Ok? {
      forall key, q | q in SectionDocs(key, dirname, readable, entries)
        ensures q in SectionTexts(key, dirname, readable, entries)
      {
        SectionTextsCoverDocs(key, dirname, readable, entries);
      }
      forall key, q | q in SectionTexts(key, dirname, readable, entries) {
        ReadAllText(dirname, readable, entries, cm, key, q);
      }
    }
  }
}

=== FILE: cycle_check.dfy ===
/** `makeCyclePathMap` and `checkCycle` of config/config.go: the document-to-document reference
    graph, and the depth-first search that rejects circular references before flattening. */
module CycleCheck {
  import opened Base
  import opened Documents

  /** Adjacency lists: for each document path, the documents its declarations use. */
  type Graph = map<string, seq<string>>

  /** `cyclePathMap[p]`: a path without an entry reads as the empty list. */
  function Succ(g: Graph, p: string): seq<string> {
    if p in g then g[p] else []
  }

  /** Every edge ends at a node that has an entry. */
  ghost predicate Closed(g: Graph) {
    forall a, b :: a in g && b in g[a] ==> b in g
  }

  // ---------------------------------------------------------------- makeCyclePathMap

  /** The edges contributed by a document's declarations, declaration by declaration. */
  function Edges(docs: Docs, mods: seq<Module>): (es: seq<string>)
    ensures forall u :: u in es <==> u in docs && exists m :: m in mods && u in m.uses
  {
    if |mods| == 0 then []
    else
      var es := DocUses(docs.Keys, mods[0].uses) + Edges(docs, mods[1..]);
      assert forall m :: m in mods <==> m == mods[0] || m in mods[1..];
      es
  }

  /** makeCyclePathMap(nodesMap): every document gets an entry, possibly empty, and an edge A -> U
      exists exactly when a declaration of A uses U and U is itself a document of the map. */
  function MakeCyclePathMap(docs: Docs): (g: Graph)
    ensures g.Keys == docs.Keys
    ensures forall a, b :: a in g ==> (b in g[a] <==> b in docs && exists m :: m in docs[a] && b in m.uses)
    ensures Closed(g)
  {
    map a | a in docs :: Edges(docs, docs[a])
  }

  // ---------------------------------------------------------------- cycles

  /** `c` is a walk of at least one edge from `start` back to `start`. */
  ghost predicate IsCycleFrom(g: Graph, start: string, c: seq<string>) {
    && |c| >= 2 && c[0] == start && c[|c| - 1] == start
    && forall i :: 0 <= i < |c| - 1 ==> c[i + 1] in Succ(g, c[i])
  }

  ghost predicate Acyclic(g: Graph) {
    forall s, c :: !IsCycleFrom(g, s, c)
  }

  // ---------------------------------------------------------------- checkCycle as written

  /** checkCycle(cyclePathMap, path, pathList, &chain) as written: each candidate is pushed; it
      ends the search if it is `path`, otherwise its successors are searched and, on failure, it
      is popped again. Nothing remembers visited nodes. The recursion depth is bounded by `fuel`;
      `None` means the bound was reached. */
  function CheckCycleAsWritten(g: Graph, path: string, list: seq<string>, chain: seq<string>, fuel: nat)
    : (r: Option<(bool, seq<string>)>)
    ensures r.Some? && !r.value.0 ==> r.value.1 == chain
    ensures r.Some? && r.value.0 ==> ExtendsByWalk(g, path, list, chain, r.value.1)
    decreases fuel, |list|
  {
    if |list| == 0 then Some((false, chain))
    else
      var p := list[0];
      var c := chain + [p];
      if p == path then
        assert c[..|chain|] == chain;
        Some((true, c))
      else if fuel == 0 then None
      else match CheckCycleAsWritten(g, path, Succ(g, p), c, fuel - 1)
        case None => None
        case Some((found, c')) =>
          if found then
            WalkThroughCandidate(g, path, list, chain, c');
            Some((true, c'))
          else
            assert c'[..|c'| - 1] == chain;
            var r := CheckCycleAsWritten(g, path, list[1..], chain, fuel);
            assert r.Some? && r.value.0 ==> ExtendsByWalk(g, path, list, chain, r.value.1) by {
              if r.Some? && r.value.0 {
                WalkFromLaterCandidate(g, path, list, chain, r.value.1);
              }
            }
            r
  }

  /** The loop of GetModulesStr over the map, for one start `path`, as written. */
  function CheckFromAsWritten(g: Graph, start: string, fuel: nat): (r: Option<(bool, seq<string>)>)
    ensures r.Some? && r.value.0 ==> IsCycleFrom(g, start, r.value.1)
    ensures r.Some? && !r.value.0 ==> r.value.1 == [start]
  {
    CheckCycleAsWritten(g, start, Succ(g, start), [start], fuel)
  }

  /** a -> b, b -> c, c -> b: a cycle that does not pass through `a`. */
  const LoopAside: Graph := map["a" := ["b"], "b" := ["c"], "c" := ["b"]]

  lemma {:induction false} AsWrittenLoopsAside(list: seq<string>, chain: seq<string>, fuel: nat)
    requires list == ["b"] || list == ["c"]
    ensures CheckCycleAsWritten(LoopAside, "a", list, chain, fuel) == None
    decreases fuel
  {
    if fuel > 0 {
      var next := if list == ["b"] then ["c"] else ["b"];
      assert Succ(LoopAside, list[0]) == next;
      AsWrittenLoopsAside(next, chain + [list[0]], fuel - 1);
    }
  }

  /** Started from `a`, checkCycle as written never answers, however deep the recursion may go:
      the walk b, c, b, c, ... is followed for ever. The corrected search answers, and the cycle
      b -> c -> b is reported when the search starts at `b`. */
  lemma AsWrittenDivergesOutsideCycle(fuel: nat)
    ensures CheckFromAsWritten(LoopAside, "a", fuel) == None
  {
    AsWrittenLoopsAside(["b"], ["a"], fuel);
  }

  // ---------------------------------------------------------------- the search as intended

  datatype Search = Found(chain: seq<string>) | Exhausted(done: set<string>)

  /** Every successor of a finished node is finished or on the current chain, and none is `path`. */
  ghost predicate FinishedClosed(g: Graph, path: string, done: set<string>, chain: seq<string>) {
    forall x, y {:trigger y in Succ(g, x)} :: x in done && y in Succ(g, x) ==> y != path && (y in done || y in chain)
  }

  /** The nodes the search has neither entered on the current chain nor finished. */
  function Unvisited(g: Graph, chain: seq<string>, done: set<string>): set<string> {
    g.Keys - done - (set x | x in chain)
  }

  lemma EnteringShrinks(g: Graph, chain: seq<string>, done: set<string>, d: set<string>, p: string)
    requires p in g && p !in chain && p !in done && done <= d
    ensures Unvisited(g, chain + [p], done) < Unvisited(g, chain, done)
    ensures Unvisited(g, chain, d + {p}) < Unvisited(g, chain, done)
  {
    assert (set x | x in chain + [p]) == (set x | x in chain) + {p};
    assert p in Unvisited(g, chain, done);
  }

  lemma ChainGrows(g: Graph, path: string, done: set<string>, chain: seq<string>, p: string)
    requires FinishedClosed(g, path, done, chain)
    ensures FinishedClosed(g, path, done, chain + [p])
  {
  }

  /** A node whose successors are all searched joins the finished set once it leaves the chain. */
  lemma FinishNode(g: Graph, path: string, d: set<string>, chain: seq<string>, p: string)
    requires FinishedClosed(g, path, d, chain + [p])
    requires forall y :: y in Succ(g, p) ==> y != path && (y in d || y in chain + [p])
    ensures FinishedClosed(g, path, d + {p}, chain)
  {
    forall x, y | x in d + {p} && y in Succ(g, x)
      ensures y != path && (y in d + {p} || y in chain)
    {
      assert y in chain + [p] <==> y in chain || y == p;
    }
  }

  /** checkCycle with a visited set: a node already on the chain or already searched to the end
      is not entered again, so the search ends on every graph. */
  function Dfs(g: Graph, path: string, list: seq<string>, chain: seq<string>, done: set<string>): (r: Search)
    requires Closed(g)
    requires forall x :: x in list ==> x in g
    requires |chain| > 0 && chain[0] == path && path !in done
    requires FinishedClosed(g, path, done, chain)
    ensures r.Exhausted? ==>
      && done <= r.done && path !in r.done
      && FinishedClosed(g, path, r.done, chain)
      && forall y :: y in list ==> y != path && (y in r.done || y in chain)
    decreases Unvisited(g, chain, done), |list|
  {
    if |list| == 0 then Exhausted(done)
    else
      var p := list[0];
      if p == path then Found(chain + [p])
      else if p in chain || p in done then
        Dfs(g, path, list[1..], chain, done)
      else
        EnteringShrinks(g, chain, done, done, p);
        ChainGrows(g, path, done, chain, p);
        match Dfs(g, path, Succ(g, p), chain + [p], done)
        case Found(c) => Found(c)
        case Exhausted(d) =>
          EnteringShrinks(g, chain, done, d, p);
          FinishNode(g, path, d, chain, p);
          Dfs(g, path, list[1..], chain, d + {p})
  }

  /** `c` extends `chain` by a walk that starts at a candidate of `list` and ends at `path`. */
  ghost predicate ExtendsByWalk(g: Graph, path: string, list: seq<string>, chain: seq<string>, c: seq<string>) {
    && |c| > |chain| && c[..|chain|] == chain && c[|chain|] in list && c[|c| - 1] == path
    && forall i :: |chain| <= i < |c| - 1 ==> c[i + 1] in Succ(g, c[i])
  }

  /** Soundness of the search: a reported chain extends the current one by a walk that starts at
      a candidate of `list` and ends at `path`. */
  lemma {:induction false} DfsFoundIsWalk(g: Graph, path: string, list: seq<string>, chain: seq<string>, done: set<string>)
    requires Closed(g)
    requires forall x :: x in list ==> x in g
    requires |chain| > 0 && chain[0] == path && path !in done
    requires FinishedClosed(g, path, done, chain)
    ensures var r := Dfs(g, path, list, chain, done);
      r.Found? ==> ExtendsByWalk(g, path, list, chain, r.chain)
    decreases Unvisited(g, chain, done), |list|
  {
    if |list| > 0 {
      var p := list[0];
      if p == path {
        assert (chain + [p])[..|chain|] == chain;
      } else if p in chain || p in done {
        DfsFoundIsWalk(g, path, list[1..], chain, done);
        var r := Dfs(g, path, list[1..], chain, done);
        if r.Found? {
          WalkFromLaterCandidate(g, path, list, chain, r.chain);
        }
      } else {
        EnteringShrinks(g, chain, done, done, p);
        ChainGrows(g, path, done, chain, p);
        DfsFoundIsWalk(g, path, Succ(g, p), chain + [p], done);
        match Dfs(g, path, Succ(g, p), chain + [p], done)
        case Found(c) =>
          WalkThroughCandidate(g, path, list, chain, c);
        case Exhausted(d) =>
          EnteringShrinks(g, chain, done, d, p);
          FinishNode(g, path, d, chain, p);
          DfsFoundIsWalk(g, path, list[1..], chain, d + {p});
          var r := Dfs(g, path, list[1..], chain, d + {p});
          if r.Found? {
            WalkFromLaterCandidate(g, path, list, chain, r.chain);
          }
      }
    }
  }

  /** A walk from a later candidate is a walk from a candidate. */
  lemma WalkFromLaterCandidate(g: Graph, path: string, list: seq<string>, chain: seq<string>, c: seq<string>)
    requires |list| > 0 && ExtendsByWalk(g, path, list[1..], chain, c)
    ensures ExtendsByWalk(g, path, list, chain, c)
  {
    assert c[|chain|] in list[1..];
  }

  /** A walk found below the first candidate `list[0]` extends the chain through it. */
  lemma WalkThroughCandidate(g: Graph, path: string, list: seq<string>, chain: seq<string>, c: seq<string>)
    requires |list| > 0 && ExtendsByWalk(g, path, Succ(g, list[0]), chain + [list[0]], c)
    ensures ExtendsByWalk(g, path, list, chain, c)
  {
    var p := list[0];
    assert c[..|chain| + 1] == chain + [p];
    assert c[..|chain|] == c[..|chain| + 1][..|chain|];
    assert c[|chain|] == c[..|chain| + 1][|chain|] == p;
    forall i | |chain| <= i < |c| - 1 ensures c[i + 1] in Succ(g, c[i]) {
      if i == |chain| {
        assert c[|chain| + 1] in Succ(g, p);
      }
    }
  }

  /** The search from one start, as GetModulesStr seeds it. */
  function CheckFrom(g: Graph, start: string): (r: Search)
    requires Closed(g)
    ensures r.Found? ==> IsCycleFrom(g, start, r.chain)
  {
    assert forall x :: x in Succ(g, start) ==> x in g;
    DfsFoundIsWalk(g, start, Succ(g, start), [start], {});
    Dfs(g, start, Succ(g, start), [start], {})
  }

  /** Completeness: when the search from `start` is exhausted, no walk leads back to `start`. */
  lemma NoCycleWhenExhausted(g: Graph, start: string, c: seq<string>)
    requires Closed(g) && CheckFrom(g, start).Exhausted?
    ensures !IsCycleFrom(g, start, c)
  {
    assert forall x :: x in Succ(g, start) ==> x in g;
    var d := CheckFrom(g, start).done;
    if IsCycleFrom(g, start, c) {
      ReachedStaysFinished(g, start, d, c, |c| - 1);
    }
  }

  /** Along a walk from `start`, every node after the first is finished and differs from `start`. */
  lemma {:induction false} ReachedStaysFinished(g: Graph, start: string, d: set<string>, c: seq<string>, i: nat)
    requires FinishedClosed(g, start, d, [start])
    requires forall y :: y in Succ(g, start) ==> y != start && (y in d || y in [start])
    requires |c| >= 2 && c[0] == start && forall k :: 0 <= k < |c| - 1 ==> c[k + 1] in Succ(g, c[k])
    requires 1 <= i < |c|
    ensures c[i] in d && c[i] != start
  {
    if i > 1 {
      ReachedStaysFinished(g, start, d, c, i - 1);
    }
  }

  /** The corrected search reports a cycle through `start` exactly when there is one. */
  lemma CheckFromIffCycle(g: Graph, start: string)
    requires Closed(g)
    ensures CheckFrom(g, start).Found? <==> exists c :: IsCycleFrom(g, start, c)
  {
    if CheckFrom(g, start).Exhausted? {
      forall c ensures !IsCycleFrom(g, start, c) {
        NoCycleWhenExhausted(g, start, c);
      }
    }
  }

  /** The loop of GetModulesStr over the adjacency map, from position `k` of `order` (Go's
      iteration order): the first start with a cycle through it is reported. */
  function CheckAllFrom(g: Graph, order: seq<string>, k: nat): (r: Result<()>)
    requires Closed(g) && k <= |order|
    ensures r.Err? ==> exists j :: k <= j < |order| && CheckFrom(g, order[j]).Found? &&
                                   r.error == CircularReference(CheckFrom(g, order[j]).chain)
    ensures r.Ok? <==> forall j :: k <= j < |order| ==> CheckFrom(g, order[j]).Exhausted?
    decreases |order| - k
  {
    if k == |order| then Ok(())
    else match CheckFrom(g, order[k])
      case Found(c) => Err(CircularReference(c))
      case Exhausted(_) => CheckAllFrom(g, order, k + 1)
  }

  function CheckAll(g: Graph, order: seq<string>): (r: Result<()>)
    requires Closed(g)
    ensures r.Err? ==> r.error.CircularReference? && exists s :: s in order && IsCycleFrom(g, s, r.error.chain)
    ensures r.Ok? <==> forall j :: 0 <= j < |order| ==> CheckFrom(g, order[j]).Exhausted?
  {
    CheckAllFrom(g, order, 0)
  }

  /** With every document enumerated, the check passes exactly when the reference graph has no
      cycle. */
  lemma CheckAllIffAcyclic(g: Graph, order: seq<string>)
    requires Closed(g) && Enumerates(order, g)
    ensures CheckAll(g, order).Ok? <==> Acyclic(g)
  {
    if CheckAll(g, order).Ok? {
      forall s, c ensures !IsCycleFrom(g, s, c) {
        if IsCycleFrom(g, s, c) {
          assert s in Succ(g, c[|c| - 2]);
          assert s in g;
          var j :| 0 <= j < |order| && order[j] == s;
          NoCycleWhenExhausted(g, s, c);
        }
      }
    } else {
      var j :| 0 <= j < |order| && CheckFrom(g, order[j]).Found?;
      assert IsCycleFrom(g, order[j], CheckFrom(g, order[j]).chain);
    }
  }

  /** On the graph where checkCycle as written diverges, the corrected search answers: nothing
      leads back to `a`, and the loop b -> c -> b is found from `b`. */
  lemma CorrectedFindsLoopAside()
    ensures CheckFrom(LoopAside, "a").Exhausted?
    ensures CheckFrom(LoopAside, "b") == Found(["b", "c", "b"])
  {
    assert Closed(LoopAside);
    var g := LoopAside;
    assert Succ(g, "b") == ["c"] && Succ(g, "c") == ["b"] && Succ(g, "a") == ["b"];
    assert Dfs(g, "b", ["b"], ["b", "c"], {}) == Found(["b", "c", "b"]);
    assert Dfs(g, "b", ["c"], ["b"], {}) == Found(["b", "c", "b"]);
    assert Dfs(g, "a", [], ["a", "b", "c"], {}) == Exhausted({});
    assert Dfs(g, "a", ["b"], ["a", "b", "c"], {}) == Exhausted({});
    assert Dfs(g, "a", ["c"], ["a", "b"], {}) == Exhausted({"c"});
    assert Dfs(g, "a", [], ["a"], {"c"} + {"b"}) == Exhausted({"c", "b"});
    assert ["a"] + ["b"] == ["a", "b"] && ["b"][1..] == [] && "b" !in ["a"];
    assert Dfs(g, "a", ["b"], ["a"], {}) == Exhausted({"c", "b"});
  }
}

=== FILE: dir_expand.dfy ===
/** `deepPathModules` of config/config.go: a declaration whose `uses` names a directory is replaced
    by one copy per `.yaml` document listed in that directory (other than the declaring document),
    each copy using that document's path. */
module DirExpand {
  import opened Base
  import opened Strings
  import opened Documents

  /** What os.Stat / os.ReadDir report for a path; a path missing from the map does not exist.
      `StatFailed` is an os.Stat error other than not-exist (a permission error, or a path through
      a regular file): the returned file information is then nil. */
  datatype FsEntry = RegularFile | Directory(names: seq<string>) | UnreadableDirectory | StatFailed

  type Fs = map<string, FsEntry>

  /** The scalar value deepPathModules reads from a declaration's `uses` node. A single reference
      stands for the scalar form; a list node has an empty value. */
  function ScalarUses(m: Module): string {
    if |m.uses| == 1 then m.uses[0] else ""
  }

  predicate Eligible(p: string, exclude: string) {
    HasSuffix(p, ".yaml") && p != exclude
  }

  /** The `paths` collected from a directory listing (DirectoryDocsSpec states what they are). */
  function DirectoryDocs(dir: string, names: seq<string>, exclude: string): (ps: seq<string>)
  {
    if |names| == 0 then []
    else
      var p := PathJoin(dir, names[0]);
      var rest := DirectoryDocs(dir, names[1..], exclude);
      if Eligible(p, exclude) then [p] + rest else rest
  }

  /** The collected paths are exactly the eligible entries of the listing, joined to the
      directory, in listing order. */
  lemma {:induction false} DirectoryDocsSpec(dir: string, names: seq<string>, exclude: string)
    ensures var ps := DirectoryDocs(dir, names, exclude);
      && (forall p :: p in ps <==> p in JoinAll(dir, names) && Eligible(p, exclude))
      && IsSubsequence(ps, JoinAll(dir, names))
  {
    if |names| > 0 {
      DirectoryDocsSpec(dir, names[1..], exclude);
      var p := PathJoin(dir, names[0]);
      var all := JoinAll(dir, names);
      assert all == [p] + JoinAll(dir, names[1..]);
      assert all[0] == p && all[1..] == JoinAll(dir, names[1..]);
    }
  }

  /** The outcome for one declaration: left in place, or replaced by copies. */
  datatype Expansion = Unchanged | Replaced(copies: seq<Module>)

  /** The copies of `m`, one per path of `ps`, each using that path. */
  function CopiesOf(m: Module, ps: seq<string>): (cs: seq<Module>)
    ensures |cs| == |ps| && forall i :: 0 <= i < |ps| ==> cs[i] == m.(uses := [ps[i]])
  {
    if |ps| == 0 then []
    else
      var cs := [m.(uses := [ps[0]])] + CopiesOf(m, ps[1..]);
      assert forall i :: 1 <= i < |ps| ==> ps[1..][i - 1] == ps[i];
      cs
  }

  /** One iteration of deepPathModules' inner loop, for the declaration `m` of document `exclude`
      (ExpandDeclOutcomes states its outcomes). */
  function ExpandDecl(fs: Fs, exclude: string, m: Module): Result<Expansion>
  {
    var uses := ScalarUses(m);
    if uses == "" then Err(MissingUses)
    else if uses !in fs then Err(ModuleFileMissing(uses))
    else match fs[uses]
      case StatFailed => Err(NilDereference)
      case UnreadableDirectory => Err(OpenDirFailed(uses))
      case RegularFile =>
        if HasSuffix(PathBase(uses), ".yaml") then Ok(Unchanged) else Err(ModuleFileNotYaml(uses))
      case Directory(names) =>
        var ps := DirectoryDocs(uses, names, exclude);
        if |ps| == 0 then Ok(Unchanged) else Ok(Replaced(CopiesOf(m, ps)))
  }

  /** The paths of a directory listing that a declaration of document `exclude` expands to. */
  ghost predicate Listed(fs: Fs, dir: string, exclude: string, p: string)
    requires dir in fs && fs[dir].Directory?
  {
    p in JoinAll(dir, fs[dir].names) && Eligible(p, exclude)
  }

  /** The outcomes of one iteration. It fails exactly on a missing `uses`, a path that does not
      exist, a path whose os.Stat fails otherwise (`file.IsDir()` on the nil result panics), an
      unreadable directory or a file without the `.yaml` suffix, reporting the first of these in
      that order. It replaces the declaration exactly when `uses` is a directory listing
      an eligible document; the copies are then exactly the declaration with `uses` set to each
      such path, name and child links kept, in listing order. */
  lemma ExpandDeclOutcomes(fs: Fs, exclude: string, m: Module)
    ensures var r := ExpandDecl(fs, exclude, m); var u := ScalarUses(m);
      && (r.Err? <==> u == "" || u !in fs || fs[u].StatFailed? || fs[u].UnreadableDirectory?
                      || (fs[u].RegularFile? && !HasSuffix(PathBase(u), ".yaml")))
      && (r.Err? ==> r.error == if u == "" then MissingUses
                                else if u !in fs then ModuleFileMissing(u)
                                else if fs[u].StatFailed? then NilDereference
                                else if fs[u].UnreadableDirectory? then OpenDirFailed(u)
                                else ModuleFileNotYaml(u))
    ensures var r := ExpandDecl(fs, exclude, m); var u := ScalarUses(m);
      && (r.Ok? && r.value.Replaced? <==>
            u != "" && u in fs && fs[u].Directory? && exists p :: Listed(fs, u, exclude, p))
      && (r.Ok? && r.value.Replaced? ==>
            && (forall c :: c in r.value.copies <==> exists p :: Listed(fs, u, exclude, p) && c == m.(uses := [p]))
            && IsSubsequence(seq(|r.value.copies|, i requires 0 <= i < |r.value.copies| => r.value.copies[i].uses[0]),
                             JoinAll(u, fs[u].names)))
  {
    var u := ScalarUses(m);
    if u != "" && u in fs && fs[u].Directory? {
      ExpandDirCopies(fs, exclude, m, u);
    }
  }

  /** A directory declaration: replaced exactly when something is listed, by one copy per
      listed path, in listing order. */
  lemma ExpandDirCopies(fs: Fs, exclude: string, m: Module, u: string)
    requires u == ScalarUses(m) && u != "" && u in fs && fs[u].Directory?
    ensures var r := ExpandDecl(fs, exclude, m);
      && r.Ok?
      && (r.value.Replaced? <==> exists p :: Listed(fs, u, exclude, p))
      && (r.value.Replaced? ==>
            && (forall c :: c in r.value.copies <==> exists p :: Listed(fs, u, exclude, p) && c == m.(uses := [p]))
            && IsSubsequence(seq(|r.value.copies|, i requires 0 <= i < |r.value.copies| => r.value.copies[i].uses[0]),
                             JoinAll(u, fs[u].names)))
  {
    var ps := DirectoryDocs(u, fs[u].names, exclude);
    DirectoryDocsSpec(u, fs[u].names, exclude);
    assert forall p :: Listed(fs, u, exclude, p) <==> p in ps;
    if |ps| > 0 {
      assert Listed(fs, u, exclude, ps[0]);
      var cs := CopiesOf(m, ps);
      CopiesOfMembers(m, ps);
      assert seq(|cs|, i requires 0 <= i < |cs| => cs[i].uses[0]) == ps;
    }
  }

  /** The copies are exactly `m` with `uses` set to one of the paths. */
  lemma CopiesOfMembers(m: Module, ps: seq<string>)
    ensures forall c :: c in CopiesOf(m, ps) <==> exists p :: p in ps && c == m.(uses := [p])
  {
    var cs := CopiesOf(m, ps);
    forall c ensures c in cs <==> exists p :: p in ps && c == m.(uses := [p]) {
      if c in cs {
        var i :| 0 <= i < |cs| && cs[i] == c;
        assert ps[i] in ps;
      }
      if exists p :: p in ps && c == m.(uses := [p]) {
        var p :| p in ps && c == m.(uses := [p]);
        var i :| 0 <= i < |ps| && ps[i] == p;
        assert cs[i] == c;
      }
    }
  }

  /** The base name of a `.yaml` path is a `.yaml` name. */
  lemma BaseKeepsYaml(p: string)
    requires HasSuffix(p, ".yaml")
    ensures HasSuffix(PathBase(p), ".yaml")
  {
    var n := |p|;
    assert p[n - 5..] == ".yaml";
    assert forall j :: n - 5 <= j < n ==> p[j] == ".yaml"[j - (n - 5)];
    var k := LastSlash(p, n);
    assert k < n - 5;
    assert PathBase(p)[|PathBase(p)| - 5..] == p[n - 5..];
  }

  /** The file system lists no directory under a `.yaml` name: every `.yaml` path a directory
      lists is a regular file. */
  ghost predicate YamlEntriesAreFiles(fs: Fs) {
    forall d, p {:trigger p in JoinAll(d, fs[d].names)} ::
      d in fs && fs[d].Directory? && p in JoinAll(d, fs[d].names) && HasSuffix(p, ".yaml") ==>
      p in fs && fs[p].RegularFile?
  }

  /** A declaration using one `.yaml` path that is a regular file is left in place. */
  lemma FileDeclStays(fs: Fs, exclude: string, c: Module, p: string)
    requires c.uses == [p] && HasSuffix(p, ".yaml") && p in fs && fs[p].RegularFile?
    ensures ExpandDecl(fs, exclude, c) == Ok(Unchanged)
  {
    BaseKeepsYaml(p);
    assert ScalarUses(c) == p;
  }

  /** A copy using a listed path is left in place if examined again. */
  lemma CopyStays(fs: Fs, exclude: string, m: Module, c: Module)
    requires YamlEntriesAreFiles(fs)
    requires var r := ExpandDecl(fs, exclude, m); r.Ok? && r.value.Replaced? && c in r.value.copies
    ensures ExpandDecl(fs, exclude, c) == Ok(Unchanged)
  {
    var u := ScalarUses(m);
    assert u != "" && u in fs && fs[u].Directory?;
    ExpandDirCopies(fs, exclude, m, u);
    var p :| Listed(fs, u, exclude, p) && c == m.(uses := [p]);
    assert p in JoinAll(u, fs[u].names) && HasSuffix(p, ".yaml");
    assert p in fs && fs[p].RegularFile?;
    FileDeclStays(fs, exclude, c, p);
  }

  /** Every copy a directory declaration expands to is left in place if examined again. */
  lemma {:induction false} CopiesStay(fs: Fs, exclude: string, mods: seq<Module>)
    requires YamlEntriesAreFiles(fs)
    ensures forall c :: c in Copies(fs, exclude, mods) ==> ExpandDecl(fs, exclude, c) == Ok(Unchanged)
  {
    if |mods| > 0 {
      CopiesStay(fs, exclude, mods[1..]);
      CopiesCons(fs, exclude, mods);
      match ExpandDecl(fs, exclude, mods[0])
      case Ok(Replaced(cs)) =>
        forall c | c in cs ensures ExpandDecl(fs, exclude, c) == Ok(Unchanged) {
          CopyStays(fs, exclude, mods[0], c);
        }
      case _ =>
    }
  }

  /** A list every declaration of which is left in place is kept whole and yields no copy. */
  lemma {:induction false} AllUnchanged(fs: Fs, exclude: string, mods: seq<Module>)
    requires forall d :: d in mods ==> ExpandDecl(fs, exclude, d) == Ok(Unchanged)
    ensures Kept(fs, exclude, mods) == mods && Copies(fs, exclude, mods) == []
  {
    if |mods| > 0 {
      assert mods[0] in mods;
      AllUnchanged(fs, exclude, mods[1..]);
      KeptCons(fs, exclude, mods);
      CopiesCons(fs, exclude, mods);
      assert [mods[0]] + mods[1..] == mods;
    }
  }

  /** Expansion is complete: when every listed `.yaml` path is a file, expanding the expanded
      document again changes nothing. */
  lemma ExpansionComplete(fs: Fs, exclude: string, mods: seq<Module>)
    requires YamlEntriesAreFiles(fs)
    requires ExpandDoc(fs, exclude, mods).1.None?
    ensures var out := ExpandDoc(fs, exclude, mods).0; ExpandDoc(fs, exclude, out) == (out, None)
  {
    var kept, copies := Kept(fs, exclude, mods), Copies(fs, exclude, mods);
    var out := ExpandDoc(fs, exclude, mods).0;
    ExpandDocSpec(fs, exclude, mods);
    assert out == kept + copies;
    KeptDoNotExpand(fs, exclude, mods);
    CopiesStay(fs, exclude, mods);
    forall d | d in out ensures ExpandDecl(fs, exclude, d) == Ok(Unchanged) {
      if d !in kept {
        assert d in copies;
      }
    }
    AllUnchanged(fs, exclude, out);
    ExpandDocSpec(fs, exclude, out);
    assert out + [] == out;
  }

  // ---------------------------------------------------------------- the loop as written

  /** deepPathModules' loop over one document as written: `for i := range decls` fixes the bound
      `n` up front, an expanded declaration is cut out at `i` (shifting its successor into slot
      `i`) and its copies appended, and the loop moves on to `i + 1`. The first error stops the
      loop, leaving the list as far as it got. */
  function ExpandDocAsWritten(fs: Fs, exclude: string, mods: seq<Module>, i: nat, n: nat): (r: (seq<Module>, Option<Error>))
    requires n <= |mods|
    ensures n <= |r.0|
    decreases n - i
  {
    if i >= n then (mods, None)
    else match ExpandDecl(fs, exclude, mods[i])
      case Err(e) => (mods, Some(e))
      case Ok(Unchanged) => ExpandDocAsWritten(fs, exclude, mods, i + 1, n)
      case Ok(Replaced(copies)) =>
        ExpandDocAsWritten(fs, exclude, mods[..i] + mods[i + 1..] + copies, i + 1, n)
  }

  /** A workspace with two directories holding one document each. */
  const ExampleFs: Fs := map["d" := Directory(["a.yaml"]), "e" := Directory(["b.yaml"]),
                             "d/a.yaml" := RegularFile, "e/b.yaml" := RegularFile]

  lemma ExampleDirectoryExpands(name: string, dir: string, file: string, p: string)
    requires (dir, file, p) == ("d", "a.yaml", "d/a.yaml") || (dir, file, p) == ("e", "b.yaml", "e/b.yaml")
    ensures ExpandDecl(ExampleFs, "x.yaml", Module(name, [dir], [])) == Ok(Replaced([Module(name, [p], [])]))
  {
    var m := Module(name, [dir], []);
    assert ScalarUses(m) == dir;
    assert ExampleFs[dir] == Directory([file]);
    assert DirectoryDocs(dir, [file], "x.yaml") == [p] by {
      assert PathJoin(dir, file) == p;
      assert HasSuffix(p, ".yaml");
    }
    assert CopiesOf(m, [p]) == [Module(name, [p], [])];
  }

  lemma ExampleCopyStays(name: string)
    ensures ExpandDecl(ExampleFs, "x.yaml", Module(name, ["d/a.yaml"], [])) == Ok(Unchanged)
  {
    assert LastSlash("d/a.yaml", 8) == 1;
    assert PathBase("d/a.yaml") == "a.yaml";
    assert HasSuffix("a.yaml", ".yaml");
  }

  /** The loop as written, on a document declaring two directory modules: the first is expanded,
      its successor shifts into the slot just visited and is never examined, so its directory
      reference survives although it expands (contrast IntendedExpandsBoth). */
  lemma AsWrittenSkipsNextDecl()
    ensures
      var b := Module("B", ["e"], []);
      && ExpandDocAsWritten(ExampleFs, "x.yaml", [Module("A", ["d"], []), b], 0, 2)
         == ([b, Module("A", ["d/a.yaml"], [])], None)
      && ExpandDecl(ExampleFs, "x.yaml", b) == Ok(Replaced([Module("B", ["e/b.yaml"], [])]))
  {
    var a := Module("A", ["d"], []);
    var b := Module("B", ["e"], []);
    var a' := Module("A", ["d/a.yaml"], []);
    ExampleDirectoryExpands("A", "d", "a.yaml", "d/a.yaml");
    ExampleDirectoryExpands("B", "e", "b.yaml", "e/b.yaml");
    assert [a, b][0] == a;
    assert [a, b][..0] + [a, b][1..] + [a'] == [b, a'];
    assert ExpandDocAsWritten(ExampleFs, "x.yaml", [a, b], 0, 2) == ExpandDocAsWritten(ExampleFs, "x.yaml", [b, a'], 1, 2);
    AsWrittenVisitsCopy(b);
  }

  /** The second visit of the loop above lands on the first declaration's copy. */
  lemma AsWrittenVisitsCopy(b: Module)
    ensures var a' := Module("A", ["d/a.yaml"], []);
      ExpandDocAsWritten(ExampleFs, "x.yaml", [b, a'], 1, 2) == ([b, a'], None)
  {
    var a' := Module("A", ["d/a.yaml"], []);
    ExampleCopyStays("A");
    assert [b, a'][1] == a';
    assert ExpandDocAsWritten(ExampleFs, "x.yaml", [b, a'], 2, 2) == ([b, a'], None);
  }

  // ---------------------------------------------------------------- the loop as intended

  /** Reference: the declarations a full expansion leaves in place, in order. */
  function Kept(fs: Fs, exclude: string, mods: seq<Module>): seq<Module>
  {
    if |mods| == 0 then []
    else
      (if ExpandDecl(fs, exclude, mods[0]) == Ok(Unchanged) then [mods[0]] else [])
      + Kept(fs, exclude, mods[1..])
  }

  /** Reference: the copies a full expansion appends, in order. */
  function Copies(fs: Fs, exclude: string, mods: seq<Module>): seq<Module>
  {
    if |mods| == 0 then []
    else
      (match ExpandDecl(fs, exclude, mods[0]) case Ok(Replaced(cs)) => cs case _ => [])
      + Copies(fs, exclude, mods[1..])
  }

  /** Reference: the index of the first declaration whose expansion fails, or |mods|. */
  function FirstFailure(fs: Fs, exclude: string, mods: seq<Module>): (j: nat)
    ensures j <= |mods|
  {
    if |mods| == 0 || ExpandDecl(fs, exclude, mods[0]).Err? then 0
    else 1 + FirstFailure(fs, exclude, mods[1..])
  }

  /** Every declaration before the first failure expands, and the one at it does not. */
  lemma {:induction false} FirstFailureSpec(fs: Fs, exclude: string, mods: seq<Module>)
    ensures forall t :: 0 <= t < FirstFailure(fs, exclude, mods) ==> ExpandDecl(fs, exclude, mods[t]).Ok?
    ensures FirstFailure(fs, exclude, mods) < |mods| ==> ExpandDecl(fs, exclude, mods[FirstFailure(fs, exclude, mods)]).Err?
  {
    if |mods| > 0 && ExpandDecl(fs, exclude, mods[0]).Ok? {
      var j := FirstFailure(fs, exclude, mods[1..]);
      FirstFailureSpec(fs, exclude, mods[1..]);
      assert forall t :: 1 <= t <= j ==> mods[t] == mods[1..][t - 1];
    }
  }

  /** Moving one examined declaration from the unexamined part to the kept or appended part. */
  lemma Regroup(kept: seq<Module>, x: seq<Module>, k: seq<Module>, added: seq<Module>, y: seq<Module>, c: seq<Module>)
    ensures (kept + x) + k + (added + y) + c == kept + (x + k) + added + (y + c)
  {
  }

  /** The copies of the examined declaration join those already appended. */
  lemma CopyRegroup(out: seq<Module>, kept: seq<Module>, k: seq<Module>, added: seq<Module>, cs: seq<Module>, c: seq<Module>)
    requires out == kept + k + (added + cs) + c
    ensures out == kept + k + added + (cs + c)
  {
  }

  lemma FirstFailureStep(fs: Fs, exclude: string, rest: seq<Module>)
    requires |rest| > 0 && ExpandDecl(fs, exclude, rest[0]).Ok?
    ensures FirstFailure(fs, exclude, rest) == 1 + FirstFailure(fs, exclude, rest[1..])
    ensures rest[1..][FirstFailure(fs, exclude, rest[1..])..] == rest[FirstFailure(fs, exclude, rest)..]
  {
  }

  /** The loop with every declaration examined exactly once: `kept` are the declarations left in
      place so far, `rest` those not yet examined, `added` the copies appended so far. On an error
      the list is as the in-place loop leaves it: kept, unexamined, then appended. */
  function ExpandFrom(fs: Fs, exclude: string, kept: seq<Module>, rest: seq<Module>, added: seq<Module>)
    : (r: (seq<Module>, Option<Error>))
    decreases |rest|
  {
    if |rest| == 0 then (kept + added, None)
    else
      var m := rest[0];
      match ExpandDecl(fs, exclude, m)
      case Err(e) => (kept + rest + added, Some(e))
      case Ok(Unchanged) => ExpandFrom(fs, exclude, kept + [m], rest[1..], added)
      case Ok(Replaced(cs)) => ExpandFrom(fs, exclude, kept, rest[1..], added + cs)
  }

  /** The loop finishes without error exactly when no declaration fails. */
  lemma {:induction false} ExpandFromOk(fs: Fs, exclude: string, kept: seq<Module>, rest: seq<Module>, added: seq<Module>)
    ensures ExpandFrom(fs, exclude, kept, rest, added).1.None? <==> FirstFailure(fs, exclude, rest) == |rest|
    decreases |rest|
  {
    if |rest| > 0 {
      var m := rest[0];
      match ExpandDecl(fs, exclude, m)
      case Err(_) =>
      case Ok(Unchanged) =>
        FirstFailureStep(fs, exclude, rest);
        ExpandFromOk(fs, exclude, kept + [m], rest[1..], added);
      case Ok(Replaced(cs)) =>
        FirstFailureStep(fs, exclude, rest);
        ExpandFromOk(fs, exclude, kept, rest[1..], added + cs);
    }
  }

  /** Without an error: the kept declarations, the declarations left in place, the copies
      appended before, and every copy, in that order. */
  lemma {:induction false} ExpandFromValue(fs: Fs, exclude: string, kept: seq<Module>, rest: seq<Module>, added: seq<Module>)
    ensures var r := ExpandFrom(fs, exclude, kept, rest, added);
      r.1.None? ==> r.0 == kept + Kept(fs, exclude, rest) + added + Copies(fs, exclude, rest)
    decreases |rest|
  {
    if |rest| == 0 {
      assert kept + [] + added + [] == kept + added;
    } else {
      var m := rest[0];
      match ExpandDecl(fs, exclude, m)
      case Err(_) =>
      case Ok(Unchanged) =>
        ExpandFromValue(fs, exclude, kept + [m], rest[1..], added);
        KeepStep(fs, exclude, kept, rest, added);
      case Ok(Replaced(cs)) =>
        ExpandFromValue(fs, exclude, kept, rest[1..], added + cs);
        CopyStep(fs, exclude, kept, rest, added, cs);
    }
  }

  lemma KeepStep(fs: Fs, exclude: string, kept: seq<Module>, rest: seq<Module>, added: seq<Module>)
    requires |rest| > 0 && ExpandDecl(fs, exclude, rest[0]) == Ok(Unchanged)
    requires var r := ExpandFrom(fs, exclude, kept + [rest[0]], rest[1..], added);
      r.1.None? ==> r.0 == kept + [rest[0]] + Kept(fs, exclude, rest[1..]) + added + Copies(fs, exclude, rest[1..])
    ensures var r := ExpandFrom(fs, exclude, kept, rest, added);
      r.1.None? ==> r.0 == kept + Kept(fs, exclude, rest) + added + Copies(fs, exclude, rest)
  {
    KeptCons(fs, exclude, rest);
    CopiesCons(fs, exclude, rest);
    Regroup(kept, [rest[0]], Kept(fs, exclude, rest[1..]), added, [], Copies(fs, exclude, rest[1..]));
  }

  lemma CopyStep(fs: Fs, exclude: string, kept: seq<Module>, rest: seq<Module>, added: seq<Module>, cs: seq<Module>)
    requires |rest| > 0 && ExpandDecl(fs, exclude, rest[0]) == Ok(Replaced(cs))
    requires var r := ExpandFrom(fs, exclude, kept, rest[1..], added + cs);
      r.1.None? ==> r.0 == kept + Kept(fs, exclude, rest[1..]) + (added + cs) + Copies(fs, exclude, rest[1..])
    ensures var r := ExpandFrom(fs, exclude, kept, rest, added);
      r.1.None? ==> r.0 == kept + Kept(fs, exclude, rest) + added + Copies(fs, exclude, rest)
  {
    var r := ExpandFrom(fs, exclude, kept, rest, added);
    assert r == ExpandFrom(fs, exclude, kept, rest[1..], added + cs);
    ReplacedCons(fs, exclude, rest, cs);
    if r.1.None? {
      CopyRegroup(r.0, kept, Kept(fs, exclude, rest[1..]), added, cs, Copies(fs, exclude, rest[1..]));
    }
  }

  /** On an error, it is the error of the first failing declaration. */
  lemma {:induction false} ExpandFromError(fs: Fs, exclude: string, kept: seq<Module>, rest: seq<Module>, added: seq<Module>)
    ensures var r := ExpandFrom(fs, exclude, kept, rest, added);
      r.1.Some? ==>
        && FirstFailure(fs, exclude, rest) < |rest|
        && ExpandDecl(fs, exclude, rest[FirstFailure(fs, exclude, rest)]).Err?
        && r.1.value == ExpandDecl(fs, exclude, rest[FirstFailure(fs, exclude, rest)]).error
    decreases |rest|
  {
    if |rest| > 0 {
      var m := rest[0];
      match ExpandDecl(fs, exclude, m)
      case Err(_) =>
      case Ok(Unchanged) =>
        FirstFailureStep(fs, exclude, rest);
        ExpandFromError(fs, exclude, kept + [m], rest[1..], added);
      case Ok(Replaced(cs)) =>
        FirstFailureStep(fs, exclude, rest);
        ExpandFromError(fs, exclude, kept, rest[1..], added + cs);
    }
  }

  /** deepPathModules' loop over the declarations of document `exclude`, every declaration
      examined once (ExpandDocSpec states its outcome). */
  function ExpandDoc(fs: Fs, exclude: string, mods: seq<Module>): (r: (seq<Module>, Option<Error>))
  {
    ExpandFrom(fs, exclude, [], mods, [])
  }

  /** For one document: no error exactly when every declaration expands without error; the
      result is then the declarations left in place followed by all copies. An error is that of
      some declaration. */
  lemma ExpandDocSpec(fs: Fs, exclude: string, mods: seq<Module>)
    ensures var r := ExpandDoc(fs, exclude, mods);
      && (r.1.None? <==> forall t :: 0 <= t < |mods| ==> ExpandDecl(fs, exclude, mods[t]).Ok?)
      && (r.1.None? ==> r.0 == Kept(fs, exclude, mods) + Copies(fs, exclude, mods))
      && (r.1.Some? ==> exists j :: 0 <= j < |mods| && ExpandDecl(fs, exclude, mods[j]) == Err(r.1.value))
  {
    ExpandDocOk(fs, exclude, mods);
    ExpandDocValue(fs, exclude, mods);
    ExpandDocError(fs, exclude, mods);
  }

  lemma ExpandDocOk(fs: Fs, exclude: string, mods: seq<Module>)
    ensures ExpandFrom(fs, exclude, [], mods, []).1.None? <==> forall t :: 0 <= t < |mods| ==> ExpandDecl(fs, exclude, mods[t]).Ok?
  {
    ExpandFromOk(fs, exclude, [], mods, []);
    FirstFailureSpec(fs, exclude, mods);
  }

  lemma ExpandDocValue(fs: Fs, exclude: string, mods: seq<Module>)
    ensures var r := ExpandFrom(fs, exclude, [], mods, []);
      r.1.None? ==> r.0 == Kept(fs, exclude, mods) + Copies(fs, exclude, mods)
  {
    ExpandFromValue(fs, exclude, [], mods, []);
    EmptyAround(Kept(fs, exclude, mods), Copies(fs, exclude, mods));
  }

  lemma EmptyAround(a: seq<Module>, b: seq<Module>)
    ensures [] + a + [] + b == a + b
  {
  }

  lemma ExpandDocError(fs: Fs, exclude: string, mods: seq<Module>)
    ensures var r := ExpandFrom(fs, exclude, [], mods, []);
      r.1.Some? ==> exists j :: 0 <= j < |mods| && ExpandDecl(fs, exclude, mods[j]) == Err(r.1.value)
  {
    ExpandFromError(fs, exclude, [], mods, []);
    var r := ExpandFrom(fs, exclude, [], mods, []);
    if r.1.Some? {
      var j := FirstFailure(fs, exclude, mods);
      assert ExpandDecl(fs, exclude, mods[j]) == Err(r.1.value);
    }
  }

  /** The same document under the intended loop: both declarations are replaced by their copies. */
  lemma IntendedExpandsBoth()
    ensures ExpandDoc(ExampleFs, "x.yaml", [Module("A", ["d"], []), Module("B", ["e"], [])]) ==
            ([Module("A", ["d/a.yaml"], []), Module("B", ["e/b.yaml"], [])], None)
  {
    var a := Module("A", ["d"], []);
    var b := Module("B", ["e"], []);
    var a' := Module("A", ["d/a.yaml"], []);
    var b' := Module("B", ["e/b.yaml"], []);
    ExampleDirectoryExpands("A", "d", "a.yaml", "d/a.yaml");
    ExampleDirectoryExpands("B", "e", "b.yaml", "e/b.yaml");
    assert [a, b][1..] == [b] && [b][1..] == [];
    assert Kept(ExampleFs, "x.yaml", [b]) == [];
    assert Kept(ExampleFs, "x.yaml", [a, b]) == [];
    assert Copies(ExampleFs, "x.yaml", [b]) == [b'];
    assert Copies(ExampleFs, "x.yaml", [a, b]) == [a', b'];
    assert forall t :: 0 <= t < 2 ==> ExpandDecl(ExampleFs, "x.yaml", [a, b][t]).Ok?;
    ExpandDocSpec(ExampleFs, "x.yaml", [a, b]);
    var r := ExpandDoc(ExampleFs, "x.yaml", [a, b]);
    assert r.1.None?;
    assert r.0 == [] + [a', b'];
    assert r.0 == [a', b'];
    assert r.1 == None;
  }

  /** Nothing a full expansion leaves in place would expand further. */
  lemma {:induction false} KeptDoNotExpand(fs: Fs, exclude: string, mods: seq<Module>)
    ensures forall d :: d in Kept(fs, exclude, mods) ==> ExpandDecl(fs, exclude, d) == Ok(Unchanged)
  {
    if |mods| > 0 {
      KeptDoNotExpand(fs, exclude, mods[1..]);
    }
  }

  lemma KeptCons(fs: Fs, exclude: string, mods: seq<Module>)
    requires |mods| > 0
    ensures Kept(fs, exclude, mods) ==
      (if ExpandDecl(fs, exclude, mods[0]) == Ok(Unchanged) then [mods[0]] else []) + Kept(fs, exclude, mods[1..])
  {
  }

  lemma CopiesCons(fs: Fs, exclude: string, mods: seq<Module>)
    requires |mods| > 0
    ensures Copies(fs, exclude, mods) ==
      (match ExpandDecl(fs, exclude, mods[0]) case Ok(Replaced(cs)) => cs case _ => []) + Copies(fs, exclude, mods[1..])
  {
  }

  /** A replaced first declaration adds its copies and nothing to the kept ones. */
  lemma ReplacedCons(fs: Fs, exclude: string, mods: seq<Module>, cs: seq<Module>)
    requires |mods| > 0 && ExpandDecl(fs, exclude, mods[0]) == Ok(Replaced(cs))
    ensures Kept(fs, exclude, mods) == Kept(fs, exclude, mods[1..])
    ensures Copies(fs, exclude, mods) == cs + Copies(fs, exclude, mods[1..])
  {
    KeptCons(fs, exclude, mods);
    CopiesCons(fs, exclude, mods);
    assert [] + Kept(fs, exclude, mods[1..]) == Kept(fs, exclude, mods[1..]);
  }

  /** A declaration left in place stays in the list. */
  lemma {:induction false} UnchangedIsKept(fs: Fs, exclude: string, mods: seq<Module>, t: nat)
    requires t < |mods| && ExpandDecl(fs, exclude, mods[t]) == Ok(Unchanged)
    ensures mods[t] in Kept(fs, exclude, mods)
  {
    KeptCons(fs, exclude, mods);
    if t > 0 {
      assert mods[1..][t - 1] == mods[t];
      UnchangedIsKept(fs, exclude, mods[1..], t - 1);
    }
  }

  /** Every copy of an expanded declaration is in the list. */
  lemma {:induction false} CopiesAreAdded(fs: Fs, exclude: string, mods: seq<Module>, t: nat, cs: seq<Module>)
    requires t < |mods| && ExpandDecl(fs, exclude, mods[t]) == Ok(Replaced(cs))
    ensures forall c :: c in cs ==> c in Copies(fs, exclude, mods)
  {
    CopiesCons(fs, exclude, mods);
    if t > 0 {
      assert mods[1..][t - 1] == mods[t];
      CopiesAreAdded(fs, exclude, mods[1..], t - 1, cs);
    }
  }

  /** Every declaration of the document is accounted for: it is left in place or it contributes
      its copies (the property the loop as written breaks). */
  lemma EveryDeclAccountedFor(fs: Fs, exclude: string, mods: seq<Module>, t: nat)
    requires t < |mods|
    ensures ExpandDecl(fs, exclude, mods[t]) == Ok(Unchanged) ==> mods[t] in Kept(fs, exclude, mods)
    ensures ExpandDecl(fs, exclude, mods[t]).Ok? && ExpandDecl(fs, exclude, mods[t]).value.Replaced? ==>
      forall c :: c in ExpandDecl(fs, exclude, mods[t]).value.copies ==> c in Copies(fs, exclude, mods)
  {
    match ExpandDecl(fs, exclude, mods[t])
    case Err(_) =>
    case Ok(Unchanged) => UnchangedIsKept(fs, exclude, mods, t);
    case Ok(Replaced(cs)) => CopiesAreAdded(fs, exclude, mods, t, cs);
  }

  // ---------------------------------------------------------------- all documents

  /** The document-level loop of deepPathModules from position `k` of `order` (Go's iteration
      order of the document map): each document is expanded in turn; the first error stops the
      walk, leaving the later documents untouched. */
  function DeepPathFrom(fs: Fs, docs: Docs, order: seq<string>, k: nat): (r: (Docs, Option<Error>))
    requires k <= |order|
    requires Distinct(order) && forall p :: p in order ==> p in docs
    ensures r.0.Keys == docs.Keys
    ensures forall p :: p in docs && p !in order[k..] ==> r.0[p] == docs[p]
    decreases |order| - k
  {
    if k == |order| then (docs, None)
    else
      var p := order[k];
      var (mods, err) := ExpandDoc(fs, p, docs[p]);
      if err.Some? then (docs[p := mods], err)
      else
        assert order[k..] == [p] + order[k + 1..];
        DeepPathFrom(fs, docs[p := mods], order, k + 1)
  }

  /** The walk ends without error exactly when no document from position `k` on fails. */
  lemma DeepPathFromOk(fs: Fs, docs: Docs, order: seq<string>, k: nat)
    requires k <= |order|
    requires Distinct(order) && forall p :: p in order ==> p in docs
    ensures DeepPathFrom(fs, docs, order, k).1.None? <==>
      forall t :: k <= t < |order| ==> ExpandDoc(fs, order[t], docs[order[t]]).1.None?
  {
    DeepPathFromClean(fs, docs, order, k);
    CleanFromIff(fs, docs, order, k);
  }

  /** Reference: every document from position `k` on expands without error. */
  predicate CleanFrom(fs: Fs, docs: Docs, order: seq<string>, k: nat)
    requires k <= |order| && forall p :: p in order ==> p in docs
    decreases |order| - k
  {
    k == |order| || (ExpandDoc(fs, order[k], docs[order[k]]).1.None? && CleanFrom(fs, docs, order, k + 1))
  }

  lemma {:induction false} CleanFromIff(fs: Fs, docs: Docs, order: seq<string>, k: nat)
    requires k <= |order| && forall p :: p in order ==> p in docs
    ensures CleanFrom(fs, docs, order, k) <==>
      forall t :: k <= t < |order| ==> ExpandDoc(fs, order[t], docs[order[t]]).1.None?
    decreases |order| - k
  {
    if k < |order| {
      CleanFromIff(fs, docs, order, k + 1);
    }
  }

  /** CleanFrom only looks at the documents from position `k` on. */
  lemma {:induction false} CleanFromFrame(fs: Fs, docs: Docs, docs2: Docs, order: seq<string>, k: nat)
    requires k <= |order| && forall p :: p in order ==> p in docs && p in docs2
    requires forall t :: k <= t < |order| ==> docs2[order[t]] == docs[order[t]]
    ensures CleanFrom(fs, docs2, order, k) == CleanFrom(fs, docs, order, k)
    decreases |order| - k
  {
    if k < |order| {
      CleanFromFrame(fs, docs, docs2, order, k + 1);
    }
  }

  /** The walk ends without error exactly when every remaining document is clean. */
  lemma {:induction false} DeepPathFromClean(fs: Fs, docs: Docs, order: seq<string>, k: nat)
    requires k <= |order|
    requires Distinct(order) && forall p :: p in order ==> p in docs
    ensures DeepPathFrom(fs, docs, order, k).1.None? <==> CleanFrom(fs, docs, order, k)
    decreases |order| - k
  {
    if k < |order| {
      var p := order[k];
      var (mods, err) := ExpandDoc(fs, p, docs[p]);
      if err.None? {
        var docs2 := docs[p := mods];
        DeepPathFromClean(fs, docs2, order, k + 1);
        assert forall t :: k < t < |order| ==> order[t] != p;
        CleanFromFrame(fs, docs, docs2, order, k + 1);
        assert DeepPathFrom(fs, docs, order, k) == DeepPathFrom(fs, docs2, order, k + 1);
        assert CleanFrom(fs, docs, order, k) == CleanFrom(fs, docs, order, k + 1);
      } else {
        assert DeepPathFrom(fs, docs, order, k).1.Some?;
        assert !CleanFrom(fs, docs, order, k);
      }
    }
  }

  /** Without an error, each document from position `k` on holds its own expansion. */
  lemma {:induction false} DeepPathFromValue(fs: Fs, docs: Docs, order: seq<string>, k: nat)
    requires k <= |order|
    requires Distinct(order) && forall p :: p in order ==> p in docs
    ensures var r := DeepPathFrom(fs, docs, order, k);
      r.1.None? ==> forall t :: k <= t < |order| ==> r.0[order[t]] == ExpandDoc(fs, order[t], docs[order[t]]).0
    decreases |order| - k
  {
    if k < |order| {
      var p := order[k];
      var (mods, err) := ExpandDoc(fs, p, docs[p]);
      if err.None? {
        var docs2 := docs[p := mods];
        DeepPathFromValue(fs, docs2, order, k + 1);
        assert p !in order[k + 1..];
        assert forall t :: k < t < |order| ==> order[t] != p;
        assert forall t :: k < t < |order| ==> docs2[order[t]] == docs[order[t]];
      }
    }
  }

  /** deepPathModules(moduleMap): expands every document; returns the expanded documents and the
      first error (the caller discards it, config/config.go line 450-451). */
  function DeepPathModules(fs: Fs, docs: Docs, order: seq<string>): (r: (Docs, Option<Error>))
    requires Enumerates(order, docs)
    ensures r.0.Keys == docs.Keys
    ensures r.1.None? <==> forall p :: p in docs ==> ExpandDoc(fs, p, docs[p]).1.None?
    ensures r.1.None? ==> forall p :: p in docs ==>
      r.0[p] == Kept(fs, p, docs[p]) + Copies(fs, p, docs[p])
  {
    DeepPathFromOk(fs, docs, order, 0);
    DeepPathKeptCopies(fs, docs, order);
    DeepPathFrom(fs, docs, order, 0)
  }

  lemma DeepPathKeptCopies(fs: Fs, docs: Docs, order: seq<string>)
    requires Enumerates(order, docs)
    ensures var r := DeepPathFrom(fs, docs, order, 0);
      r.1.None? ==> forall p :: p in docs ==> r.0[p] == Kept(fs, p, docs[p]) + Copies(fs, p, docs[p])
  {
    DeepPathFromOk(fs, docs, order, 0);
    DeepPathFromValue(fs, docs, order, 0);
    var r := DeepPathFrom(fs, docs, order, 0);
    if r.1.None? {
      forall p | p in docs ensures r.0[p] == Kept(fs, p, docs[p]) + Copies(fs, p, docs[p]) {
        var t :| 0 <= t < |order| && order[t] == p;
        var e := ExpandDoc(fs, p, docs[p]);
        assert e.1.None? && r.0[p] == e.0;
        ExpandDocSpec(fs, p, docs[p]);
      }
    }
  }

  // ---------------------------------------------------------------- child links

  ghost predicate Childless(mods: seq<Module>) {
    forall x :: x in mods ==> x.children == []
  }

  lemma {:induction false} ExpandFromChildless(fs: Fs, exclude: string, kept: seq<Module>, rest: seq<Module>, added: seq<Module>)
    requires Childless(kept) && Childless(rest) && Childless(added)
    ensures Childless(ExpandFrom(fs, exclude, kept, rest, added).0)
    decreases |rest|
  {
    if |rest| > 0 {
      var m := rest[0];
      assert m in rest;
      assert forall x :: x in rest[1..] ==> x in rest;
      match ExpandDecl(fs, exclude, m)
      case Err(_) =>
      case Ok(Unchanged) => ExpandFromChildless(fs, exclude, kept + [m], rest[1..], added);
      case Ok(Replaced(cs)) =>
        ExpandDeclOutcomes(fs, exclude, m);
        assert forall i :: 0 <= i < |cs| ==> cs[i].children == m.children;
        ExpandFromChildless(fs, exclude, kept, rest[1..], added + cs);
    }
  }

  lemma {:induction false} DeepPathFromChildless(fs: Fs, docs: Docs, order: seq<string>, k: nat)
    requires k <= |order|
    requires Distinct(order) && forall p :: p in order ==> p in docs
    requires NoChildren(docs)
    ensures NoChildren(DeepPathFrom(fs, docs, order, k).0)
    decreases |order| - k
  {
    if k < |order| {
      var p := order[k];
      assert Childless(docs[p]) by {
        forall x | x in docs[p] ensures x.children == [] {
          var t :| 0 <= t < |docs[p]| && docs[p][t] == x;
        }
      }
      ExpandFromChildless(fs, p, [], docs[p], []);
      var mods := ExpandDoc(fs, p, docs[p]).0;
      var docs2: Docs := docs[p := mods];
      assert NoChildren(docs2) by {
        forall q, t | q in docs2 && 0 <= t < |docs2[q]|
          ensures docs2[q][t].children == []
        {
          if q == p {
            assert mods[t] in mods;
          }
        }
      }
      DeepPathFromChildless(fs, docs2, order, k + 1);
    }
  }

  /** Expansion copies a declaration's child links with it: documents without child links, as
      parsed, stay without them, error or not. */
  lemma DeepPathChildless(fs: Fs, docs: Docs, order: seq<string>)
    requires Enumerates(order, docs) && NoChildren(docs)
    ensures NoChildren(DeepPathModules(fs, docs, order).0)
  {
    DeepPathFromChildless(fs, docs, order, 0);
  }
}

=== FILE: documents.dfy ===
/** The parsed `modules:` documents the resolver works on (config/config.go `ModuleConfig` and
    `Module`). YAML decoding is not modelled: a document is already its list of declarations. */
module Documents {
  import opened Base

  /** One declaration of a `modules:` list. `children` are the paths of the documents linked
      under it while resolving; Go keeps them as *ModuleConfig pointers into the same map, and
      those pointers never change, so a path names the same document object. */
  datatype Module = Module(name: string, uses: seq<string>, children: seq<string>)

  /** Document path to its declarations. */
  type Docs = map<string, seq<Module>>

  /** `order` lists every key of `m` exactly once: one run of Go's unordered map iteration. */
  ghost predicate Enumerates<V>(order: seq<string>, m: map<string, V>) {
    Distinct(order) && forall k :: k in m <==> k in order
  }

  /** No declaration has children yet, as after parsing. */
  ghost predicate NoChildren(docs: Docs) {
    forall q, t :: q in docs && 0 <= t < |docs[q]| ==> docs[q][t].children == []
  }

  /** The uses that name one of `keys`, in order. */
  function DocUses(keys: set<string>, uses: seq<string>): (es: seq<string>)
    ensures forall u :: u in es <==> u in uses && u in keys
    ensures IsSubsequence(es, uses)
  {
    if |uses| == 0 then []
    else
      var rest := DocUses(keys, uses[1..]);
      assert forall u :: u in uses <==> u == uses[0] || u in uses[1..];
      if uses[0] in keys then [uses[0]] + rest else rest
  }
}

=== FILE: flatten.dfy ===
/** `deepFmtModules` and the second half of `makeUsesModule` in config/config.go: every document
    nobody links as a child is a root; its declarations are flattened depth first, children
    before their parent, each child declaration renamed `parent.child`, and every use naming a
    used document pruned. */
module Flatten {
  import opened Base
  import opened Strings
  import opened Documents
  import Link

  /** The uses not marked used, in their original order. */
  function KeepUnused(uses: seq<string>, used: set<string>): (r: seq<string>)
    ensures forall u :: u in r ==> u in uses
  {
    if |uses| == 0 then []
    else
      var rest := KeepUnused(uses[1..], used);
      if uses[0] in used then rest else [uses[0]] + rest
  }

  /** Pruning keeps exactly the uses not marked used. */
  lemma {:induction false} KeepUnusedMembers(uses: seq<string>, used: set<string>)
    ensures forall u :: u in KeepUnused(uses, used) <==> u in uses && u !in used
    decreases |uses|
  {
    if |uses| > 0 {
      KeepUnusedMembers(uses[1..], used);
      assert forall u :: u in uses <==> u == uses[0] || u in uses[1..];
    }
  }

  /** Pruning keeps the relative order of the uses it keeps. */
  lemma {:induction false} KeepUnusedInOrder(uses: seq<string>, used: set<string>)
    ensures IsSubsequence(KeepUnused(uses, used), uses)
    decreases |uses|
  {
    if |uses| > 0 {
      KeepUnusedInOrder(uses[1..], used);
      KeepUnusedMembers(uses[1..], used);
    }
  }

  lemma {:induction false} KeepUnusedAppend(a: seq<string>, b: seq<string>, used: set<string>)
    ensures KeepUnused(a + b, used) == KeepUnused(a, used) + KeepUnused(b, used)
    decreases |a|
  {
    if |a| == 0 {
      assert a + b == b;
    } else {
      assert (a + b)[0] == a[0] && (a + b)[1..] == a[1..] + b;
      KeepUnusedAppend(a[1..], b, used);
      var h := if a[0] in used then [] else [a[0]];
      assert KeepUnused(a + b, used) == h + KeepUnused(a[1..] + b, used);
      assert KeepUnused(a, used) == h + KeepUnused(a[1..], used);
      assert h + (KeepUnused(a[1..], used) + KeepUnused(b, used)) == (h + KeepUnused(a[1..], used)) + KeepUnused(b, used);
    }
  }

  /** The pruning loop of deepFmtModules: an entry marked used is cut out of the list and the
      index stepped back, so the entry shifted into its place is examined next. */
  method PruneUses(uses: seq<string>, used: set<string>) returns (r: seq<string>)
    ensures r == KeepUnused(uses, used)
  {
    r := uses;
    var i: int := 0;
    ghost var k := 0;
    while i < |r|
      invariant 0 <= i <= |r| && 0 <= k <= |uses|
      invariant r[..i] == KeepUnused(uses[..k], used) && r[i..] == uses[k..]
      decreases |r| - i
    {
      assert uses[..k + 1] == uses[..k] + [uses[k]];
      KeepUnusedAppend(uses[..k], [uses[k]], used);
      if r[i] in used {
        r := r[..i] + r[i + 1..];
        i := i - 1;
      }
      i := i + 1;
      k := k + 1;
    }
    assert uses[..k] == uses;
  }

  lemma PrefixOfPrefix(s: string, a: string, b: string)
    requires HasPrefix(s, a + b)
    ensures HasPrefix(s, a)
  {
    assert s[..|a|] == (a + b)[..|a|];
  }

  /** No entry keeps a use naming a used document. */
  ghost predicate Pruned(r: seq<Module>, used: set<string>) {
    forall x, u :: x in r && u in x.uses ==> u !in used
  }

  /** deepFmtModules(module, usedModuleMap) on a copy of the linked documents: the results of
      the declarations of each child document, renamed under `m`, in child order, followed by
      `m` itself with its used references pruned. The children's child links are followed
      through `docs`; reaching a document again below itself is the cycle the JSON encoding of
      the copy rejects. */
  function FlattenModule(docs: Docs, used: set<string>, m: Module, anc: set<string>): (r: Result<seq<Module>>)
    requires forall c :: c in m.children ==> c in docs
    requires Link.ChildrenKnown(docs)
    ensures r.Ok? ==> |r.value| >= 1 && r.value[|r.value| - 1] == Module(m.name, KeepUnused(m.uses, used), [])
    ensures r.Ok? <==> FlattenChildren(docs, used, m.name, m.children, anc).Ok?
    decreases docs.Keys - anc, 1
  {
    var inner :- FlattenChildren(docs, used, m.name, m.children, anc);
    Ok(inner + [Module(m.name, KeepUnused(m.uses, used), [])])
  }

  /** The children loop of deepFmtModules for a parent named `parent`. */
  function FlattenChildren(docs: Docs, used: set<string>, parent: string, cs: seq<string>, anc: set<string>)
    : (r: Result<seq<Module>>)
    requires forall c :: c in cs ==> c in docs
    requires Link.ChildrenKnown(docs)
    decreases docs.Keys - anc, 0, |cs|
  {
    if |cs| == 0 then Ok([])
    else if cs[0] in anc then Err(EncodeCycle(cs[0]))
    else
      assert docs.Keys - (anc + {cs[0]}) < docs.Keys - anc;
      var first :- FlattenDecls(docs, used, parent + ".", docs[cs[0]], anc + {cs[0]});
      var rest :- FlattenChildren(docs, used, parent, cs[1..], anc);
      Ok(first + rest)
  }

  /** The declarations `mods` of one document, each renamed `prefix + name` and flattened. */
  function FlattenDecls(docs: Docs, used: set<string>, prefix: string, mods: seq<Module>, anc: set<string>)
    : (r: Result<seq<Module>>)
    requires forall m, c :: m in mods && c in m.children ==> c in docs
    requires Link.ChildrenKnown(docs)
    decreases docs.Keys - anc, 2, |mods|
  {
    if |mods| == 0 then Ok([])
    else
      var first :- FlattenModule(docs, used, mods[0].(name := prefix + mods[0].name), anc);
      var rest :- FlattenDecls(docs, used, prefix, mods[1..], anc);
      Ok(first + rest)
  }

  // ---------------------------------------------------------------- names

  /** Every entry a declaration yields is named after it; all but its own are `m.name + "."`
      followed by a child's name. */
  lemma {:induction false} NamesModule(docs: Docs, used: set<string>, m: Module, anc: set<string>)
    requires forall c :: c in m.children ==> c in docs
    requires Link.ChildrenKnown(docs)
    ensures var r := FlattenModule(docs, used, m, anc);
      r.Ok? ==>
        && (forall k :: 0 <= k < |r.value| - 1 ==> HasPrefix(r.value[k].name, m.name + "."))
        && (forall x :: x in r.value ==> HasPrefix(x.name, m.name))
    decreases docs.Keys - anc, 1
  {
    NamesChildren(docs, used, m.name, m.children, anc);
    var inner := FlattenChildren(docs, used, m.name, m.children, anc);
    if inner.Ok? {
      var out := inner.value + [Module(m.name, KeepUnused(m.uses, used), [])];
      forall x | x in inner.value ensures HasPrefix(x.name, m.name) {
        PrefixOfPrefix(x.name, m.name, ".");
      }
      assert forall k :: 0 <= k < |out| - 1 ==> out[k] in inner.value;
    }
  }

  lemma {:induction false} NamesChildren(docs: Docs, used: set<string>, parent: string, cs: seq<string>, anc: set<string>)
    requires forall c :: c in cs ==> c in docs
    requires Link.ChildrenKnown(docs)
    ensures var r := FlattenChildren(docs, used, parent, cs, anc);
      r.Ok? ==> forall x :: x in r.value ==> HasPrefix(x.name, parent + ".")
    decreases docs.Keys - anc, 0, |cs|
  {
    if |cs| > 0 && cs[0] !in anc {
      assert docs.Keys - (anc + {cs[0]}) < docs.Keys - anc;
      NamesDecls(docs, used, parent + ".", docs[cs[0]], anc + {cs[0]});
      NamesChildren(docs, used, parent, cs[1..], anc);
    }
  }

  /** Every entry the declarations of a document yield under `prefix` is named `prefix` followed
      by the name of one of them, either exactly (the declaration itself) or followed by a dot (a
      declaration of one of its child documents, renamed). */
  lemma {:induction false} NamesDecls(docs: Docs, used: set<string>, prefix: string, mods: seq<Module>, anc: set<string>)
    requires forall m, c :: m in mods && c in m.children ==> c in docs
    requires Link.ChildrenKnown(docs)
    ensures var r := FlattenDecls(docs, used, prefix, mods, anc);
      r.Ok? ==>
        && (forall x :: x in r.value ==> HasPrefix(x.name, prefix))
        && (forall x :: x in r.value ==>
              exists d :: d in mods && (x.name == prefix + d.name || HasPrefix(x.name, prefix + d.name + ".")))
    decreases docs.Keys - anc, 2, |mods|
  {
    if |mods| > 0 {
      var m := mods[0].(name := prefix + mods[0].name);
      NamesModule(docs, used, m, anc);
      NamesDecls(docs, used, prefix, mods[1..], anc);
      var first := FlattenModule(docs, used, m, anc);
      var rest := FlattenDecls(docs, used, prefix, mods[1..], anc);
      if first.Ok? && rest.Ok? {
        forall x | x in first.value + rest.value
          ensures HasPrefix(x.name, prefix)
          ensures exists d :: d in mods && (x.name == prefix + d.name || HasPrefix(x.name, prefix + d.name + "."))
        {
          if x in first.value {
            PrefixOfPrefix(x.name, prefix, mods[0].name);
            assert mods[0] in mods;
            var k :| 0 <= k < |first.value| && first.value[k] == x;
            if k < |first.value| - 1 {
              assert HasPrefix(x.name, m.name + ".");
            } else {
              assert x.name == m.name;
            }
          } else {
            var d :| d in mods[1..] && (x.name == prefix + d.name || HasPrefix(x.name, prefix + d.name + "."));
            assert d in mods;
          }
        }
      }
    }
  }

  // ---------------------------------------------------------------- pruning

  lemma {:induction false} PrunedModule(docs: Docs, used: set<string>, m: Module, anc: set<string>)
    requires forall c :: c in m.children ==> c in docs
    requires Link.ChildrenKnown(docs)
    ensures var r := FlattenModule(docs, used, m, anc);
      r.Ok? ==> Pruned(r.value, used)
    decreases docs.Keys - anc, 1
  {
    KeepUnusedMembers(m.uses, used);
    PrunedChildren(docs, used, m.name, m.children, anc);
  }

  lemma {:induction false} PrunedChildren(docs: Docs, used: set<string>, parent: string, cs: seq<string>, anc: set<string>)
    requires forall c :: c in cs ==> c in docs
    requires Link.ChildrenKnown(docs)
    ensures var r := FlattenChildren(docs, used, parent, cs, anc);
      r.Ok? ==> Pruned(r.value, used)
    decreases docs.Keys - anc, 0, |cs|
  {
    if |cs| > 0 && cs[0] !in anc {
      assert docs.Keys - (anc + {cs[0]}) < docs.Keys - anc;
      PrunedDecls(docs, used, parent + ".", docs[cs[0]], anc + {cs[0]});
      PrunedChildren(docs, used, parent, cs[1..], anc);
    }
  }

  /** No flattened entry keeps a reference to a used document. */
  lemma {:induction false} PrunedDecls(docs: Docs, used: set<string>, prefix: string, mods: seq<Module>, anc: set<string>)
    requires forall m, c :: m in mods && c in m.children ==> c in docs
    requires Link.ChildrenKnown(docs)
    ensures var r := FlattenDecls(docs, used, prefix, mods, anc);
      r.Ok? ==> Pruned(r.value, used)
    decreases docs.Keys - anc, 2, |mods|
  {
    if |mods| > 0 {
      PrunedModule(docs, used, mods[0].(name := prefix + mods[0].name), anc);
      PrunedDecls(docs, used, prefix, mods[1..], anc);
    }
  }

  // ---------------------------------------------------------------- coverage

  /** Every declaration of every child document appears, renamed under `m` and pruned. */
  lemma {:induction false} CoversModule(docs: Docs, used: set<string>, m: Module, anc: set<string>)
    requires forall c :: c in m.children ==> c in docs
    requires Link.ChildrenKnown(docs)
    ensures var r := FlattenModule(docs, used, m, anc);
      r.Ok? ==> forall c, d :: c in m.children && d in docs[c] ==>
        Module(m.name + "." + d.name, KeepUnused(d.uses, used), []) in r.value
    decreases docs.Keys - anc, 1
  {
    CoversChildren(docs, used, m.name, m.children, anc);
  }

  lemma {:induction false} CoversChildren(docs: Docs, used: set<string>, parent: string, cs: seq<string>, anc: set<string>)
    requires forall c :: c in cs ==> c in docs
    requires Link.ChildrenKnown(docs)
    ensures var r := FlattenChildren(docs, used, parent, cs, anc);
      r.Ok? ==> forall c, d :: c in cs && d in docs[c] ==>
        Module(parent + "." + d.name, KeepUnused(d.uses, used), []) in r.value
    decreases docs.Keys - anc, 0, |cs|
  {
    if |cs| > 0 && cs[0] !in anc {
      assert docs.Keys - (anc + {cs[0]}) < docs.Keys - anc;
      CoversDecls(docs, used, parent + ".", docs[cs[0]], anc + {cs[0]});
      CoversChildren(docs, used, parent, cs[1..], anc);
      assert forall c :: c in cs ==> c == cs[0] || c in cs[1..];
    }
  }

  /** Every declaration of the document appears as its own entry, renamed `prefix + name`. */
  lemma {:induction false} CoversDecls(docs: Docs, used: set<string>, prefix: string, mods: seq<Module>, anc: set<string>)
    requires forall m, c :: m in mods && c in m.children ==> c in docs
    requires Link.ChildrenKnown(docs)
    ensures var r := FlattenDecls(docs, used, prefix, mods, anc);
      r.Ok? ==> forall d :: d in mods ==> Module(prefix + d.name, KeepUnused(d.uses, used), []) in r.value
    decreases docs.Keys - anc, 2, |mods|
  {
    if |mods| > 0 {
      CoversDecls(docs, used, prefix, mods[1..], anc);
      assert forall d :: d in mods ==> d == mods[0] || d in mods[1..];
    }
  }

  // ---------------------------------------------------------------- errors

  /** Flattening fails only on a document met again below itself. */
  lemma {:induction false} ErrorsModule(docs: Docs, used: set<string>, m: Module, anc: set<string>)
    requires forall c :: c in m.children ==> c in docs
    requires Link.ChildrenKnown(docs)
    ensures var r := FlattenModule(docs, used, m, anc);
      r.Err? ==> r.error.EncodeCycle? && r.error.path in docs
    decreases docs.Keys - anc, 1
  {
    ErrorsChildren(docs, used, m.name, m.children, anc);
  }

  lemma {:induction false} ErrorsChildren(docs: Docs, used: set<string>, parent: string, cs: seq<string>, anc: set<string>)
    requires forall c :: c in cs ==> c in docs
    requires Link.ChildrenKnown(docs)
    ensures var r := FlattenChildren(docs, used, parent, cs, anc);
      r.Err? ==> r.error.EncodeCycle? && r.error.path in docs
    decreases docs.Keys - anc, 0, |cs|
  {
    if |cs| > 0 && cs[0] !in anc {
      assert docs.Keys - (anc + {cs[0]}) < docs.Keys - anc;
      ErrorsDecls(docs, used, parent + ".", docs[cs[0]], anc + {cs[0]});
      ErrorsChildren(docs, used, parent, cs[1..], anc);
    }
  }

  lemma {:induction false} ErrorsDecls(docs: Docs, used: set<string>, prefix: string, mods: seq<Module>, anc: set<string>)
    requires forall m, c :: m in mods && c in m.children ==> c in docs
    requires Link.ChildrenKnown(docs)
    ensures var r := FlattenDecls(docs, used, prefix, mods, anc);
      r.Err? ==> r.error.EncodeCycle? && r.error.path in docs
    decreases docs.Keys - anc, 2, |mods|
  {
    if |mods| > 0 {
      ErrorsModule(docs, used, mods[0].(name := prefix + mods[0].name), anc);
      ErrorsDecls(docs, used, prefix, mods[1..], anc);
    }
  }

  /** Child order: the children loop over `a + b` lists the results for `a`, then those for `b`. */
  lemma {:induction false} FlattenChildrenAppend(docs: Docs, used: set<string>, parent: string, a: seq<string>, b: seq<string>, anc: set<string>)
    requires forall c :: c in a + b ==> c in docs
    requires Link.ChildrenKnown(docs)
    ensures var r := FlattenChildren(docs, used, parent, a + b, anc);
      && (r.Ok? <==> FlattenChildren(docs, used, parent, a, anc).Ok? && FlattenChildren(docs, used, parent, b, anc).Ok?)
      && (r.Ok? ==> r.value == FlattenChildren(docs, used, parent, a, anc).value + FlattenChildren(docs, used, parent, b, anc).value)
    decreases |a|
  {
    if |a| == 0 {
      assert a + b == b;
    } else {
      assert (a + b)[0] == a[0] && (a + b)[1..] == a[1..] + b;
      FlattenChildrenAppend(docs, used, parent, a[1..], b, anc);
    }
  }

  // ---------------------------------------------------------------- roots

  /** The reference for the emit loop: the declarations of each root document of `roots`,
      flattened and unrenamed, concatenated in the order of `roots`; the first failure wins. */
  function EmitRoots(docs: Docs, used: set<string>, roots: seq<string>): (r: Result<seq<Module>>)
    requires forall s :: s in roots ==> s in docs
    requires Link.ChildrenKnown(docs)
    ensures r.Ok? <==> forall i :: 0 <= i < |roots| ==> FlattenDecls(docs, used, "", docs[roots[i]], {roots[i]}).Ok?
    ensures r.Ok? && |roots| > 0 ==>
      r.value == FlattenDecls(docs, used, "", docs[roots[0]], {roots[0]}).value + EmitRoots(docs, used, roots[1..]).value
    decreases |roots|
  {
    if |roots| == 0 then Ok([])
    else
      var first :- FlattenDecls(docs, used, "", docs[roots[0]], {roots[0]});
      var rest :- EmitRoots(docs, used, roots[1..]);
      Ok(first + rest)
  }

  /** The emit loop of makeUsesModule from position `k` of `order` (Go's iteration order of
      ModulesMap): a used document is skipped, every other one contributes its declarations,
      flattened, unrenamed. It is the reference applied to the unused documents of `order[k..]`. */
  function EmitAll(docs: Docs, used: set<string>, order: seq<string>, k: nat): (r: Result<seq<Module>>)
    requires k <= |order| && forall s :: s in order ==> s in docs
    requires Link.ChildrenKnown(docs)
    ensures r == EmitRoots(docs, used, KeepUnused(order[k..], used))
    decreases |order| - k
  {
    if k == |order| then Ok([])
    else
      var s := order[k];
      assert order[k..][0] == s && order[k..][1..] == order[k + 1..];
      if s in used then EmitAll(docs, used, order, k + 1)
      else
        var first :- FlattenDecls(docs, used, "", docs[s], {s});
        var rest :- EmitAll(docs, used, order, k + 1);
        Ok(first + rest)
  }

  /** No emitted entry keeps a reference to a used document. */
  lemma {:induction false} EmitPruned(docs: Docs, used: set<string>, order: seq<string>, k: nat)
    requires k <= |order| && forall s :: s in order ==> s in docs
    requires Link.ChildrenKnown(docs)
    ensures var r := EmitAll(docs, used, order, k);
      r.Ok? ==> Pruned(r.value, used)
    decreases |order| - k
  {
    if k < |order| {
      EmitPruned(docs, used, order, k + 1);
      if order[k] !in used {
        PrunedDecls(docs, used, "", docs[order[k]], {order[k]});
      }
    }
  }

  /** The emit loop fails only on a child cycle. */
  lemma {:induction false} EmitErrors(docs: Docs, used: set<string>, order: seq<string>, k: nat)
    requires k <= |order| && forall s :: s in order ==> s in docs
    requires Link.ChildrenKnown(docs)
    ensures var r := EmitAll(docs, used, order, k);
      r.Err? ==> r.error.EncodeCycle? && r.error.path in docs
    decreases |order| - k
  {
    if k < |order| {
      EmitErrors(docs, used, order, k + 1);
      if order[k] !in used {
        ErrorsDecls(docs, used, "", docs[order[k]], {order[k]});
      }
    }
  }

  /** Every declaration of every unused document of `order[k..]` is emitted, unrenamed and pruned. */
  lemma {:induction false} EmitCoversRoots(docs: Docs, used: set<string>, order: seq<string>, k: nat)
    requires k <= |order| && forall s :: s in order ==> s in docs
    requires Link.ChildrenKnown(docs)
    ensures var r := EmitAll(docs, used, order, k);
      r.Ok? ==> forall s, d :: s in order[k..] && s !in used && s in docs && d in docs[s] ==>
        Module(d.name, KeepUnused(d.uses, used), []) in r.value
    decreases |order| - k
  {
    if k < |order| {
      var s0 := order[k];
      assert order[k..] == [s0] + order[k + 1..];
      EmitCoversRoots(docs, used, order, k + 1);
      if s0 !in used {
        CoversDecls(docs, used, "", docs[s0], {s0});
        var r := EmitAll(docs, used, order, k);
        if r.Ok? {
          forall s, d | s in order[k..] && s !in used && s in docs && d in docs[s]
            ensures Module(d.name, KeepUnused(d.uses, used), []) in r.value
          {
            if s == s0 {
              assert "" + d.name == d.name;
            }
          }
        }
      }
    }
  }

  /** `x` is the entry of declaration `d` itself, or of a child declaration renamed under it. */
  predicate NamedAfter(x: Module, d: Module) {
    x.name == d.name || HasPrefix(x.name, d.name + ".")
  }

  /** Every emitted entry is named after a declaration of an unused document of `order[k..]`:
      exactly that name, or that name followed by a dot and a renamed child declaration. */
  lemma {:induction false} EmitNamedAfterRoots(docs: Docs, used: set<string>, order: seq<string>, k: nat)
    requires k <= |order| && forall s :: s in order ==> s in docs
    requires Link.ChildrenKnown(docs)
    ensures var r := EmitAll(docs, used, order, k);
      r.Ok? ==> forall x :: x in r.value ==>
        exists s, d :: s in order[k..] && s !in used && s in docs && d in docs[s] && NamedAfter(x, d)
    decreases |order| - k
  {
    if k < |order| {
      var s0 := order[k];
      assert order[k..] == [s0] + order[k + 1..];
      EmitNamedAfterRoots(docs, used, order, k + 1);
      var r := EmitAll(docs, used, order, k);
      if s0 !in used && r.Ok? {
        NamesDecls(docs, used, "", docs[s0], {s0});
        var first := FlattenDecls(docs, used, "", docs[s0], {s0}).value;
        var rest := EmitAll(docs, used, order, k + 1).value;
        forall x | x in r.value
          ensures exists s, d :: s in order[k..] && s !in used && s in docs && d in docs[s] && NamedAfter(x, d)
        {
          if x in first {
            var d :| d in docs[s0] && (x.name == "" + d.name || HasPrefix(x.name, "" + d.name + "."));
            assert "" + d.name == d.name;
            assert NamedAfter(x, d);
          } else {
            assert x in rest;
            var s, d :| s in order[k + 1..] && s !in used && s in docs && d in docs[s] && NamedAfter(x, d);
            assert s in order[k..];
          }
        }
      }
    }
  }

  /** makeUsesModule(nodesMap): link every document (in `linkOrder`), then emit the roots (in
      `emitOrder`). The entries are the declarations of the documents that no declaration links
      as a child, with their children's declarations flattened before them. */
  function MakeUsesModule(docs: Docs, home: Link.Home, linkOrder: seq<string>, emitOrder: seq<string>)
    : (r: Result<seq<Module>>)
    requires Enumerates(linkOrder, docs) && Enumerates(emitOrder, docs) && NoChildren(docs)
    ensures r.Ok? ==> LinkAllOk(docs, home, linkOrder) && Flattened(docs, home, linkOrder, emitOrder, r.value)
    ensures r.Err? && LinkAllOk(docs, home, linkOrder) ==> r.error.EncodeCycle? && r.error.path in docs
  {
    assert Link.Wellformed(Link.Linking(docs, {}));
    var st :- Link.LinkAll(Link.Linking(docs, {}), home, linkOrder, 0);
    EmitFlattened(docs, home, linkOrder, emitOrder);
    EmitAll(st.docs, st.used, emitOrder, 0)
  }

  ghost predicate LinkAllOk(docs: Docs, home: Link.Home, linkOrder: seq<string>)
    requires Enumerates(linkOrder, docs) && NoChildren(docs)
  {
    assert Link.Wellformed(Link.Linking(docs, {}));
    Link.LinkAll(Link.Linking(docs, {}), home, linkOrder, 0).Ok?
  }

  /** The documents after the linking loop: the same keys, and used exactly when linked as a child. */
  ghost function LinkedState(docs: Docs, home: Link.Home, linkOrder: seq<string>): (st: Link.Linking)
    requires Enumerates(linkOrder, docs) && NoChildren(docs) && LinkAllOk(docs, home, linkOrder)
    ensures Link.Wellformed(st) && st.docs.Keys == docs.Keys
  {
    assert Link.Wellformed(Link.Linking(docs, {}));
    Link.LinkAll(Link.Linking(docs, {}), home, linkOrder, 0).value
  }

  /** `out` is the flattening of the linked documents: exactly the reference emit over the
      documents of `emitOrder` that are not marked used (those no declaration links as a child),
      in that order. Every use naming a used document is gone, every root declaration is there
      with its uses pruned, and every entry is a root declaration or a child declaration renamed
      under one. */
  ghost predicate Flattened(docs: Docs, home: Link.Home, linkOrder: seq<string>, emitOrder: seq<string>, out: seq<Module>)
    requires Enumerates(linkOrder, docs) && Enumerates(emitOrder, docs) && NoChildren(docs)
    requires LinkAllOk(docs, home, linkOrder)
  {
    var st := LinkedState(docs, home, linkOrder);
    && EmitRoots(st.docs, st.used, KeepUnused(emitOrder, st.used)) == Ok(out)
    && Pruned(out, st.used)
    && (forall s, d :: s in st.docs && !Link.HasChild(st.docs, s) && d in st.docs[s] ==>
          Module(d.name, KeepUnused(d.uses, st.used), []) in out)
    && (forall x :: x in out ==>
          exists s, d :: s in st.docs && !Link.HasChild(st.docs, s) && d in st.docs[s] && NamedAfter(x, d))
  }

  /** The emit loop over the linked documents produces a flattening, or fails on a child cycle. */
  lemma EmitFlattened(docs: Docs, home: Link.Home, linkOrder: seq<string>, emitOrder: seq<string>)
    requires Enumerates(linkOrder, docs) && Enumerates(emitOrder, docs) && NoChildren(docs)
    requires LinkAllOk(docs, home, linkOrder)
    ensures var st := LinkedState(docs, home, linkOrder);
      var r := EmitAll(st.docs, st.used, emitOrder, 0);
      && (r.Ok? ==> Flattened(docs, home, linkOrder, emitOrder, r.value))
      && (r.Err? ==> r.error.EncodeCycle? && r.error.path in docs)
  {
    var st := LinkedState(docs, home, linkOrder);
    assert emitOrder[0..] == emitOrder;
    EmitErrors(st.docs, st.used, emitOrder, 0);
    EmitPruned(st.docs, st.used, emitOrder, 0);
    EmitCoversRoots(st.docs, st.used, emitOrder, 0);
    EmitNamedAfterRoots(st.docs, st.used, emitOrder, 0);
  }
}

=== FILE: home.dfy ===
/** The cache and version decisions of pkg/utils/home.go: the source strings of a module, the
    lookup of an installed path by source, and what ModulesUpdate does before a module is used.
    Filesystem, configuration-file and network results are parameters; the effects are returned
    as a plan. */
module Home {
  import opened Base
  import opened Strings

  // ---------------------------------------------------------------- sources

  /** CreateSource(path, version, latest). */
  function CreateSource(path: string, version: string, latest: string): (r: (string, string))
    ensures r.0 == "selefra/" + path + "@" + version
    ensures latest == "latest" ==> r.1 == "selefra/" + path + "@latest"
    ensures latest != "latest" ==> r.1 == ""
  {
    if latest == "latest" then ("selefra/" + path + "@" + version, "selefra/" + path + "@latest")
    else ("selefra/" + path + "@" + version, "")
  }

  /** The second source is never empty when asked for, and names the same package as the first. */
  lemma CreateSourceSamePackage(path: string, version: string, latest: string)
    requires '@' !in path
    ensures var (a, b) := CreateSource(path, version, latest);
      && Split(a, '@')[0] == "selefra/" + path
      && (b != "" <==> latest == "latest")
      && (b != "" ==> Split(b, '@')[0] == Split(a, '@')[0])
  {
    var (a, b) := CreateSource(path, version, latest);
    SplitAtFirst("selefra/" + path, version);
    if latest == "latest" {
      SplitAtFirst("selefra/" + path, "latest");
    }
  }

  /** The piece before the first '@' of `p + "@" + v` is `p`. */
  lemma SplitAtFirst(p: string, v: string)
    requires '@' !in p
    ensures Split(p + "@" + v, '@')[0] == p
  {
    var s := p + "@" + v;
    assert s[|p|] == '@';
    var k := IndexOf(s, '@');
    assert s[..|p|] == p;
    assert k == |p|;
  }

  /** The key GetPathBySource looks up: the package part of `source` and the wanted version. */
  function SourceKey(source: string, version: string): (key: string)
    ensures Split(key, '@')[0] == Split(source, '@')[0]
    ensures '@' !in Split(key, '@')[0] && HasPrefix(source, Split(key, '@')[0])
    ensures HasSuffix(key, "@" + version)
  {
    var p := Split(source, '@')[0];
    assert HasPrefix(source, p) by {
      if '@' in source {
        var k := IndexOf(source, '@');
      }
    }
    SplitAtFirst(p, version);
    assert (p + "@" + version)[|p|..] == "@" + version;
    p + "@" + version
  }

  /** GetPathBySource(source, version). `config` is the parsed `~/.selefra/.path/config.json`, or
      the error met finding, reading or parsing it. */
  function GetPathBySource(config: Result<map<string, string>>, source: string, version: string): (r: string)
    ensures config.Err? ==> r == ""
    ensures config.Ok? && SourceKey(source, version) !in config.value ==> r == ""
    ensures config.Ok? && SourceKey(source, version) in config.value ==> r == config.value[SourceKey(source, version)]
    ensures r != "" ==>
      config.Ok? && SourceKey(source, version) in config.value && config.value[SourceKey(source, version)] == r
  {
    match config
    case Err(_) => ""
    case Ok(m) =>
      var key := SourceKey(source, version);
      if key in m then m[key] else ""
  }

  /** The version in `source`, if any, plays no part: only `version` does. */
  lemma SourceVersionIgnored(config: Result<map<string, string>>, p: string, old_v: string, version: string)
    requires '@' !in p
    ensures GetPathBySource(config, p + "@" + old_v, version) == GetPathBySource(config, p, version)
  {
    SplitAtFirst(p, old_v);
    assert Split(p, '@') == [p];
  }

  // ---------------------------------------------------------------- ModulesUpdate

  /** What ModulesUpdate does to the module cache. */
  datatype Action =
    | RemoveAll(path: string)
    | Download(url: string, dest: string)
    | WriteConfig(config: map<string, string>)

  /** Everything ModulesUpdate reads besides its arguments: the server and token of the CLI, the
      parsed configuration file, whether the module's cache directory exists, and the registry's
      answers (`latestOf(name)` is getModulesMetadata's latest version, `sourceOf(name, version)`
      getModulesModulesSupplement's source). `config` is the parsed configuration file, or the
      error met locating, reading or decoding it. */
  datatype Env = Env(
    server: string, token: string,
    config: Result<map<string, string>>, cacheExists: bool,
    latestOf: string -> Result<string>,
    sourceOf: (string, string) -> Result<string>)

  /** The call's effect: the memoized latest version afterwards (it survives a later error), and
      the actions taken or the error returned. */
  datatype Update = Update(memo: string, result: Result<seq<Action>>)

  /** The version recorded for `name` in the configuration; a missing key reads as "". */
  function Recorded(config: map<string, string>, name: string): string {
    var key := "modules/" + name;
    if key in config then config[key] else ""
  }

  function OrgUrl(env: Env, org: string, name: string): string {
    "https://" + env.server + "/cli/download/" + org + "/" + env.token + "/" + name + ".zip"
  }

  function ReleaseUrl(source: string, version: string, name: string): string {
    source + "/releases/download/" + version + "/" + name + ".zip"
  }

  /** The public-package branch once the latest version is known. */
  function PublicUpdate(env: Env, config: map<string, string>, name: string, modulesPath: string, latest: string)
    : (r: Result<seq<Action>>)
    ensures r.Ok? && r.value == [] <==> Recorded(config, name) == latest && env.cacheExists
    ensures r.Ok? && r.value != [] ==>
      exists src :: env.sourceOf(name, latest) == Ok(src)
        && r.value == [RemoveAll(PathJoin(modulesPath, name)),
                       Download(ReleaseUrl(src, latest, name), modulesPath),
                       WriteConfig(config["modules/" + name := latest])]
    ensures r.Err? ==> env.sourceOf(name, latest).Err? && r.error == env.sourceOf(name, latest).error
  {
    if Recorded(config, name) == latest && env.cacheExists then Ok([])
    else
      var src :- env.sourceOf(name, latest);
      Ok([RemoveAll(PathJoin(modulesPath, name)),
          Download(ReleaseUrl(src, latest, name), modulesPath),
          WriteConfig(config["modules/" + name := latest])])
  }

  /** ModulesUpdate(modulesName, modulesPath, org) as written, with the process-wide memo
      `LatestVersion` passed in as `memo` and returned in the update. */
  function ModulesUpdate(env: Env, memo: string, name: string, modulesPath: string, org: string): (u: Update)
    // Without a readable configuration nothing else happens, for either kind of package.
    ensures env.config.Err? ==> u == Update(memo, Err(env.config.error))
    // An org package is always fetched again, replacing any cached copy, whatever is recorded.
    ensures env.config.Ok? && org != "" ==>
      && u.memo == memo
      && u.result == Ok((if env.cacheExists then [RemoveAll(PathJoin(modulesPath, name))] else [])
                        + [Download(OrgUrl(env, org, name), PathJoin(modulesPath, name))])
    // A public package asks the registry only while nothing is memoized.
    ensures env.config.Ok? && org == "" && memo != "" ==>
      u.memo == memo && u.result == PublicUpdate(env, env.config.value, name, modulesPath, memo)
    ensures env.config.Ok? && org == "" && memo == "" && env.latestOf(name).Err? ==>
      u == Update(memo, Err(env.latestOf(name).error))
    ensures env.config.Ok? && org == "" && memo == "" && env.latestOf(name).Ok? ==>
      u.memo == env.latestOf(name).value && u.result == PublicUpdate(env, env.config.value, name, modulesPath, u.memo)
  {
    match env.config
    case Err(e) => Update(memo, Err(e))
    case Ok(config) =>
      var cache := PathJoin(modulesPath, name);
      if org != "" then
        Update(memo, Ok((if env.cacheExists then [RemoveAll(cache)] else []) + [Download(OrgUrl(env, org, name), cache)]))
      else if memo == "" then
        match env.latestOf(name)
        case Err(e) => Update(memo, Err(e))
        case Ok(latest) => Update(latest, PublicUpdate(env, config, name, modulesPath, latest))
      else Update(memo, PublicUpdate(env, config, name, modulesPath, memo))
  }

  /** For an org package no version is compared: the recorded versions, the memo and the
      registry make no difference. */
  lemma OrgIgnoresVersions(env: Env, env': Env, memo: string, memo': string, name: string, modulesPath: string, org: string)
    requires org != ""
    requires env.config.Ok? && env'.config.Ok?
    requires env.server == env'.server && env.token == env'.token && env.cacheExists == env'.cacheExists
    ensures ModulesUpdate(env, memo, name, modulesPath, org).result == ModulesUpdate(env', memo', name, modulesPath, org).result
  {
  }

  /** After a public download, the next call, seeing the configuration it wrote and the cache it
      filled, does nothing. */
  lemma DownloadThenSkip(env: Env, memo: string, name: string, modulesPath: string)
    ensures var u := ModulesUpdate(env, memo, name, modulesPath, "");
      u.result.Ok? && u.result.value != [] ==>
        var written := env.config.value["modules/" + name := u.memo];
        var env' := env.(config := Ok(written), cacheExists := true);
        && WriteConfig(written) in u.result.value
        && ModulesUpdate(env', u.memo, name, modulesPath, "").result == Ok([])
  {
    var u := ModulesUpdate(env, memo, name, modulesPath, "");
    if u.result.Ok? && u.result.value != [] {
      assert u.memo != "" || memo == "";
      var written := env.config.value["modules/" + name := u.memo];
      assert Recorded(written, name) == u.memo;
    }
  }

  /** GetHomeModulesPath(modules, org): `home` is the selefra home directory or the error met
      finding it, `update` the outcome of ModulesUpdate, `dirExists` whether the modules
      directory is there afterwards. */
  function GetHomeModulesPath(home: Result<string>, update: Result<seq<Action>>, dirExists: bool): (r: Result<string>)
    ensures r.Ok? <==> home.Ok? && update.Ok? && dirExists
    ensures r.Ok? ==> r.value == PathJoin(home.value, "download/modules")
    ensures home.Err? ==> r == Err(home.error)
    ensures home.Ok? && update.Err? ==> r == Err(update.error)
  {
    var path :- home;
    var _ :- update;
    if dirExists then Ok(PathJoin(path, "download/modules"))
    else Err(ReadFailed(PathJoin(path, "download/modules")))
  }

  // ---------------------------------------------------------------- one memo for every module

  /** The registry of the example: two modules with different latest versions. */
  function ExampleLatest(name: string): Result<string> {
    if name == "a" then Ok("1.0") else if name == "b" then Ok("2.0") else Err(FetchFailed(name))
  }

  function ExampleSource(name: string, version: string): Result<string> {
    Ok("https://example.org")
  }

  function ExampleEnv(): Env {
    Env("", "", Ok(map[]), false, ExampleLatest, ExampleSource)
  }

  /** Updating module "a" and then module "b" in one run installs "b" at "a"'s latest version. */
  lemma SharedMemoReusesFirstVersion()
    ensures var u1 := ModulesUpdate(ExampleEnv(), "", "a", "m", "");
      var u2 := ModulesUpdate(ExampleEnv(), u1.memo, "b", "m", "");
      && u2.result.Ok?
      && Download(ReleaseUrl("https://example.org", "1.0", "b"), "m") in u2.result.value
      && ExampleLatest("b") == Ok("2.0")
  {
    var u1 := ModulesUpdate(ExampleEnv(), "", "a", "m", "");
    assert u1.memo == "1.0";
    assert Recorded(map[], "b") == "";
    assert ExampleEnv().sourceOf("b", "1.0") == Ok("https://example.org");
    var u2 := ModulesUpdate(ExampleEnv(), u1.memo, "b", "m", "");
    assert u2.result == PublicUpdate(ExampleEnv(), map[], "b", "m", "1.0");
  }

  /** The memo as intended: one latest version per module name. */
  function ModulesUpdateKeyed(env: Env, memo: map<string, string>, name: string, modulesPath: string, org: string)
    : (r: (map<string, string>, Result<seq<Action>>))
    ensures org != "" ==> r.0 == memo && r.1 == ModulesUpdate(env, "", name, modulesPath, org).result
    ensures env.config.Err? ==> r == (memo, Err(env.config.error))
    ensures env.config.Ok? && org == "" && name in memo ==>
      r.0 == memo && r.1 == PublicUpdate(env, env.config.value, name, modulesPath, memo[name])
    ensures env.config.Ok? && org == "" && name !in memo ==>
      match env.latestOf(name)
      case Err(e) => r == (memo, Err(e))
      case Ok(latest) => r == (memo[name := latest], PublicUpdate(env, env.config.value, name, modulesPath, latest))
  {
    match env.config
    case Err(e) => (memo, Err(e))
    case Ok(config) =>
      if org != "" then (memo, ModulesUpdate(env, "", name, modulesPath, org).result)
      else if name in memo then (memo, PublicUpdate(env, config, name, modulesPath, memo[name]))
      else
        match env.latestOf(name)
        case Err(e) => (memo, Err(e))
        case Ok(latest) => (memo[name := latest], PublicUpdate(env, config, name, modulesPath, latest))
  }

  /** Every memoized version is the registry's latest for that module. */
  ghost predicate MemoFaithful(env: Env, memo: map<string, string>) {
    forall n :: n in memo ==> env.latestOf(n) == Ok(memo[n])
  }

  /** The keyed memo stays faithful, so each module is installed at its own latest version. */
  lemma KeyedUsesOwnLatest(env: Env, memo: map<string, string>, name: string, modulesPath: string)
    requires MemoFaithful(env, memo)
    ensures var r := ModulesUpdateKeyed(env, memo, name, modulesPath, "");
      && MemoFaithful(env, r.0)
      && (r.1.Ok? && r.1.value != [] ==>
            exists src, v :: env.latestOf(name) == Ok(v)
              && Download(ReleaseUrl(src, v, name), modulesPath) in r.1.value)
  {
    var r := ModulesUpdateKeyed(env, memo, name, modulesPath, "");
    if r.1.Ok? && r.1.value != [] {
      var v := if name in memo then memo[name] else env.latestOf(name).value;
      var src :| env.sourceOf(name, v) == Ok(src)
        && r.1.value == [RemoveAll(PathJoin(modulesPath, name)),
                         Download(ReleaseUrl(src, v, name), modulesPath),
                         WriteConfig(env.config.value["modules/" + name := v])];
      assert Download(ReleaseUrl(src, v, name), modulesPath) in r.1.value;
    }
  }

  /** With the keyed memo the example installs "b" at its own latest version. */
  lemma KeyedExampleInstallsOwnVersion()
    ensures var r1 := ModulesUpdateKeyed(ExampleEnv(), map[], "a", "m", "");
      var r2 := ModulesUpdateKeyed(ExampleEnv(), r1.0, "b", "m", "");
      && r2.1.Ok?
      && Download(ReleaseUrl("https://example.org", "2.0", "b"), "m") in r2.1.value
  {
    var r1 := ModulesUpdateKeyed(ExampleEnv(), map[], "a", "m", "");
    assert r1.0 == map["a" := "1.0"];
    assert "b" !in r1.0;
    assert Recorded(map[], "b") == "";
    assert ExampleLatest("b") == Ok("2.0");
    assert ExampleEnv().sourceOf("b", "2.0") == Ok("https://example.org");
    var r2 := ModulesUpdateKeyed(ExampleEnv(), r1.0, "b", "m", "");
    assert r2.1 == PublicUpdate(ExampleEnv(), map[], "b", "m", "2.0");
  }
}

=== FILE: link.dfy ===
/** The first half of `makeUsesModule` in config/config.go: registry references in `uses` are
    rewritten to local paths, and every use naming a document of the map links that document
    under the declaration as a child and marks it used. */
module Link {
  import opened Base
  import opened Strings
  import opened Documents

  /** GetHomeModulesPath(name, org) of pkg/utils/home.go: the local directory holding downloaded
      modules, after bringing the named module up to date (network and disk are behind it). */
  type Home = (string, string) -> Result<string>

  /** `s` with its leading `t` replaced by `rep`. */
  lemma ReplaceFirstAtPrefix(s: string, t: string, rep: string)
    requires HasPrefix(s, t)
    ensures ReplaceFirst(s, t, rep) == rep + s[|t|..]
  {
  }

  /** The first two '/'-separated parts of `s`, rejoined, are a prefix of `s`. */
  lemma SplitPrefix(s: string)
    requires |Split(s, '/')| >= 3
    ensures HasPrefix(s, Split(s, '/')[0] + "/" + Split(s, '/')[1])
  {
    var parts := Split(s, '/');
    SplitJoin(s, '/');
    assert parts == [parts[0]] + parts[1..];
    JoinCons(parts[0], parts[1..], '/');
    assert parts[1..] == [parts[1]] + parts[2..];
    JoinCons(parts[1], parts[2..], '/');
    var r := Join(parts[2..], '/');
    assert s == parts[0] + "/" + (parts[1] + "/" + r);
    RegroupFirstTwo(parts[0], parts[1], r);
    PrefixOfConcat(parts[0] + "/" + parts[1], "/" + r);
  }

  lemma RegroupFirstTwo(x: string, y: string, r: string)
    ensures x + "/" + (y + "/" + r) == (x + "/" + y) + ("/" + r)
  {
  }

  lemma PrefixOfConcat(a: string, b: string)
    ensures HasPrefix(a + b, a)
  {
    assert (a + b)[..|a|] == a;
  }

  /** One use as makeUsesModule rewrites it. `selefra/<name>...` becomes the home modules
      directory followed by the rest of the reference, and an error of the home lookup aborts.
      `app.selefra.io/<org>/<name>...` has its first two segments replaced the same way; an error
      of that lookup is only logged and the directory reads as empty. Too few segments index past
      the end of the split. Any other use is kept. */
  function RewriteUse(use: string, home: Home): (r: Result<string>)
    ensures HasPrefix(use, "selefra") ==>
      var parts := Split(use, '/');
      && (|parts| < 2 ==> r == Err(IndexOutOfRange(use)))
      && (|parts| >= 2 && home(parts[1], "").Err? ==> r == Err(home(parts[1], "").error))
      && (|parts| >= 2 && home(parts[1], "").Ok? ==> r == Ok(home(parts[1], "").value + use[7..]))
    ensures HasPrefix(use, "app.selefra.io") ==>
      var parts := Split(use, '/');
      && (|parts| < 3 ==> r == Err(IndexOutOfRange(use)))
      && (|parts| >= 3 ==>
            var dir := if home(parts[2], parts[1]).Ok? then home(parts[2], parts[1]).value else "";
            r == Ok(dir + use[|parts[0]| + 1 + |parts[1]|..]))
    ensures !HasPrefix(use, "selefra") && !HasPrefix(use, "app.selefra.io") ==> r == Ok(use)
  {
    if HasPrefix(use, "selefra") then
      var parts := Split(use, '/');
      if |parts| < 2 then Err(IndexOutOfRange(use))
      else
        var dir :- home(parts[1], "");
        ReplaceFirstAtPrefix(use, "selefra", dir);
        Ok(ReplaceFirst(use, "selefra", dir))
    else if HasPrefix(use, "app.selefra.io") then
      var parts := Split(use, '/');
      if |parts| < 3 then Err(IndexOutOfRange(use))
      else
        var dir := match home(parts[2], parts[1]) case Ok(d) => d case Err(_) => "";
        SplitPrefix(use);
        ReplaceFirstAtPrefix(use, parts[0] + "/" + parts[1], dir);
        Ok(ReplaceFirst(use, parts[0] + "/" + parts[1], dir))
    else Ok(use)
  }

  /** An absolute path names no registry, so it is kept as it is. */
  lemma AbsNotRewritten(use: string, home: Home)
    requires IsAbs(use)
    ensures RewriteUse(use, home) == Ok(use)
  {
  }

  /** The rewriting loop over one declaration's uses: the first failing use aborts. */
  function RewriteAll(uses: seq<string>, home: Home): (r: Result<seq<string>>)
    ensures r.Ok? <==> forall j :: 0 <= j < |uses| ==> RewriteUse(uses[j], home).Ok?
    ensures r.Ok? ==> |r.value| == |uses| && forall j :: 0 <= j < |uses| ==> Ok(r.value[j]) == RewriteUse(uses[j], home)
  {
    if |uses| == 0 then Ok([])
    else
      var u :- RewriteUse(uses[0], home);
      var rest := RewriteAll(uses[1..], home);
      if rest.Err? then
        assert !RewriteUse(uses[1..][FirstBadUse(uses[1..], home)], home).Ok?;
        rest
      else
        Ok([u] + rest.value)
  }

  /** The position of a failing use, for the proof of RewriteAll. */
  function FirstBadUse(uses: seq<string>, home: Home): (j: nat)
    requires exists j :: 0 <= j < |uses| && RewriteUse(uses[j], home).Err?
    ensures j < |uses| && RewriteUse(uses[j], home).Err?
  {
    if RewriteUse(uses[0], home).Err? then 0
    else
      assert exists j :: 0 <= j < |uses[1..]| && RewriteUse(uses[1..][j], home).Err? by {
        var j :| 0 <= j < |uses| && RewriteUse(uses[j], home).Err?;
        assert uses[1..][j - 1] == uses[j];
      }
      1 + FirstBadUse(uses[1..], home)
  }

  // ---------------------------------------------------------------- linking

  /** makeUsesModule's mutable state: the documents (ModulesMap) and usedModuleMap. */
  datatype Linking = Linking(docs: Docs, used: set<string>)

  /** Every use of every declaration of `mods` joined onto `dir` (the IsAbs branch). */
  function PrefixUses(dir: string, mods: seq<Module>): (r: seq<Module>)
    ensures |r| == |mods|
    ensures forall t :: 0 <= t < |mods| ==>
      r[t].name == mods[t].name && r[t].children == mods[t].children && |r[t].uses| == |mods[t].uses|
    ensures forall t, k :: 0 <= t < |mods| && 0 <= k < |mods[t].uses| ==> r[t].uses[k] == PathJoin(dir, mods[t].uses[k])
  {
    seq(|mods|, t requires 0 <= t < |mods| => mods[t].(uses := JoinAll(dir, mods[t].uses)))
  }

  /** Two document maps with the same documents, declaration counts, names and use counts. */
  ghost predicate SameShape(a: Docs, b: Docs) {
    && a.Keys == b.Keys
    && forall p :: p in a ==> (
         && |a[p]| == |b[p]|
         && forall t :: 0 <= t < |a[p]| ==> a[p][t].name == b[p][t].name && |a[p][t].uses| == |b[p][t].uses|)
  }

  /** Every child link names a document of the map. */
  ghost predicate ChildrenKnown(docs: Docs) {
    forall p, t, c :: p in docs && 0 <= t < |docs[p]| && c in docs[p][t].children ==> c in docs
  }

  /** Some declaration links `c` as a child. */
  ghost predicate HasChild(docs: Docs, c: string) {
    exists q, t :: q in docs && 0 <= t < |docs[q]| && c in docs[q][t].children
  }

  /** The state invariant: used documents and child links name documents of the map, and a
      document is marked used exactly when some declaration links it as a child. */
  ghost predicate Wellformed(st: Linking) {
    && st.used <= st.docs.Keys && ChildrenKnown(st.docs)
    && forall c :: c in st.used <==> HasChild(st.docs, c)
  }

  /** `a` and `b` hold the same child links everywhere. */
  ghost predicate SameChildren(a: Docs, b: Docs) {
    && a.Keys == b.Keys
    && forall q :: q in a ==> (
         && |a[q]| == |b[q]|
         && forall t :: 0 <= t < |a[q]| ==> a[q][t].children == b[q][t].children)
  }

  /** Appending the link to `u` under declaration `i` of `p` while marking `u` used keeps the
      used set equal to the set of linked documents. */
  lemma LinkKeepsUsedIffChild(st: Linking, docs1: Docs, p: string, i: nat, u: string)
    requires forall c :: c in st.used <==> HasChild(st.docs, c)
    requires SameChildren(st.docs, docs1) && p in docs1 && i < |docs1[p]|
    ensures var m := docs1[p][i];
      var docs2 := docs1[p := docs1[p][i := m.(children := m.children + [u])]];
      forall c :: c in st.used + {u} <==> HasChild(docs2, c)
  {
    var m := docs1[p][i];
    var docs2: Docs := docs1[p := docs1[p][i := m.(children := m.children + [u])]];
    assert u in docs2[p][i].children;
    forall c ensures c in st.used + {u} <==> HasChild(docs2, c) {
      if c in st.used {
        var q, t :| q in st.docs && 0 <= t < |st.docs[q]| && c in st.docs[q][t].children;
        assert c in docs2[q][t].children;
      }
      if HasChild(docs2, c) && c != u {
        var q, t :| q in docs2 && 0 <= t < |docs2[q]| && c in docs2[q][t].children;
        if q == p && t == i {
          assert c in m.children;
        }
        assert c in st.docs[q][t].children;
      }
    }
  }

  /** Joining the uses of document `u` onto a directory changes no shape and no child link. */
  lemma PrefixKeepsShape(d: Docs, u: string)
    requires u in d
    ensures var d1 := d[u := PrefixUses(PathDir(u), d[u])];
      SameShape(d, d1) && SameChildren(d, d1)
  {
  }

  /** Appending the link to `u` under declaration `i` of `p` keeps the state invariant. */
  lemma AppendChildKeepsWellformed(st: Linking, docs1: Docs, p: string, i: nat, u: string)
    requires Wellformed(st) && SameShape(st.docs, docs1) && SameChildren(st.docs, docs1)
    requires p in docs1 && i < |docs1[p]| && u in docs1
    ensures var m := docs1[p][i];
      var docs2 := docs1[p := docs1[p][i := m.(children := m.children + [u])]];
      Wellformed(Linking(docs2, st.used + {u})) && SameShape(st.docs, docs2)
  {
    var m := docs1[p][i];
    var docs2 := docs1[p := docs1[p][i := m.(children := m.children + [u])]];
    LinkKeepsUsedIffChild(st, docs1, p, i, u);
    assert ChildrenKnown(docs2) by {
      forall q, t, c | q in docs2 && 0 <= t < |docs2[q]| && c in docs2[q][t].children
        ensures c in docs2
      {
        if q == p && t == i {
          assert c in m.children || c == u;
        } else {
          assert c in st.docs[q][t].children;
        }
      }
    }
  }

  /** One linked use `u` (a document of the map) of declaration `i` of document `p`: `u` is
      marked used; if it is absolute, every use of document `u` is joined onto its directory;
      `u` is appended to the declaration's children. */
  function LinkOne(st: Linking, p: string, i: nat, u: string): (r: Linking)
    requires p in st.docs && i < |st.docs[p]| && u in st.docs
    requires Wellformed(st)
    ensures Wellformed(r) && SameShape(st.docs, r.docs)
    ensures r.used == st.used + {u}
    ensures r.docs[p][i].children == st.docs[p][i].children + [u]
  {
    var docs1 := if IsAbs(u) then st.docs[u := PrefixUses(PathDir(u), st.docs[u])] else st.docs;
    PrefixKeepsShape(st.docs, u);
    assert SameShape(st.docs, docs1) && SameChildren(st.docs, docs1);
    AppendChildKeepsWellformed(st, docs1, p, i, u);
    var m := docs1[p][i];
    Linking(docs1[p := docs1[p][i := m.(children := m.children + [u])]], st.used + {u})
  }

  /** The second inner loop of makeUsesModule for declaration `i` of document `p`, at use `j` of
      `n`: the use is read afresh each round (an earlier round may have rewritten it), and every
      use naming a document is linked. */
  function LinkUses(st: Linking, p: string, i: nat, j: nat, n: nat): (r: Linking)
    requires p in st.docs && i < |st.docs[p]| && n <= |st.docs[p][i].uses|
    requires Wellformed(st)
    ensures Wellformed(r) && SameShape(st.docs, r.docs)
    ensures st.used <= r.used
    decreases n - j
  {
    if j >= n then st
    else
      var u := st.docs[p][i].uses[j];
      if u !in st.docs then LinkUses(st, p, i, j + 1, n)
      else LinkUses(LinkOne(st, p, i, u), p, i, j + 1, n)
  }

  /** Replacing the uses of declaration `i` of `p` by as many others keeps the state invariant. */
  lemma ReplaceUsesKeepsWellformed(st: Linking, p: string, i: nat, uses: seq<string>)
    requires Wellformed(st) && p in st.docs && i < |st.docs[p]| && |uses| == |st.docs[p][i].uses|
    ensures var docs1 := st.docs[p := st.docs[p][i := st.docs[p][i].(uses := uses)]];
      Wellformed(Linking(docs1, st.used)) && SameShape(st.docs, docs1)
  {
    var m := st.docs[p][i];
    var docs1 := st.docs[p := st.docs[p][i := m.(uses := uses)]];
    forall c ensures HasChild(st.docs, c) <==> HasChild(docs1, c) {
      if HasChild(st.docs, c) {
        var q, t :| q in st.docs && 0 <= t < |st.docs[q]| && c in st.docs[q][t].children;
        assert c in docs1[q][t].children;
      }
      if HasChild(docs1, c) {
        var q, t :| q in docs1 && 0 <= t < |docs1[q]| && c in docs1[q][t].children;
        assert c in st.docs[q][t].children;
      }
    }
    assert ChildrenKnown(docs1) by {
      forall q, t, c | q in docs1 && 0 <= t < |docs1[q]| && c in docs1[q][t].children
        ensures c in docs1
      {
        assert c in st.docs[q][t].children;
      }
    }
  }

  /** One declaration: its uses are rewritten in place, then linked. */
  function LinkDecl(st: Linking, home: Home, p: string, i: nat): (r: Result<Linking>)
    requires p in st.docs && i < |st.docs[p]|
    requires Wellformed(st)
    ensures r.Ok? ==> Wellformed(r.value) && SameShape(st.docs, r.value.docs) && st.used <= r.value.used
    ensures r.Err? <==> RewriteAll(st.docs[p][i].uses, home).Err?
  {
    var m := st.docs[p][i];
    var uses :- RewriteAll(m.uses, home);
    ReplaceUsesKeepsWellformed(st, p, i, uses);
    var docs1 := st.docs[p := st.docs[p][i := m.(uses := uses)]];
    Ok(LinkUses(Linking(docs1, st.used), p, i, 0, |uses|))
  }

  /** The declarations of document `p`, from position `i`. */
  function LinkDoc(st: Linking, home: Home, p: string, i: nat): (r: Result<Linking>)
    requires p in st.docs && i <= |st.docs[p]|
    requires Wellformed(st)
    ensures r.Ok? ==> Wellformed(r.value) && SameShape(st.docs, r.value.docs) && st.used <= r.value.used
    decreases |st.docs[p]| - i
  {
    if i == |st.docs[p]| then Ok(st)
    else
      var st1 :- LinkDecl(st, home, p, i);
      var r := LinkDoc(st1, home, p, i + 1);
      r
  }

  /** The documents in `order` (Go's iteration order of ModulesMap) from position `k`. */
  function LinkAll(st: Linking, home: Home, order: seq<string>, k: nat): (r: Result<Linking>)
    requires k <= |order| && forall q :: q in order ==> q in st.docs
    requires Wellformed(st)
    ensures r.Ok? ==> Wellformed(r.value) && SameShape(st.docs, r.value.docs) && st.used <= r.value.used
    decreases |order| - k
  {
    if k == |order| then Ok(st)
    else
      var st1 :- LinkDoc(st, home, order[k], 0);
      var r := LinkAll(st1, home, order, k + 1);
      r
  }

  /** The documents that `uses` names, as a set. */
  function NamedDocs(keys: set<string>, uses: seq<string>): set<string> {
    set u | u in uses && u in keys
  }

  /** The linking loop over uses `j` to `n` of declaration `i` of `p`, whatever the document
      paths: the uses it reads are the declaration's own, its children gain exactly the uses that
      name documents, in order, and exactly those documents join the used set. The one case left
      aside is an absolute document that uses itself, whose uses the loop re-joins as it reads
      them. */
  lemma LinkUsesReads(st: Linking, p: string, i: nat, j: nat, n: nat)
    requires p in st.docs && i < |st.docs[p]| && j <= n <= |st.docs[p][i].uses|
    requires Wellformed(st)
    requires IsAbs(p) ==> p !in st.docs[p][i].uses[j..n]
    ensures var m := st.docs[p][i];
      var r := LinkUses(st, p, i, j, n);
      && r.docs[p][i] == m.(children := m.children + DocUses(st.docs.Keys, m.uses[j..n]))
      && r.used == st.used + NamedDocs(st.docs.Keys, m.uses[j..n])
  {
    LinkUsesChildren(st, p, i, j, n);
    LinkUsesMarks(st, p, i, j, n);
  }

  /** The children half of LinkUsesReads. */
  lemma {:induction false} LinkUsesChildren(st: Linking, p: string, i: nat, j: nat, n: nat)
    requires p in st.docs && i < |st.docs[p]| && j <= n <= |st.docs[p][i].uses|
    requires Wellformed(st)
    requires IsAbs(p) ==> p !in st.docs[p][i].uses[j..n]
    ensures var m := st.docs[p][i];
      LinkUses(st, p, i, j, n).docs[p][i] == m.(children := m.children + DocUses(st.docs.Keys, m.uses[j..n]))
    decreases n - j
  {
    var m := st.docs[p][i];
    if j < n {
      var u := m.uses[j];
      DocUsesFrom(st.docs.Keys, m.uses, j, n);
      if u !in st.docs {
        LinkUsesChildren(st, p, i, j + 1, n);
      } else {
        var st1 := LinkOne(st, p, i, u);
        LinkOneKeepsUses(st, p, i, j, n);
        LinkUsesChildren(st1, p, i, j + 1, n);
        AppendAssoc(m.children, [u], DocUses(st.docs.Keys, m.uses[j + 1..n]));
      }
    }
  }

  /** The used-set half of LinkUsesReads. */
  lemma {:induction false} LinkUsesMarks(st: Linking, p: string, i: nat, j: nat, n: nat)
    requires p in st.docs && i < |st.docs[p]| && j <= n <= |st.docs[p][i].uses|
    requires Wellformed(st)
    requires IsAbs(p) ==> p !in st.docs[p][i].uses[j..n]
    ensures LinkUses(st, p, i, j, n).used == st.used + NamedDocs(st.docs.Keys, st.docs[p][i].uses[j..n])
    decreases n - j
  {
    var m := st.docs[p][i];
    if j < n {
      var u := m.uses[j];
      NamedDocsFrom(st.docs.Keys, m.uses, j, n);
      if u !in st.docs {
        LinkUsesMarks(st, p, i, j + 1, n);
      } else {
        var st1 := LinkOne(st, p, i, u);
        LinkOneKeepsUses(st, p, i, j, n);
        LinkUsesMarks(st1, p, i, j + 1, n);
      }
    }
  }

  lemma AppendAssoc(a: seq<string>, b: seq<string>, c: seq<string>)
    ensures a + b + c == a + (b + c)
  {
  }

  /** The documents named from position `j`, by the first of them. */
  lemma NamedDocsFrom(keys: set<string>, uses: seq<string>, j: nat, n: nat)
    requires j < n <= |uses|
    ensures NamedDocs(keys, uses[j..n]) ==
      (if uses[j] in keys then {uses[j]} else {}) + NamedDocs(keys, uses[j + 1..n])
  {
    assert uses[j..n] == [uses[j]] + uses[j + 1..n];
  }

  /** Linking use `j` of declaration `i` of `p` leaves that declaration's uses in place, unless
      `p` is absolute and links itself. */
  lemma LinkOneKeepsUses(st: Linking, p: string, i: nat, j: nat, n: nat)
    requires p in st.docs && i < |st.docs[p]| && j < n <= |st.docs[p][i].uses|
    requires Wellformed(st) && st.docs[p][i].uses[j] in st.docs
    requires IsAbs(p) ==> p !in st.docs[p][i].uses[j..n]
    ensures var m := st.docs[p][i];
      var st1 := LinkOne(st, p, i, m.uses[j]);
      && st1.docs.Keys == st.docs.Keys
      && st1.docs[p][i] == m.(children := m.children + [m.uses[j]])
      && (IsAbs(p) ==> p !in st1.docs[p][i].uses[j + 1..n])
  {
    var u := st.docs[p][i].uses[j];
    assert u in st.docs[p][i].uses[j..n];
  }

  /** Linking one declaration, whatever the document paths: it fails exactly when a use cannot
      be rewritten; otherwise the declaration becomes its reference linking, and the used set
      grows by exactly the documents its rewritten uses name. */
  lemma LinkDeclMarksNamed(st: Linking, home: Home, p: string, i: nat)
    requires p in st.docs && i < |st.docs[p]|
    requires Wellformed(st)
    requires var rw := RewriteAll(st.docs[p][i].uses, home); rw.Ok? && IsAbs(p) ==> p !in rw.value
    ensures var r := LinkDecl(st, home, p, i);
      && (r.Ok? <==> Linked(st.docs.Keys, home, st.docs[p][i]).Ok?)
      && (r.Ok? ==>
            && r.value.docs[p][i] == Linked(st.docs.Keys, home, st.docs[p][i]).value
            && r.value.used == st.used + NamedDocs(st.docs.Keys, r.value.docs[p][i].uses))
  {
    var m := st.docs[p][i];
    var rw := RewriteAll(m.uses, home);
    if rw.Ok? {
      ReplaceUsesKeepsWellformed(st, p, i, rw.value);
      var docs1 := st.docs[p := st.docs[p][i := m.(uses := rw.value)]];
      assert rw.value[0..|rw.value|] == rw.value;
      LinkUsesReads(Linking(docs1, st.used), p, i, 0, |rw.value|);
    }
  }

  /** Linking an absolute document joins its directory onto every use of each of its
      declarations, including the uses through which it already linked other documents. */
  lemma LinkOneRejoinsUses(st: Linking, p: string, i: nat, u: string)
    requires p in st.docs && i < |st.docs[p]| && u in st.docs
    requires Wellformed(st) && IsAbs(u)
    ensures var r := LinkOne(st, p, i, u);
      && |r.docs[u]| == |st.docs[u]|
      && forall t :: 0 <= t < |st.docs[u]| ==> r.docs[u][t].uses == JoinAll(PathDir(u), st.docs[u][t].uses)
  {
  }

  /** A use joined onto a non-empty directory no longer reads as itself, so once an absolute
      document is linked, its declarations' uses no longer name the documents they linked. */
  lemma RejoinedUseDiffers(dir: string, use: string)
    requires dir != "" && use != ""
    ensures PathJoin(dir, use) != use
  {
    assert |PathJoin(dir, use)| > |use|;
  }

  // ---------------------------------------------------------------- relative document paths

  /** No document path is absolute, as when the workspace is given by a relative path: the
      IsAbs branch never fires. */
  ghost predicate NoAbsKeys(docs: Docs) {
    forall k :: k in docs ==> !IsAbs(k)
  }

  /** Reference: a declaration once linked, with relative document paths: its uses rewritten,
      and every rewritten use naming a document appended to its children, in order. */
  function Linked(keys: set<string>, home: Home, m: Module): Result<Module> {
    var uses :- RewriteAll(m.uses, home);
    Ok(m.(uses := uses, children := m.children + DocUses(keys, uses)))
  }

  lemma LinkOneRelative(st: Linking, p: string, i: nat, u: string)
    requires p in st.docs && i < |st.docs[p]| && u in st.docs
    requires Wellformed(st) && NoAbsKeys(st.docs)
    ensures var m := st.docs[p][i];
      LinkOne(st, p, i, u).docs == st.docs[p := st.docs[p][i := m.(children := m.children + [u])]]
  {
  }

  lemma ReplaceTwice(d: Docs, p: string, i: nat, a: Module, b: Module)
    requires p in d && i < |d[p]|
    ensures var d1 := d[p := d[p][i := a]];
      d1[p := d1[p][i := b]] == d[p := d[p][i := b]]
  {
    var d1 := d[p := d[p][i := a]];
    assert d1[p][i := b] == d[p][i := b];
  }

  /** The uses from position `j` that name documents, by the first of them. */
  lemma DocUsesFrom(keys: set<string>, uses: seq<string>, j: nat, n: nat)
    requires j < n <= |uses|
    ensures DocUses(keys, uses[j..n]) ==
      (if uses[j] in keys then [uses[j]] else []) + DocUses(keys, uses[j + 1..n])
  {
    assert uses[j..n][0] == uses[j];
    assert uses[j..n][1..] == uses[j + 1..n];
  }

  lemma {:induction false} LinkUsesRelative(st: Linking, p: string, i: nat, j: nat, n: nat)
    requires p in st.docs && i < |st.docs[p]| && j <= n <= |st.docs[p][i].uses|
    requires Wellformed(st) && NoAbsKeys(st.docs)
    ensures var m := st.docs[p][i];
      LinkUses(st, p, i, j, n).docs ==
        st.docs[p := st.docs[p][i := m.(children := m.children + DocUses(st.docs.Keys, m.uses[j..n]))]]
    decreases n - j
  {
    var m := st.docs[p][i];
    if j == n {
      assert m.(children := m.children + []) == m;
      assert st.docs[p][i := m] == st.docs[p];
      assert st.docs[p := st.docs[p]] == st.docs;
    } else {
      var u := m.uses[j];
      DocUsesFrom(st.docs.Keys, m.uses, j, n);
      if u !in st.docs {
        LinkUsesRelative(st, p, i, j + 1, n);
        assert LinkUses(st, p, i, j, n) == LinkUses(st, p, i, j + 1, n);
      } else {
        var st1 := LinkOne(st, p, i, u);
        LinkOneRelative(st, p, i, u);
        assert LinkUses(st, p, i, j, n) == LinkUses(st1, p, i, j + 1, n);
        var m1 := m.(children := m.children + [u]);
        assert st1.docs.Keys == st.docs.Keys && st1.docs[p][i] == m1;
        LinkUsesRelative(st1, p, i, j + 1, n);
        LinkTwice(st.docs, p, i, u, DocUses(st.docs.Keys, m.uses[j + 1..n]));
      }
    }
  }

  /** Linking `u` and then `rest` under one declaration links `[u] + rest`. */
  lemma LinkTwice(d: Docs, p: string, i: nat, u: string, rest: seq<string>)
    requires p in d && i < |d[p]|
    ensures var m := d[p][i];
      var m1 := m.(children := m.children + [u]);
      var d1 := d[p := d[p][i := m1]];
      d1[p := d1[p][i := m1.(children := m1.children + rest)]] == d[p := d[p][i := m.(children := m.children + ([u] + rest))]]
  {
    var m := d[p][i];
    var m1 := m.(children := m.children + [u]);
    assert m.children + [u] + rest == m.children + ([u] + rest);
    ReplaceTwice(d, p, i, m1, m.(children := m.children + ([u] + rest)));
  }

  lemma LinkDeclRelative(st: Linking, home: Home, p: string, i: nat)
    requires p in st.docs && i < |st.docs[p]|
    requires Wellformed(st) && NoAbsKeys(st.docs)
    ensures LinkDecl(st, home, p, i).Ok? <==> Linked(st.docs.Keys, home, st.docs[p][i]).Ok?
    ensures LinkDecl(st, home, p, i).Ok? ==>
      LinkDecl(st, home, p, i).value.docs == st.docs[p := st.docs[p][i := Linked(st.docs.Keys, home, st.docs[p][i]).value]]
  {
    var m := st.docs[p][i];
    var r := RewriteAll(m.uses, home);
    if r.Ok? {
      var docs1 := st.docs[p := st.docs[p][i := m.(uses := r.value)]];
      ReplaceUsesKeepsWellformed(st, p, i, r.value);
      LinkUsesRelative(Linking(docs1, st.used), p, i, 0, |r.value|);
      assert r.value[0..|r.value|] == r.value;
      var l := Linked(st.docs.Keys, home, m).value;
      assert docs1.Keys == st.docs.Keys && docs1[p][i].uses == r.value;
      assert docs1[p][i := l] == st.docs[p][i := l];
    }
  }

  /** `after` is `before` with every declaration from position `i` on replaced by its reference
      linking. */
  ghost predicate LinkedFrom(keys: set<string>, home: Home, before: seq<Module>, after: seq<Module>, i: nat) {
    && |after| == |before|
    && (forall t :: 0 <= t < i && t < |before| ==> after[t] == before[t])
    && (forall t :: i <= t < |before| ==> Linked(keys, home, before[t]) == Ok(after[t]))
  }

  /** `b` has the documents of `a`, and all but `p` unchanged. */
  ghost predicate OthersKept(a: Docs, b: Docs, p: string) {
    a.Keys == b.Keys && forall q :: q in a && q != p ==> b[q] == a[q]
  }

  /** One step of the walk over a document's declarations, on the document maps alone. */
  lemma LinkDocStep(keys: set<string>, home: Home, st: Docs, d: Docs, r: Docs, p: string, i: nat, l: Module)
    requires p in st && i < |st[p]| && d == st[p := st[p][i := l]]
    requires Linked(keys, home, st[p][i]) == Ok(l)
    requires OthersKept(d, r, p) && LinkedFrom(keys, home, d[p], r[p], i + 1)
    ensures OthersKept(st, r, p) && LinkedFrom(keys, home, st[p], r[p], i)
  {
    assert d[p][i] == l;
    forall t | 0 <= t < |st[p]| && t != i
      ensures d[p][t] == st[p][t]
    {
    }
  }

  /** Every declaration of `ms` from position `i` on links under the reference. */
  ghost predicate AllLinkFrom(keys: set<string>, home: Home, ms: seq<Module>, i: nat) {
    forall t :: i <= t < |ms| ==> Linked(keys, home, ms[t]).Ok?
  }

  lemma AllLinkFromStep(keys: set<string>, home: Home, ms: seq<Module>, i: nat, l: Module)
    requires i < |ms| && Linked(keys, home, ms[i]).Ok?
    ensures AllLinkFrom(keys, home, ms, i) <==> AllLinkFrom(keys, home, ms[i := l], i + 1)
  {
    forall t | i < t < |ms|
      ensures ms[i := l][t] == ms[t]
    {
    }
  }

  /** The walk over a document's declarations from position `i` succeeds exactly when each of
      them links under the reference. */
  lemma {:induction false} LinkDocRelativeOk(st: Linking, home: Home, p: string, i: nat)
    requires p in st.docs && i <= |st.docs[p]|
    requires Wellformed(st) && NoAbsKeys(st.docs)
    ensures LinkDoc(st, home, p, i).Ok? <==> AllLinkFrom(st.docs.Keys, home, st.docs[p], i)
    decreases |st.docs[p]| - i
  {
    if i < |st.docs[p]| {
      LinkDeclRelative(st, home, p, i);
      var d := LinkDecl(st, home, p, i);
      if d.Ok? {
        var l := Linked(st.docs.Keys, home, st.docs[p][i]).value;
        assert d.value.docs == st.docs[p := st.docs[p][i := l]];
        LinkDocRelativeOk(d.value, home, p, i + 1);
        AllLinkFromStep(st.docs.Keys, home, st.docs[p], i, l);
      }
    }
  }

  /** After a successful walk from position `i`, each of those declarations is its reference
      linking, and everything else is untouched. */
  lemma {:induction false} LinkDocRelativeValue(st: Linking, home: Home, p: string, i: nat)
    requires p in st.docs && i <= |st.docs[p]|
    requires Wellformed(st) && NoAbsKeys(st.docs)
    ensures var r := LinkDoc(st, home, p, i);
      r.Ok? ==> OthersKept(st.docs, r.value.docs, p) && LinkedFrom(st.docs.Keys, home, st.docs[p], r.value.docs[p], i)
    decreases |st.docs[p]| - i
  {
    if i < |st.docs[p]| {
      LinkDeclRelative(st, home, p, i);
      var d := LinkDecl(st, home, p, i);
      if d.Ok? {
        var l := Linked(st.docs.Keys, home, st.docs[p][i]).value;
        LinkDocRelativeValue(d.value, home, p, i + 1);
        LinkDocRelativeStep(st, home, p, i, d.value, l);
      } else {
        assert LinkDoc(st, home, p, i).Err?;
      }
    } else {
      assert LinkDoc(st, home, p, i) == Ok(st);
    }
  }

  /** The step of LinkDocRelativeValue once declaration `i` has been linked to `l`. */
  lemma LinkDocRelativeStep(st: Linking, home: Home, p: string, i: nat, d: Linking, l: Module)
    requires p in st.docs && i < |st.docs[p]| && Wellformed(st)
    requires LinkDecl(st, home, p, i) == Ok(d) && Linked(st.docs.Keys, home, st.docs[p][i]) == Ok(l)
    requires d.docs == st.docs[p := st.docs[p][i := l]]
    requires var r := LinkDoc(d, home, p, i + 1);
      r.Ok? ==> OthersKept(d.docs, r.value.docs, p) && LinkedFrom(d.docs.Keys, home, d.docs[p], r.value.docs[p], i + 1)
    ensures var r := LinkDoc(st, home, p, i);
      r.Ok? ==> OthersKept(st.docs, r.value.docs, p) && LinkedFrom(st.docs.Keys, home, st.docs[p], r.value.docs[p], i)
  {
    assert d.docs.Keys == st.docs.Keys;
    var r := LinkDoc(d, home, p, i + 1);
    if r.Ok? {
      LinkDocStep(st.docs.Keys, home, st.docs, d.docs, r.value.docs, p, i, l);
    }
  }

  /** One step of the walk over documents, on the document maps alone: every declaration of
      `order[k..]` links exactly when those of `order[k]` do and, once `order[k]` alone has
      changed, those of `order[k + 1..]` do. */
  lemma LinkAllOkStep(keys: set<string>, home: Home, st: Docs, d: Docs, order: seq<string>, k: nat)
    requires k < |order| && Distinct(order) && forall q :: q in order ==> q in st
    requires OthersKept(st, d, order[k])
    ensures (forall q, t :: q in order[k..] && 0 <= t < |st[q]| ==> Linked(keys, home, st[q][t]).Ok?) <==>
      && AllLinkFrom(keys, home, st[order[k]], 0)
      && (forall q, t :: q in order[k + 1..] && 0 <= t < |d[q]| ==> Linked(keys, home, d[q][t]).Ok?)
  {
    var p := order[k];
    assert order[k..] == [p] + order[k + 1..];
    assert p !in order[k + 1..];
    assert forall q :: q in order[k + 1..] ==> q in st && d[q] == st[q];
  }

  /** The walk over documents from position `k` succeeds exactly when every declaration of those
      documents links under the reference. */
  lemma {:induction false} LinkAllRelativeOk(st: Linking, home: Home, order: seq<string>, k: nat)
    requires k <= |order| && Distinct(order) && forall q :: q in order ==> q in st.docs
    requires Wellformed(st) && NoAbsKeys(st.docs)
    ensures LinkAll(st, home, order, k).Ok? <==>
      forall q, t :: q in order[k..] && 0 <= t < |st.docs[q]| ==> Linked(st.docs.Keys, home, st.docs[q][t]).Ok?
    decreases |order| - k
  {
    if k < |order| {
      var p := order[k];
      assert order[k..] == [p] + order[k + 1..];
      assert p !in order[k + 1..];
      LinkDocRelativeOk(st, home, p, 0);
      LinkDocRelativeValue(st, home, p, 0);
      var d := LinkDoc(st, home, p, 0);
      if d.Ok? {
        LinkAllRelativeOk(d.value, home, order, k + 1);
        LinkAllOkStep(st.docs.Keys, home, st.docs, d.value.docs, order, k);
      } else {
        LinkAllOkStep(st.docs.Keys, home, st.docs, st.docs, order, k);
      }
    }
  }

  /** After a successful walk from position `k`, every declaration of those documents is its
      reference linking, and every other document is untouched. */
  lemma LinkAllRelativeValue(st: Linking, home: Home, order: seq<string>, k: nat)
    requires k <= |order| && Distinct(order) && forall q :: q in order ==> q in st.docs
    requires Wellformed(st) && NoAbsKeys(st.docs)
    ensures var r := LinkAll(st, home, order, k);
      r.Ok? ==>
        && r.value.docs.Keys == st.docs.Keys
        && (forall q :: q in st.docs && q !in order[k..] ==> r.value.docs[q] == st.docs[q])
        && (forall q :: q in order[k..] ==> |r.value.docs[q]| == |st.docs[q]|)
        && (forall q, t :: q in order[k..] && 0 <= t < |st.docs[q]| ==>
              Linked(st.docs.Keys, home, st.docs[q][t]) == Ok(r.value.docs[q][t]))
  {
    LinkAllRelativeKeeps(st, home, order, k);
    LinkAllRelativeLinked(st, home, order, k);
  }

  /** The shape half of LinkAllRelativeValue: same documents, the unvisited ones untouched, the
      visited ones with as many declarations as before. */
  lemma {:induction false} LinkAllRelativeKeeps(st: Linking, home: Home, order: seq<string>, k: nat)
    requires k <= |order| && Distinct(order) && forall q :: q in order ==> q in st.docs
    requires Wellformed(st) && NoAbsKeys(st.docs)
    ensures var r := LinkAll(st, home, order, k);
      r.Ok? ==>
        && r.value.docs.Keys == st.docs.Keys
        && (forall q :: q in st.docs && q !in order[k..] ==> r.value.docs[q] == st.docs[q])
        && (forall q :: q in order[k..] ==> |r.value.docs[q]| == |st.docs[q]|)
    decreases |order| - k
  {
    if k < |order| {
      var p := order[k];
      assert order[k..] == [p] + order[k + 1..];
      assert p !in order[k + 1..];
      LinkDocRelativeOk(st, home, p, 0);
      LinkDocRelativeValue(st, home, p, 0);
      var d := LinkDoc(st, home, p, 0);
      if d.Ok? {
        LinkAllRelativeKeeps(d.value, home, order, k + 1);
        assert forall q :: q in order[k + 1..] ==> d.value.docs[q] == st.docs[q];
      }
    }
  }

  /** The content half of LinkAllRelativeValue: every visited declaration is its reference
      linking. */
  lemma {:induction false} LinkAllRelativeLinked(st: Linking, home: Home, order: seq<string>, k: nat)
    requires k <= |order| && Distinct(order) && forall q :: q in order ==> q in st.docs
    requires Wellformed(st) && NoAbsKeys(st.docs)
    ensures var r := LinkAll(st, home, order, k);
      r.Ok? ==>
        forall q, t :: q in order[k..] && 0 <= t < |st.docs[q]| ==>
          && q in r.value.docs && t < |r.value.docs[q]|
          && Linked(st.docs.Keys, home, st.docs[q][t]) == Ok(r.value.docs[q][t])
    decreases |order| - k
  {
    if k < |order| {
      var p := order[k];
      assert order[k..] == [p] + order[k + 1..];
      assert p !in order[k + 1..];
      LinkDocRelativeOk(st, home, p, 0);
      LinkDocRelativeValue(st, home, p, 0);
      var d := LinkDoc(st, home, p, 0);
      if d.Ok? {
        LinkAllRelativeKeeps(d.value, home, order, k + 1);
        LinkAllRelativeLinked(d.value, home, order, k + 1);
        assert forall q :: q in order[k + 1..] ==> d.value.docs[q] == st.docs[q];
      }
    }
  }

  /** The whole walk is the reference applied to every declaration of the documents visited. */
  lemma LinkAllRelative(st: Linking, home: Home, order: seq<string>, k: nat)
    requires k <= |order| && Distinct(order) && forall q :: q in order ==> q in st.docs
    requires Wellformed(st) && NoAbsKeys(st.docs)
    ensures var r := LinkAll(st, home, order, k);
      && (r.Ok? <==> forall q, t :: q in order[k..] && 0 <= t < |st.docs[q]| ==>
                       Linked(st.docs.Keys, home, st.docs[q][t]).Ok?)
      && (r.Ok? ==>
            && r.value.docs.Keys == st.docs.Keys
            && (forall q :: q in st.docs && q !in order[k..] ==> r.value.docs[q] == st.docs[q])
            && (forall q :: q in order[k..] ==> |r.value.docs[q]| == |st.docs[q]|)
            && (forall q, t :: q in order[k..] && 0 <= t < |st.docs[q]| ==>
                  Linked(st.docs.Keys, home, st.docs[q][t]) == Ok(r.value.docs[q][t])))
  {
    LinkAllRelativeOk(st, home, order, k);
    LinkAllRelativeValue(st, home, order, k);
  }

  /** The used set of a linked state, read off its declarations' rewritten uses. */
  lemma UsedFromLinked(docs: Docs, home: Home, f: Linking)
    requires Wellformed(f) && NoChildren(docs) && f.docs.Keys == docs.Keys
    requires forall q :: q in docs ==> |f.docs[q]| == |docs[q]|
    requires forall q, t :: q in docs && 0 <= t < |docs[q]| ==> Linked(docs.Keys, home, docs[q][t]) == Ok(f.docs[q][t])
    ensures forall c :: c in f.used <==>
      c in docs && exists q, t :: q in docs && 0 <= t < |docs[q]| && c in f.docs[q][t].uses
  {
    forall c ensures c in f.used <==> c in docs && exists q, t :: q in docs && 0 <= t < |docs[q]| && c in f.docs[q][t].uses {
      if c in f.used {
        UsedIsReferenced(docs, home, f, c);
      }
      if c in docs && exists q, t :: q in docs && 0 <= t < |docs[q]| && c in f.docs[q][t].uses {
        var q, t :| q in docs && 0 <= t < |docs[q]| && c in f.docs[q][t].uses;
        ReferencedIsUsed(docs, home, f, c, q, t);
      }
    }
  }

  lemma UsedIsReferenced(docs: Docs, home: Home, f: Linking, c: string)
    requires Wellformed(f) && NoChildren(docs) && f.docs.Keys == docs.Keys
    requires forall q :: q in docs ==> |f.docs[q]| == |docs[q]|
    requires forall q, t :: q in docs && 0 <= t < |docs[q]| ==> Linked(docs.Keys, home, docs[q][t]) == Ok(f.docs[q][t])
    requires c in f.used
    ensures c in docs && exists q, t :: q in docs && 0 <= t < |docs[q]| && c in f.docs[q][t].uses
  {
    var q, t :| q in f.docs && 0 <= t < |f.docs[q]| && c in f.docs[q][t].children;
    var m := docs[q][t];
    var uses := RewriteAll(m.uses, home).value;
    assert f.docs[q][t] == m.(uses := uses, children := m.children + DocUses(docs.Keys, uses));
    assert m.children == [];
    assert c in DocUses(docs.Keys, uses);
  }

  lemma ReferencedIsUsed(docs: Docs, home: Home, f: Linking, c: string, q: string, t: nat)
    requires Wellformed(f) && f.docs.Keys == docs.Keys
    requires forall q :: q in docs ==> |f.docs[q]| == |docs[q]|
    requires forall q, t :: q in docs && 0 <= t < |docs[q]| ==> Linked(docs.Keys, home, docs[q][t]) == Ok(f.docs[q][t])
    requires c in docs && q in docs && t < |docs[q]| && c in f.docs[q][t].uses
    ensures c in f.used
  {
    var m := docs[q][t];
    var uses := RewriteAll(m.uses, home).value;
    assert f.docs[q][t] == m.(uses := uses, children := m.children + DocUses(docs.Keys, uses));
    assert c in f.docs[q][t].children;
    assert HasChild(f.docs, c);
  }

  /** With relative document paths, a run of the linking loop over every document succeeds
      exactly when every use can be rewritten; then each declaration's uses are its rewritten
      uses, and a document is marked used exactly when some rewritten use names it. */
  lemma UsedIffReferenced(docs: Docs, home: Home, order: seq<string>)
    requires Enumerates(order, docs) && NoAbsKeys(docs) && NoChildren(docs)
    ensures var r := LinkAll(Linking(docs, {}), home, order, 0);
      && (r.Ok? <==> forall q, t :: q in docs && 0 <= t < |docs[q]| ==> RewriteAll(docs[q][t].uses, home).Ok?)
      && (r.Ok? ==>
            && (forall q, t :: q in docs && 0 <= t < |docs[q]| ==>
                  Ok(r.value.docs[q][t].uses) == RewriteAll(docs[q][t].uses, home))
            && (forall c :: c in r.value.used <==>
                  c in docs && exists q, t :: q in docs && 0 <= t < |docs[q]| && c in r.value.docs[q][t].uses))
  {
    var st := Linking(docs, {});
    assert Wellformed(st);
    assert order[0..] == order;
    LinkAllRelative(st, home, order, 0);
    var r := LinkAll(st, home, order, 0);
    if r.Ok? {
      UsedFromLinked(docs, home, r.value);
    }
  }
}

=== FILE: node_check.dfy ===
/** The key whitelist of config/config.go: `hasKeys` and `checkNode`, which validate one YAML
    mapping (its children listed as key, value, key, value, ...) against a table of allowed keys. */
module NodeCheck {
  import opened Base

  /** A YAML node as checkNode reads it: its scalar value and its position for the error text. */
  datatype Node = Node(value: string, line: nat, column: nat)

  /** The allowed keys and what is filed under each: None is Go's nil, marking a required key that
      has not been supplied yet; an optional key starts with an empty node. */
  type Slots = map<string, Option<Node>>

  /** hasKeys: linear search for `key` in `keys`. */
  function HasKeys(key: string, keys: seq<string>): (b: bool)
    ensures b <==> key in keys
  {
    if |keys| == 0 then false
    else if keys[0] == key then true
    else HasKeys(key, keys[1..])
  }

  /** Key positions are the even ones, except the last element of the list, which checkNode
      skips. */
  predicate KeyPos(body: seq<Node>, j: int) {
    0 <= j < |body| - 1 && j % 2 == 0
  }

  /** `body` supplies `key` at a key position before `i`. */
  ghost predicate SuppliedBefore(body: seq<Node>, key: string, i: int) {
    exists j :: 0 <= j < i && KeyPos(body, j) && body[j].value == key
  }

  ghost predicate Supplied(body: seq<Node>, key: string) {
    SuppliedBefore(body, key, |body|)
  }

  /** Every key position of `body` holds an allowed key. */
  ghost predicate KeysAllowed(slots: Slots, body: seq<Node>) {
    forall j :: KeyPos(body, j) ==> body[j].value in slots
  }

  /** The last key position before `i` holding `key`, or -1 when there is none. */
  function LastKeyPos(body: seq<Node>, key: string, i: nat): (j: int)
    requires i <= |body|
    ensures -1 <= j && (j == -1 <==> !SuppliedBefore(body, key, i))
    ensures j >= 0 ==> j < i && KeyPos(body, j) && body[j].value == key
    ensures j >= 0 ==> forall t :: j < t < i && KeyPos(body, t) ==> body[t].value != key
  {
    if i == 0 then -1
    else if KeyPos(body, i - 1) && body[i - 1].value == key then i - 1
    else LastKeyPos(body, key, i - 1)
  }

  /** What checkNode files under `key` after the key positions before `i`: the value following
      the last of them holding `key`, or the initial slot. */
  function FiledValue(slots: Slots, body: seq<Node>, key: string, i: nat): Option<Node>
    requires i <= |body| && key in slots
  {
    var j := LastKeyPos(body, key, i);
    if j >= 0 then Some(body[j + 1]) else slots[key]
  }

  /** The state of checkNode's first loop before position `i`: every key position passed holds an
      allowed key, and each slot holds what has been filed under it. */
  ghost predicate FiledUpTo(slots: Slots, body: seq<Node>, filled: Slots, i: nat) {
    && i <= |body|
    && filled.Keys == slots.Keys
    && (forall j :: 0 <= j < i && KeyPos(body, j) ==> body[j].value in slots)
    && forall k :: k in filled ==> filled[k] == FiledValue(slots, body, k, i)
  }

  /** Filing position `i` changes only the slot its key names. */
  lemma FiledStep(slots: Slots, body: seq<Node>, k: string, i: nat)
    requires i < |body| && k in slots
    ensures FiledValue(slots, body, k, i + 1) ==
      if KeyPos(body, i) && body[i].value == k then Some(body[i + 1]) else FiledValue(slots, body, k, i)
  {
  }

  lemma FiledUpToNext(slots: Slots, body: seq<Node>, filled: Slots, i: nat)
    requires FiledUpTo(slots, body, filled, i) && i < |body|
    requires KeyPos(body, i) ==> body[i].value in slots
    ensures FiledUpTo(slots, body, if KeyPos(body, i) then filled[body[i].value := Some(body[i + 1])] else filled, i + 1)
  {
    forall k | k in slots {
      FiledStep(slots, body, k, i);
    }
  }

  /** An unknown key at position `i`, after allowed keys only, is the first bad key. */
  lemma FiledUpToIllegal(slots: Slots, body: seq<Node>, filled: Slots, i: nat)
    requires FiledUpTo(slots, body, filled, i) && KeyPos(body, i) && body[i].value !in slots
    ensures !KeysAllowed(slots, body)
    ensures forall t :: 0 <= t < i && KeyPos(body, t) ==> body[t].value in slots
  {
  }

  /** After the whole list, a supplied slot holds the value after its last key position, and
      any other slot its initial value. */
  lemma FiledAll(slots: Slots, body: seq<Node>, filled: Slots, k: string)
    requires k in slots && k in filled
    requires filled[k] == FiledValue(slots, body, k, |body|)
    ensures !Supplied(body, k) ==> filled[k] == slots[k]
    ensures Supplied(body, k) ==> var j := LastKeyPos(body, k, |body|); j >= 0 && filled[k] == Some(body[j + 1])
    ensures filled[k].Some? <==> slots[k].Some? || Supplied(body, k)
  {
  }

  /** Position `j` is the first key position whose key is not allowed. */
  ghost predicate FirstBadKey(slots: Slots, body: seq<Node>, j: int) {
    && KeyPos(body, j) && body[j].value !in slots
    && forall t :: 0 <= t < j && KeyPos(body, t) ==> body[t].value in slots
  }

  /** The first loop of checkNode: every key position must hold an allowed key, and the value
      after it is filed under that key. The first unknown key aborts. */
  method FileKeys(slots: Slots, keyOrder: seq<string>, body: seq<Node>, pathStr: string) returns (r: Result<Slots>)
    requires forall k :: k in slots <==> k in keyOrder
    ensures r.Err? <==> !KeysAllowed(slots, body)
    ensures r.Err? ==> exists j :: FirstBadKey(slots, body, j) && r.error == IllegalKey(body[j].value, pathStr, body[j].line, body[j].column)
    ensures r.Ok? ==> r.value.Keys == slots.Keys && forall k :: k in slots ==> r.value[k] == FiledValue(slots, body, k, |body|)
  {
    var filled := slots;
    var i := 0;
    while i < |body|
      invariant FiledUpTo(slots, body, filled, i)
    {
      if i == |body| - 1 || i % 2 != 0 {
        FiledUpToNext(slots, body, filled, i);
        i := i + 1;
        continue;
      }
      if !HasKeys(body[i].value, keyOrder) {
        FiledUpToIllegal(slots, body, filled, i);
        assert FirstBadKey(slots, body, i);
        return Err(IllegalKey(body[i].value, pathStr, body[i].line, body[i].column));
      }
      FiledUpToNext(slots, body, filled, i);
      filled := filled[body[i].value := Some(body[i + 1])];
      i := i + 1;
    }
    return Ok(filled);
  }

  /** The second loop of checkNode: the first key, in map iteration order, still holding nil. */
  method FindMissing(filled: Slots, keyOrder: seq<string>) returns (missing: Option<string>)
    requires forall k :: k in keyOrder ==> k in filled
    ensures missing.None? <==> forall t :: 0 <= t < |keyOrder| ==> filled[keyOrder[t]].Some?
    ensures missing.Some? ==>
      exists t :: && 0 <= t < |keyOrder| && keyOrder[t] == missing.value && filled[missing.value].None?
                  && forall u :: 0 <= u < t ==> filled[keyOrder[u]].Some?
  {
    var j := 0;
    while j < |keyOrder|
      invariant 0 <= j <= |keyOrder|
      invariant forall t :: 0 <= t < j ==> filled[keyOrder[t]].Some?
    {
      if filled[keyOrder[j]].None? {
        return Some(keyOrder[j]);
      }
      j := j + 1;
    }
    return None;
  }

  /** checkNode(configMap, bodyNode, pathStr, yamlPath). `keyOrder` is the order in which Go happens
      to iterate the map's keys; it decides which missing key is reported when several are. */
  method CheckNode(slots: Slots, keyOrder: seq<string>, body: seq<Node>, pathStr: string, yamlPath: string)
    returns (r: Result<Slots>)
    requires forall k :: k in slots <==> k in keyOrder
    ensures r.Ok? <==> KeysAllowed(slots, body) && forall k :: k in slots && slots[k].None? ==> Supplied(body, k)
    ensures r.Ok? ==> r.value.Keys == slots.Keys && forall k :: k in r.value ==> r.value[k].Some?
    ensures r.Ok? ==> forall k :: k in slots && !Supplied(body, k) ==> r.value[k] == slots[k]
    ensures r.Ok? ==> forall k :: k in slots && Supplied(body, k) ==>
      var j := LastKeyPos(body, k, |body|); j >= 0 && r.value[k] == Some(body[j + 1])
    ensures r.Err? ==> (r.error.IllegalKey? <==> !KeysAllowed(slots, body))
    ensures r.Err? ==> r.error.IllegalKey? || r.error.MissingKey?
    ensures r.Err? && r.error.IllegalKey? ==>
      exists j :: FirstBadKey(slots, body, j) && r.error == IllegalKey(body[j].value, pathStr, body[j].line, body[j].column)
    ensures r.Err? && r.error.MissingKey? ==>
      r.error.key in slots && slots[r.error.key].None? && !Supplied(body, r.error.key)
      && r.error.path == pathStr && r.error.yamlPath == yamlPath
  {
    var f := FileKeys(slots, keyOrder, body, pathStr);
    if f.Err? {
      return Err(f.error);
    }
    var filled := f.value;
    var missing := FindMissing(filled, keyOrder);
    forall k | k in slots
      ensures filled[k].Some? <==> slots[k].Some? || Supplied(body, k)
    {
      FiledAll(slots, body, filled, k);
    }
    if missing.Some? {
      return Err(MissingKey(pathStr, yamlPath, missing.value));
    }
    assert forall k :: k in slots ==> filled[k].Some? by {
      forall k | k in slots ensures filled[k].Some? {
        var t :| 0 <= t < |keyOrder| && keyOrder[t] == k;
      }
    }
    r := Ok(filled);
    forall k | k in slots
      ensures !Supplied(body, k) ==> r.value[k] == slots[k]
      ensures Supplied(body, k) ==> var j := LastKeyPos(body, k, |body|); j >= 0 && r.value[k] == Some(body[j + 1])
    {
      FiledAll(slots, body, filled, k);
    }
  }
}

=== FILE: resolver.dfy ===
/** GetModulesStr in config/config.go: the whole pipeline from parsed `modules:` documents to the
    flat declaration list. Directories are expanded (its error is discarded, as in the source),
    the reference graph is built and checked for cycles, then the documents are linked and
    flattened. */
module Resolver {
  import opened Base
  import opened Documents
  import DirExpand
  import CycleCheck
  import Link
  import Flatten

  /** The reference graph of the expanded documents. */
  function ExpandedGraph(fs: DirExpand.Fs, docs: Docs, expandOrder: seq<string>): (g: CycleCheck.Graph)
    requires Enumerates(expandOrder, docs)
    ensures g.Keys == docs.Keys && CycleCheck.Closed(g)
  {
    CycleCheck.MakeCyclePathMap(DirExpand.DeepPathModules(fs, docs, expandOrder).0)
  }

  /** The pipeline. Each `*Order` is the order in which the source happens to walk a Go map. */
  function GetModules(fs: DirExpand.Fs, docs: Docs, home: Link.Home,
                      expandOrder: seq<string>, cycleOrder: seq<string>,
                      linkOrder: seq<string>, emitOrder: seq<string>): (r: Result<seq<Module>>)
    requires Enumerates(expandOrder, docs) && Enumerates(cycleOrder, docs)
    requires Enumerates(linkOrder, docs) && Enumerates(emitOrder, docs)
    requires NoChildren(docs)
    ensures NoChildren(DirExpand.DeepPathModules(fs, docs, expandOrder).0)
    ensures
      var expanded := DirExpand.DeepPathModules(fs, docs, expandOrder).0;
      var g := ExpandedGraph(fs, docs, expandOrder);
      && (!CycleCheck.Acyclic(g) ==>
            r.Err? && r.error.CircularReference? && exists s :: s in docs && CycleCheck.IsCycleFrom(g, s, r.error.chain))
      && (r.Ok? ==>
            && CycleCheck.Acyclic(g)
            && Flatten.LinkAllOk(expanded, home, linkOrder)
            && Flatten.Flattened(expanded, home, linkOrder, emitOrder, r.value))
      && (CycleCheck.Acyclic(g) && Flatten.LinkAllOk(expanded, home, linkOrder) ==>
            r.Ok? || (r.error.EncodeCycle? && r.error.path in docs))
  {
    var expanded := DirExpand.DeepPathModules(fs, docs, expandOrder).0;
    DirExpand.DeepPathChildless(fs, docs, expandOrder);
    var g := ExpandedGraph(fs, docs, expandOrder);
    CycleCheck.CheckAllIffAcyclic(g, cycleOrder);
    var checked := CycleCheck.CheckAll(g, cycleOrder);
    if checked.Err? then Err(checked.error)
    else Flatten.MakeUsesModule(expanded, home, linkOrder, emitOrder)
  }
}

=== FILE: schema_key.dfy ===
/** `GetSchemaKey` of config/config.go: the database schema name under which a provider
    declaration's fetched data is stored. */
module SchemaKey {
  import opened Base
  import opened Strings

  /** ProviderRequired: the provider declaration; `source` is a Go *string and may be nil. */
  datatype ProviderRequired = ProviderRequired(name: string, source: Option<string>, version: string, path: string)

  /** Reference: one pass over `s` mapping '/' and '@' to '_' and dropping '.'. */
  function Sanitize(s: string): (t: string)
    ensures '.' !in t && '/' !in t && '@' !in t
    ensures |t| <= |s|
  {
    if |s| == 0 then ""
    else
      (if s[0] == '.' then "" else if s[0] == '/' || s[0] == '@' then "_" else [s[0]]) + Sanitize(s[1..])
  }

  /** The three strings.Replace passes of GetSchemaKey amount to one Sanitize pass. */
  lemma {:induction false} ReplacePassesSanitize(s: string)
    ensures ReplaceChar(ReplaceChar(ReplaceChar(s, '/', "_"), '@', "_"), '.', "") == Sanitize(s)
  {
    if |s| > 0 {
      ReplacePassesSanitize(s[1..]);
      ReplaceCharConcat((if s[0] == '/' then "_" else [s[0]]), ReplaceChar(s[1..], '/', "_"), '@', "_");
      var a := ReplaceChar(if s[0] == '/' then "_" else [s[0]], '@', "_");
      ReplaceCharConcat(a, ReplaceChar(ReplaceChar(s[1..], '/', "_"), '@', "_"), '.', "");
    }
  }

  /** GetSchemaKey(required, cp): "public" without a declaration; otherwise the sanitised
      `<second segment of source>@<version>` followed by "_" and the provider configuration's name.
      A nil source or a source without '/' is a runtime panic in the source. */
  function GetSchemaKey(required: Option<ProviderRequired>, configName: string): (r: Result<string>)
    ensures required.None? ==> r == Ok("public")
    ensures required.Some? && required.value.source.None? ==> r == Err(NilDereference)
    ensures required.Some? && required.value.source.Some? ==> (r.Ok? <==> '/' in required.value.source.value)
    ensures r.Ok? && required.Some? ==>
      var src := required.value.source.value;
      r.value == Sanitize(Split(src, '/')[1] + "@" + required.value.version) + "_" + configName
    ensures r.Ok? && required.Some? ==>
      |r.value| > |configName| && HasSuffix(r.value, "_" + configName) &&
      var prefix := r.value[..|r.value| - |configName| - 1];
      '.' !in prefix && '/' !in prefix && '@' !in prefix
  {
    if required.None? then Ok("public")
    else if required.value.source.None? then Err(NilDereference)
    else
      var src := required.value.source.value;
      var parts := Split(src, '/');
      SplitHasSecond(src, '/');
      if |parts| < 2 then Err(IndexOutOfRange(src))
      else
        var segment := parts[1] + "@" + required.value.version;
        var s1 := ReplaceChar(segment, '/', "_");
        var s2 := ReplaceChar(s1, '@', "_");
        var s3 := ReplaceChar(s2, '.', "");
        ReplacePassesSanitize(segment);
        var key := s3 + "_" + configName;
        assert key[..|key| - |configName| - 1] == s3;
        assert key[|key| - |"_" + configName|..] == "_" + configName;
        Ok(key)
  }
}

=== FILE: sql_tables.dfy ===
/** The table-name extraction of cmd/apply/apply.go: `match` picks the whitelisted words out of a
    SQL text, `getSqlTables` first deletes its line breaks, and `getTableMap` collects the names
    of a schema's table tree into the whitelist. */
module SqlTables {
  import opened Base
  import opened Strings

  // ---------------------------------------------------------------- words

  /** The characters `match` treats as part of a word: ASCII letters, digits and `_`. */
  predicate IsWordChar(c: char) {
    'a' <= c <= 'z' || 'A' <= c <= 'Z' || c == '_' || '0' <= c <= '9'
  }

  predicate AllWordChars(w: string) {
    forall k :: 0 <= k < |w| ==> IsWordChar(w[k])
  }

  /** The length of the run of word characters at the start of `s`. */
  function RunLen(s: string): (n: nat)
    ensures n <= |s| && AllWordChars(s[..n])
    ensures n < |s| ==> !IsWordChar(s[n])
  {
    if |s| == 0 || !IsWordChar(s[0]) then 0
    else
      var n := RunLen(s[1..]);
      assert forall k :: 1 <= k < 1 + n ==> s[k] == s[1..][k - 1];
      1 + n
  }

  /** A word of `s` at offset `i`: a non-empty run of word characters, preceded by the start of
      the text or a delimiter, and followed by a delimiter. A run that reaches the end of the
      text has no delimiter after it and is not a word. */
  ghost predicate WordAt(s: string, i: int, w: string) {
    && 0 <= i && i + |w| < |s| && |w| > 0
    && s[i..i + |w|] == w && AllWordChars(w)
    && (i == 0 || !IsWordChar(s[i - 1]))
    && !IsWordChar(s[i + |w|])
  }

  /** The words of `s` in order, duplicates included. */
  function Words(s: string): (ws: seq<string>)
    decreases |s|
  {
    if |s| == 0 then []
    else
      var n := RunLen(s);
      if n == 0 then Words(s[1..])
      else if n == |s| then []
      else [s[..n]] + Words(s[n..])
  }

  lemma {:induction false} WordsAreWordsAt(s: string, w: string)
    requires w in Words(s)
    ensures exists i :: WordAt(s, i, w)
    decreases |s|
  {
    var n := RunLen(s);
    if n == 0 {
      WordsAreWordsAt(s[1..], w);
      var i :| WordAt(s[1..], i, w);
      WordAtShift(s, 1, i, w);
    } else if w == s[..n] {
      assert WordAt(s, 0, w);
    } else {
      WordsAreWordsAt(s[n..], w);
      var i :| WordAt(s[n..], i, w);
      assert i != 0 by {
        assert w[0] == s[n..][i];
      }
      WordAtShift(s, n, i, w);
    }
  }

  /** A word of a suffix is a word of the whole text, unless it starts the suffix right after a
      word character. */
  lemma WordAtShift(s: string, k: nat, i: int, w: string)
    requires 0 < k <= |s| && WordAt(s[k..], i, w) && (i > 0 || !IsWordChar(s[k - 1]))
    ensures WordAt(s, k + i, w)
  {
    assert s[k + i..k + i + |w|] == s[k..][i..i + |w|];
    assert s[k + i + |w|] == s[k..][i + |w|];
    if i > 0 {
      assert s[k + i - 1] == s[k..][i - 1];
    }
  }

  lemma {:induction false} WordsAtAreWords(s: string, i: int, w: string)
    requires WordAt(s, i, w)
    ensures w in Words(s)
    decreases |s|
  {
    var n := RunLen(s);
    assert w[0] == s[i];
    if n == 0 {
      assert i != 0;
      assert s[1..][i - 1..i - 1 + |w|] == s[i..i + |w|];
      assert WordAt(s[1..], i - 1, w);
      WordsAtAreWords(s[1..], i - 1, w);
    } else if i == 0 {
      assert s[..|w|] == w;
      RunLenUnique(s, |w|);
    } else {
      assert i - 1 >= n;
      assert s[n..][i - n..i - n + |w|] == s[i..i + |w|];
      assert WordAt(s[n..], i - n, w);
      WordsAtAreWords(s[n..], i - n, w);
    }
  }

  /** `Words` is exactly the set of maximal runs followed by a delimiter. */
  lemma WordsIffWordAt(s: string, w: string)
    ensures w in Words(s) <==> exists i :: WordAt(s, i, w)
  {
    if w in Words(s) {
      WordsAreWordsAt(s, w);
    }
    if exists i :: WordAt(s, i, w) {
      var i :| WordAt(s, i, w);
      WordsAtAreWords(s, i, w);
    }
  }

  /** The step of WordsConcat past a leading delimiter. */
  lemma WordsConcatSkip(p: string, q: string)
    requires |p| > 0 && RunLen(p) == 0 && RunLen(p + q) == 0
    requires Words(p[1..] + q) == Words(p[1..]) + Words(q)
    ensures Words(p + q) == Words(p) + Words(q)
  {
    var s := p + q;
    assert s[1..] == p[1..] + q;
    assert Words(s) == Words(s[1..]);
    assert Words(p) == Words(p[1..]);
  }

  /** The step of WordsConcat past a leading word of length `n`. */
  lemma WordsConcatWord(p: string, q: string, n: nat)
    requires 0 < n < |p| && RunLen(p) == n && RunLen(p + q) == n
    requires Words(p[n..] + q) == Words(p[n..]) + Words(q)
    ensures Words(p + q) == Words(p) + Words(q)
  {
    var s := p + q;
    assert s[..n] == p[..n];
    assert s[n..] == p[n..] + q;
    var w, a, b := p[..n], Words(p[n..]), Words(q);
    assert Words(s) == [w] + (a + b);
    assert Words(p) == [w] + a;
    WordFirst(w, a, b);
  }

  lemma WordFirst(w: string, a: seq<string>, b: seq<string>)
    ensures [w] + (a + b) == ([w] + a) + b
  {
  }

  /** A text that ends at a word boundary splits its words off from what follows. */
  lemma {:induction false} WordsConcat(p: string, q: string)
    requires |p| == 0 || !IsWordChar(p[|p| - 1])
    ensures Words(p + q) == Words(p) + Words(q)
    decreases |p|
  {
    if |p| > 0 {
      var s := p + q;
      var n := RunLen(p);
      assert n < |p|;
      assert RunLen(s) == n by {
        assert s[..n] == p[..n];
        assert s[n] == p[n];
        RunLenUnique(s, n);
      }
      if n == 0 {
        WordsConcat(p[1..], q);
        WordsConcatSkip(p, q);
      } else {
        WordsConcat(p[n..], q);
        WordsConcatWord(p, q, n);
      }
    } else {
      assert p + q == q;
    }
  }

  /** A run that is maximal is the one `RunLen` measures. */
  lemma {:induction false} RunLenUnique(s: string, n: nat)
    requires n <= |s| && AllWordChars(s[..n]) && (n < |s| ==> !IsWordChar(s[n]))
    ensures RunLen(s) == n
    decreases |s|
  {
    if n > 0 {
      assert s[..n][0] == s[0];
      assert s[1..][..n - 1] == s[..n][1..];
      RunLenUnique(s[1..], n - 1);
    } else if |s| > 0 {
      assert !IsWordChar(s[0]);
    }
  }

  /** A word followed by a delimiter. */
  lemma WordsOfWord(w: string, d: char)
    requires |w| > 0 && AllWordChars(w) && !IsWordChar(d)
    ensures Words(w + [d]) == [w]
  {
    var s := w + [d];
    assert s[..|w|] == w;
    RunLenUnique(s, |w|);
    assert s[|w|..] == [d];
    assert RunLen([d]) == 0;
    assert Words([d]) == Words([d][1..]) == Words([]);
    assert Words(s) == [w] + Words([d]);
  }

  /** A run with no delimiter after it has no words. */
  lemma WordsOfRun(w: string)
    requires |w| > 0 && AllWordChars(w)
    ensures Words(w) == []
  {
    assert w[..|w|] == w;
    RunLenUnique(w, |w|);
  }

  // ---------------------------------------------------------------- match

  /** The words of `s` that are keys of `whitelist`, in order. */
  function Whitelisted(ws: seq<string>, whitelist: map<string, bool>): (r: seq<string>)
    ensures forall w :: w in r <==> w in ws && w in whitelist
    ensures IsSubsequence(r, ws)
  {
    if |ws| == 0 then []
    else
      var rest := Whitelisted(ws[1..], whitelist);
      assert forall w :: w in ws <==> w == ws[0] || w in ws[1..];
      if ws[0] in whitelist then [ws[0]] + rest else rest
  }

  lemma {:induction false} WhitelistedConcat(a: seq<string>, b: seq<string>, whitelist: map<string, bool>)
    ensures Whitelisted(a + b, whitelist) == Whitelisted(a, whitelist) + Whitelisted(b, whitelist)
  {
    if |a| == 0 {
      assert a + b == b;
    } else {
      assert (a + b)[1..] == a[1..] + b;
      assert (a + b)[0] == a[0];
      WhitelistedConcat(a[1..], b, whitelist);
    }
  }

  lemma WhitelistedOne(w: string, whitelist: map<string, bool>)
    ensures Whitelisted([w], whitelist) == if w in whitelist then [w] else []
  {
    assert [w][1..] == [];
  }

  /** Closing a word at a delimiter adds it to the words seen so far. */
  lemma CloseWord(s: string, lastIndex: nat, index: nat)
    requires lastIndex < index < |s| && !IsWordChar(s[index])
    requires AllWordChars(s[lastIndex..index]) && (lastIndex == 0 || !IsWordChar(s[lastIndex - 1]))
    ensures Words(s[..index + 1]) == Words(s[..lastIndex]) + [s[lastIndex..index]]
  {
    var word := s[lastIndex..index];
    assert s[..index + 1] == s[..lastIndex] + (word + [s[index]]);
    WordsConcat(s[..lastIndex], word + [s[index]]);
    WordsOfWord(word, s[index]);
  }

  /** A delimiter after a boundary adds no word. */
  lemma SkipDelimiter(s: string, index: nat)
    requires index < |s| && !IsWordChar(s[index]) && (index == 0 || !IsWordChar(s[index - 1]))
    ensures Words(s[..index + 1]) == Words(s[..index])
  {
    var c := s[index];
    assert s[..index + 1] == s[..index] + [c];
    WordsConcat(s[..index], [c]);
    assert RunLen([c]) == 0;
    assert Words([c]) == Words([c][1..]);
    assert Words([c][1..]) == [];
    assert Words(s[..index]) + [] == Words(s[..index]);
  }

  /** A word still open at the end of the text adds nothing. */
  lemma DropTrailing(s: string, lastIndex: nat)
    requires lastIndex < |s| && AllWordChars(s[lastIndex..]) && (lastIndex == 0 || !IsWordChar(s[lastIndex - 1]))
    ensures Words(s) == Words(s[..lastIndex])
  {
    SliceJoin(s, lastIndex);
    WordsBeforeRun(s[..lastIndex], s[lastIndex..]);
  }

  lemma SliceJoin(s: string, i: nat)
    requires i <= |s|
    ensures s[..i] + s[i..] == s
  {
  }

  lemma WordsBeforeRun(p: string, word: string)
    requires |word| > 0 && AllWordChars(word) && (|p| == 0 || !IsWordChar(p[|p| - 1]))
    ensures Words(p + word) == Words(p)
  {
    WordsConcat(p, word);
    WordsOfRun(word);
    assert Words(p) + [] == Words(p);
  }

  /** The whitelisted words once a word is closed. */
  lemma CloseWhitelisted(s: string, lastIndex: nat, index: nat, whitelist: map<string, bool>)
    requires lastIndex < index < |s| && !IsWordChar(s[index])
    requires AllWordChars(s[lastIndex..index]) && (lastIndex == 0 || !IsWordChar(s[lastIndex - 1]))
    ensures Whitelisted(Words(s[..index + 1]), whitelist) ==
      Whitelisted(Words(s[..lastIndex]), whitelist) + if s[lastIndex..index] in whitelist then [s[lastIndex..index]] else []
  {
    CloseWord(s, lastIndex, index);
    WhitelistedConcat(Words(s[..lastIndex]), [s[lastIndex..index]], whitelist);
    WhitelistedOne(s[lastIndex..index], whitelist);
  }

  /** The state of `match` after scanning `s[..index]`: outside a word, `r` holds the
      whitelisted words so far; inside one, the open word starts at `lastIndex` after a delimiter
      (or the start) and `r` holds the whitelisted words before it. */
  ghost predicate Scanned(s: string, whitelist: map<string, bool>, inWord: bool, lastIndex: nat, index: nat, r: seq<string>) {
    && lastIndex <= index <= |s|
    && (!inWord ==> (index == 0 || !IsWordChar(s[index - 1])) && r == Whitelisted(Words(s[..index]), whitelist))
    && (inWord ==>
          && lastIndex < index && AllWordChars(s[lastIndex..index])
          && (lastIndex == 0 || !IsWordChar(s[lastIndex - 1]))
          && r == Whitelisted(Words(s[..lastIndex]), whitelist))
  }

  /** A word character opens a word or extends the open one. */
  lemma ScanWordChar(s: string, whitelist: map<string, bool>, inWord: bool, lastIndex: nat, index: nat, r: seq<string>)
    requires Scanned(s, whitelist, inWord, lastIndex, index, r) && index < |s| && IsWordChar(s[index])
    ensures Scanned(s, whitelist, true, if inWord then lastIndex else index, index + 1, r)
  {
    var l := if inWord then lastIndex else index;
    assert s[l..index + 1] == s[l..index] + [s[index]];
  }

  /** A delimiter closes the open word, keeping it when it is whitelisted. */
  lemma ScanClose(s: string, whitelist: map<string, bool>, lastIndex: nat, index: nat, r: seq<string>)
    requires Scanned(s, whitelist, true, lastIndex, index, r) && index < |s| && !IsWordChar(s[index])
    ensures var word := s[lastIndex..index];
      Scanned(s, whitelist, false, lastIndex, index + 1, r + if word in whitelist then [word] else [])
  {
    CloseWhitelisted(s, lastIndex, index, whitelist);
  }

  /** A delimiter outside a word adds nothing. */
  lemma ScanSkip(s: string, whitelist: map<string, bool>, lastIndex: nat, index: nat, r: seq<string>)
    requires Scanned(s, whitelist, false, lastIndex, index, r) && index < |s| && !IsWordChar(s[index])
    ensures Scanned(s, whitelist, false, lastIndex, index + 1, r)
  {
    SkipDelimiter(s, index);
  }

  /** At the end of the text, a word still open is dropped. */
  lemma ScanDone(s: string, whitelist: map<string, bool>, inWord: bool, lastIndex: nat, r: seq<string>)
    requires Scanned(s, whitelist, inWord, lastIndex, |s|, r)
    ensures r == Whitelisted(Words(s), whitelist)
  {
    assert s[..|s|] == s;
    if inWord {
      DropTrailing(s, lastIndex);
    }
  }

  /** match(s, whitelistWordSet) as written: a scan that opens a word at its first word
      character and closes it at the next delimiter, keeping it if it is a key of the whitelist.
      Nothing closes a word still open at the end of the text. */
  method Match(s: string, whitelist: map<string, bool>) returns (r: seq<string>)
    ensures r == Whitelisted(Words(s), whitelist)
  {
    r := [];
    var inWord := false;
    var lastIndex := 0;
    var index := 0;
    while index < |s|
      invariant Scanned(s, whitelist, inWord, lastIndex, index, r)
    {
      var c := s[index];
      if IsWordChar(c) {
        ScanWordChar(s, whitelist, inWord, lastIndex, index, r);
        if !inWord {
          inWord := true;
          lastIndex := index;
        }
      } else {
        if inWord {
          var word := s[lastIndex..index];
          ScanClose(s, whitelist, lastIndex, index, r);
          if word in whitelist {
            r := r + [word];
          }
          inWord := false;
        } else {
          ScanSkip(s, whitelist, lastIndex, index, r);
        }
      }
      index := index + 1;
    }
    ScanDone(s, whitelist, inWord, lastIndex, r);
  }

  /** `match` keeps exactly the whitelisted words, whatever the order. */
  lemma MatchMembers(s: string, whitelist: map<string, bool>, w: string)
    ensures w in Whitelisted(Words(s), whitelist) <==> w in whitelist && exists i :: WordAt(s, i, w)
  {
    WordsIffWordAt(s, w);
  }

  /** getSqlTables(sql, tableMap): the whitelisted words of the text with every line break
      deleted. */
  method GetSqlTables(sql: string, tableMap: map<string, bool>) returns (tables: seq<string>)
    ensures forall w :: w in tables <==> w in tableMap && exists i :: WordAt(ReplaceChar(sql, '\n', ""), i, w)
    ensures IsSubsequence(tables, Words(ReplaceChar(sql, '\n', "")))
    ensures tables == Whitelisted(Words(ReplaceChar(sql, '\n', "")), tableMap)
  {
    var nonStr := ReplaceChar(sql, '\n', "");
    tables := Match(nonStr, tableMap);
    forall w ensures w in tables <==> w in tableMap && exists i :: WordAt(nonStr, i, w) {
      MatchMembers(nonStr, tableMap, w);
    }
  }

  /** A word repeated in the text is reported each time. */
  lemma DuplicatesKept()
    ensures Whitelisted(Words("t t "), map["t" := true]) == ["t", "t"]
  {
    var s := "t t ";
    WordsOfWord("t", ' ');
    assert "t " == "t" + [' '];
    assert s == "t " + "t ";
    WordsConcat("t ", "t ");
    assert Words(s) == ["t"] + ["t"];
    WhitelistedConcat(["t"], ["t"], map["t" := true]);
    WhitelistedOne("t", map["t" := true]);
  }

  /** A word that runs to the end of the text is not reported. */
  lemma TrailingWordDropped()
    ensures Whitelisted(Words("a b"), map["a" := true, "b" := true]) == ["a"]
  {
    WordsOfWord("a", ' ');
    WordsOfRun("b");
    assert "a " == "a" + [' '];
    assert "a b" == "a " + "b";
    WordsConcat("a ", "b");
    assert Words("a b") == ["a"] + [];
    WhitelistedOne("a", map["a" := true, "b" := true]);
  }

  /** Deleting line breaks joins the two halves of a word split over a line. */
  lemma NewlineJoinsWords()
    ensures Whitelisted(Words(ReplaceChar("ab\ncd ", '\n', "")), map["abcd" := true]) == ["abcd"]
  {
    ExampleLineJoined();
    WordsOfWord("abcd", ' ');
    assert "abcd " == "abcd" + [' '];
  }

  lemma ExampleLineJoined()
    ensures ReplaceChar("ab\ncd ", '\n', "") == "abcd "
  {
    var s := "ab\ncd ";
    assert s[1..] == "b\ncd " && s[2..] == "\ncd " && s[3..] == "cd ";
    assert ReplaceChar("cd ", '\n', "") == "cd ";
  }

  // ---------------------------------------------------------------- getTableMap

  datatype Table = Table(name: string, subTables: seq<Table>)

  /** The names of every table in the tree, nested ones included. */
  ghost predicate InTree(ts: seq<Table>, n: string)
    decreases ts
  {
    exists k :: 0 <= k < |ts| && (ts[k].name == n || InTree(ts[k].subTables, n))
  }

  /** getTableMap(tableMap, schemaTable): every table name, nested ones included, set to true;
      nothing else changes. */
  function MarkTables(m: map<string, bool>, ts: seq<Table>): (r: map<string, bool>)
    ensures forall n :: n in r <==> n in m || InTree(ts, n)
    ensures forall n :: n in r && InTree(ts, n) ==> r[n]
    ensures forall n :: n in m && !InTree(ts, n) ==> r[n] == m[n]
    decreases ts
  {
    if |ts| == 0 then m
    else
      var t := ts[0];
      var m1 := m[t.name := true];
      var m2 := if |t.subTables| > 0 then MarkTables(m1, t.subTables) else m1;
      var r := MarkTables(m2, ts[1..]);
      assert forall n :: InTree(ts, n) <==> n == t.name || InTree(t.subTables, n) || InTree(ts[1..], n) by {
        forall n ensures InTree(ts, n) <==> n == t.name || InTree(t.subTables, n) || InTree(ts[1..], n) {
          if InTree(ts[1..], n) {
            var k :| 0 <= k < |ts[1..]| && (ts[1..][k].name == n || InTree(ts[1..][k].subTables, n));
            assert ts[k + 1] == ts[1..][k];
          }
          if InTree(ts, n) {
            var k :| 0 <= k < |ts| && (ts[k].name == n || InTree(ts[k].subTables, n));
            if k > 0 {
              assert ts[1..][k - 1] == ts[k];
            }
          }
        }
      }
      r
  }
}

=== FILE: strings.dfy ===
/** The parts of Go's `strings`, `path` and `path/filepath` packages the configuration core relies on,
    restricted to the forms in which the core calls them (single-character separators, '/' paths). */
module Strings {

  predicate HasPrefix(s: string, p: string) {
    |p| <= |s| && s[..|p|] == p
  }

  predicate HasSuffix(s: string, p: string) {
    |p| <= |s| && s[|s| - |p|..] == p
  }

  /** Position of the first `c` in `s`. */
  function IndexOf(s: string, c: char): (k: nat)
    requires c in s
    ensures k < |s| && s[k] == c && c !in s[..k]
  {
    if s[0] == c then 0
    else
      assert c in s[1..] by { var j :| 0 <= j < |s| && s[j] == c; assert s[1..][j - 1] == c; }
      var k := 1 + IndexOf(s[1..], c);
      assert s[..k] == [s[0]] + s[1..][..k - 1];
      k
  }

  /** strings.Split(s, string(c)): the pieces of `s` between occurrences of `c`. */
  function Split(s: string, c: char): (parts: seq<string>)
    ensures |parts| >= 1
    ensures forall i :: 0 <= i < |parts| ==> c !in parts[i]
    decreases |s|
  {
    if c !in s then [s]
    else
      var k := IndexOf(s, c);
      [s[..k]] + Split(s[k + 1..], c)
  }

  /** strings.Join(parts, string(c)). */
  function Join(parts: seq<string>, c: char): string
  {
    if |parts| == 0 then ""
    else if |parts| == 1 then parts[0]
    else parts[0] + [c] + Join(parts[1..], c)
  }

  /** Joining the pieces of a split gives back the original string. */
  lemma {:induction false} SplitJoin(s: string, c: char)
    ensures Join(Split(s, c), c) == s
    decreases |s|
  {
    if c in s {
      var k := IndexOf(s, c);
      SplitJoin(s[k + 1..], c);
      JoinCons(s[..k], Split(s[k + 1..], c), c);
      assert s == s[..k] + [c] + s[k + 1..];
    }
  }

  lemma JoinCons(p: string, rest: seq<string>, c: char)
    requires |rest| >= 1
    ensures Join([p] + rest, c) == p + [c] + Join(rest, c)
  {
    assert ([p] + rest)[1..] == rest;
  }

  /** Split yields a second piece exactly when the separator occurs. */
  lemma {:induction false} SplitHasSecond(s: string, c: char)
    ensures |Split(s, c)| >= 2 <==> c in s
  {
  }

  /** strings.Replace(s, string(c), rep, -1): every `c` replaced by `rep`. */
  function ReplaceChar(s: string, c: char, rep: string): string
  {
    if |s| == 0 then ""
    else (if s[0] == c then rep else [s[0]]) + ReplaceChar(s[1..], c, rep)
  }

  /** Replacing distributes over concatenation. */
  lemma {:induction false} ReplaceCharConcat(a: string, b: string, c: char, rep: string)
    ensures ReplaceChar(a + b, c, rep) == ReplaceChar(a, c, rep) + ReplaceChar(b, c, rep)
  {
    if |a| > 0 {
      assert (a + b)[1..] == a[1..] + b;
      ReplaceCharConcat(a[1..], b, c, rep);
    } else {
      assert a + b == b;
    }
  }

  /** strings.Replace(s, target, rep, 1): the first occurrence of `target` replaced by `rep`. */
  function ReplaceFirst(s: string, target: string, rep: string): string
    decreases |s|
  {
    if HasPrefix(s, target) then rep + s[|target|..]
    else if |s| == 0 then s
    else [s[0]] + ReplaceFirst(s[1..], target, rep)
  }

  /** path.IsAbs. */
  predicate IsAbs(p: string) {
    |p| > 0 && p[0] == '/'
  }

  /** filepath.Join(a, b), without the lexical cleaning of ".." and "//". */
  function PathJoin(a: string, b: string): string
  {
    if a == "" then b else if b == "" then a else a + "/" + b
  }

  /** Each of `names` joined onto `dir`. */
  function JoinAll(dir: string, names: seq<string>): (ps: seq<string>)
    ensures |ps| == |names| && forall i :: 0 <= i < |names| ==> ps[i] == PathJoin(dir, names[i])
  {
    if |names| == 0 then [] else [PathJoin(dir, names[0])] + JoinAll(dir, names[1..])
  }

  /** Index of the last '/' in `p[..i]`, or -1. */
  function LastSlash(p: string, i: nat): (k: int)
    requires i <= |p|
    ensures -1 <= k < i
    ensures k >= 0 ==> p[k] == '/'
    ensures forall j :: k < j < i ==> p[j] != '/'
  {
    if i == 0 then -1 else if p[i - 1] == '/' then i - 1 else LastSlash(p, i - 1)
  }

  /** filepath.Dir(p) without cleaning: everything before the last '/', or "." when there is none. */
  function PathDir(p: string): string
  {
    var k := LastSlash(p, |p|);
    if k < 0 then "." else if k == 0 then "/" else p[..k]
  }

  /** filepath.Base(p) without cleaning: everything after the last '/'. */
  function PathBase(p: string): (b: string)
    ensures HasSuffix(p, b) && '/' !in b
  {
    var k := LastSlash(p, |p|);
    p[k + 1..]
  }

  /** Scans `p[..i+1]` backwards for the extension, stopping at a '/'. */
  function ExtScan(p: string, i: int): (e: string)
    requires -1 <= i < |p|
    ensures e == "" || (e[0] == '.' && HasSuffix(p, e))
    decreases i + 1
  {
    if i < 0 || p[i] == '/' then ""
    else if p[i] == '.' then p[i..]
    else ExtScan(p, i - 1)
  }

  /** path.Ext: the suffix from the final '.' of the last path element, or "" if it has none. */
  function Ext(p: string): string
  {
    ExtScan(p, |p| - 1)
  }

  /** The directory walks filter on path.Ext(name) == ".yaml" and the directory expansion on
      strings.HasSuffix(name, ".yaml"); the two filters accept the same names. */
  lemma ExtIsYamlIffSuffix(p: string)
    ensures Ext(p) == ".yaml" <==> HasSuffix(p, ".yaml")
  {
    if HasSuffix(p, ".yaml") {
      var n := |p|;
      assert p[n - 5..] == ".yaml";
      assert p[n - 1] == 'l' && p[n - 2] == 'm' && p[n - 3] == 'a' && p[n - 4] == 'y' && p[n - 5] == '.';
      assert ExtScan(p, n - 5) == p[n - 5..];
      assert ExtScan(p, n - 1) == ExtScan(p, n - 2) == ExtScan(p, n - 3) == ExtScan(p, n - 4) == ExtScan(p, n - 5);
    }
  }
}
